=== FILE: README.md ===
# Token bookkeeping of cxn_transformer, in Dafny

This project models the deterministic token bookkeeping of the
`cxn_transformer` repository and proves properties of that model. That
repository trains a language model and a seq2seq Transformer on
whitespace-tokenised text such as the SCAN command-to-action task. The
neural parts are left abstract: the model's next-id choice is a function
parameter for greedy decoding, and a nondeterministic pick for sampling.
What remains is modelled as pure functions over sequences, association
lists and strings:

- **Language-model dataset** (`src/data.py`), module `LmData`.
  - Each kept token gets id `2 +` its position among the distinct tokens in
    first-seen order. Tokens below `min_freq` still use up their position,
    so ids can have gaps.
  - `<pad>`/`<unk>` are written last, as 0 and 1.
  - Also modelled: the inverse vocabulary and the sliding-window examples.
- **Seq2seq dataset** (`src/seq2seq/data.py`), module `Seq2SeqData`.
  - The vocabularies grow by `setdefault(tok, len(vocab))` over reserved
    prefixes: `<pad>,<unk>` on the source side, `<pad>,<unk>,<bos>,<eos>` on
    the target side. Their ids are therefore contiguous.
  - Targets are framed as `[2] + ids + [3]`.
  - Also modelled: the line-count assertion, batch-local right padding
    (`collate_fn`) and batching.
- **Training-step index logic** (`src/seq2seq/train.py`), module
  `Seq2SeqTrain`: the teacher-forcing shift, the padding masks, the
  causal-mask size, and which positions feed the pad-ignoring loss.
- **Evaluation** (`src/seq2seq/evaluate.py`), module `Seq2SeqEval`.
  - Indexing with unk counting.
  - The greedy decode state machine: start at `<bos>`, one id per step, stop
    after `<eos>` or `max_len` steps, drop the `<bos>`.
  - The token-accuracy aggregation. Its reference keeps the trailing `<eos>`
    while the prediction's `<eos>` is stripped, so a perfect prediction of n
    tokens scores n out of n + 1.
- **Generation** (`src/generate.py`), module `LmGenerate`: the seed ids, a
  fixed number of sampled ids, and rendering through the inverse vocabulary
  with an `<unk>` fallback.
- **SCAN helper scripts**:
  - `scan_splitter.py` (`ScanSplitter`): the `IN:`/`OUT:` regular expression,
    characterised through the first `IN:` and the first `OUT:` after it;
  - `fill_back.py` (`FillBack`): placeholder back-substitution and exact-match
    counting;
  - `acc_checker.py` (`AccChecker`): line-wise exact-match counting;
  - `generate_source.py` (`GenerateSource`): prompt-line construction.

Shared modules:

- `Results`: `Option`, `Result`, and the Python exceptions the code can raise.
- `PySeq`: list helpers such as slices, flattening, counting and first-seen
  order.
- `PyStr`: `str.strip`, `str.split`, `str.join` and `str.find` over
  `seq<char>`. Whitespace is the set of characters for which Python's
  `str.isspace` holds, which is also what the pattern's `\s` matches.
- `Dict`: a Python `dict` as an insertion-ordered list of entries, with `get`,
  item assignment, `setdefault` and the `{v: k for k, v in d.items()}`
  inverse.
- `Corpus`: the special tokens and ids, and reading non-blank lines into
  token lists.

Where the code and its description differ, the model follows the code:

- `ParallelTextDataset.__init__` takes no parameters, yet it reads `src_path`
  and is called with three arguments. The dataset is therefore modelled
  through `run`, as a pure function of the two line lists. `__init__` calls
  `run` with a literal `min_freq=1`, so the `min_freq` given to
  `build_dataloader` has no effect, and the model passes 1 as well.
- The generator's empty-prompt seed is commented as random, but it is
  deterministic: the smallest id that is not a special id.
- The commented-out `I_` token transform in `scan_splitter.py` is not part
  of the behaviour. The OUT segment is returned verbatim.

## Model

| member | source | states |
|---|---|---|
| Corpus.NonBlankLines | src/data.py:8 | at most one output per input line; every output is non-empty and neither starts nor ends with whitespace; its order and repeats are fixed by NonBlankLinesOne and NonBlankLinesAppend |
| Corpus.NonBlankLinesOne | src/data.py:8 | a single line is kept, stripped, iff its stripped form is non-empty |
| Corpus.NonBlankLinesAppend | src/seq2seq/data.py:15-17 | the filter distributes over concatenation, so kept lines stay in file order with repeats, which is what pairs source line i with target line i |
| Corpus.NonBlankLinesMembers | src/data.py:8 | the kept lines are exactly the non-empty stripped input lines, as a set of members |
| Corpus.TokenLines | src/data.py:10 | one non-empty token list per non-blank line |
| Corpus.IndexTokens | src/data.py:23 | each token maps to its vocabulary id, or to the default id when absent, position by position |
| Dict.InvertRoundTrip | src/data.py:19 | for a dict with distinct values, the inverse maps `v` to `k` exactly when the dict maps `k` to `v` |
| Dict.InvertLastWins | fill_back.py:32 | when several keys share a value, the inverted dict maps the value to the last of them |
| Dict.InvertSwaps | fill_back.py:17 | inverting an injective table swaps each entry in place, keeping the order |
| Dict.PutGet | src/data.py:17-18 | after `d[k] = v`, `k` maps to `v` and every other key keeps its lookup |
| LmData.KeptEntries | src/data.py:12-16 | the comprehension's entries are at most one per distinct token |
| LmData.KeptEntriesGet | src/data.py:12-16 | a token has an entry iff it is distinct-listed and frequent enough, and then its id is base + its index in first-seen order |
| LmData.KeptEntriesShape | src/data.py:12-16 | every entry's id lies in `base` to `base` + (number of distinct tokens) - 1 and names the token at that position; ids strictly increase along the entries |
| LmData.KeptEntriesAll | src/data.py:13-15 | when nothing is filtered, the entries are exactly `(token_i, base + i)` |
| LmData.KeptEntriesDistinct | src/data.py:12-16 | the entries have distinct keys, distinct ids, and ids at least base |
| LmData.BuildVocab | src/data.py:11-18 | the vocabulary has distinct keys and no two tokens share an id |
| LmData.VocabLookup | src/data.py:11-18 | `<pad>` is 0 and `<unk>` is 1 even when the corpus holds them; a frequent token is 2 + its first-seen index among distinct tokens; anything else is absent |
| LmData.RareTokenIndexesAsUnk | src/data.py:15-23 | a token below `min_freq` (or unseen) is absent and indexes to 1 |
| LmData.VocabFirstSeenOrder | src/data.py:11-16 | for two kept tokens, the first has the smaller id iff it appears first in the corpus |
| LmData.VocabContiguous | src/data.py:12-18 | with `min_freq <= 1` and no special spellings in the corpus, the vocabulary has `distinct + 2` entries and its ids are exactly `0..len-1` |
| LmData.AllKeptWithoutSpecials | src/data.py:12-16 | with `min_freq <= 1` every distinct token is kept at id `2 + i`, and no special token is among them |
| LmData.SpecialsAfterNumbered | src/data.py:12-18 | appending pad 0 and unk 1 after ids `2..n+1` gives ids exactly `0..len-1` |
| LmData.VocabGapWhenFiltered | src/data.py:13-15 | on `a b b` with `min_freq = 2`, `b` gets id 3 in a vocabulary of size 3, so an id can reach the size |
| LmData.InvVocabRoundTrip | src/data.py:19 | `inv_vocab[vocab[t]] == t` and conversely, for every entry |
| LmData.Windows | src/data.py:24-25 | a line of L ids gives `max(0, L - seq_len)` examples |
| LmData.WindowAt | src/data.py:25 | example i has source `ids[i..i+seq_len)` and target `ids[i+1..i+seq_len]`, so the target is the source shifted by one |
| LmData.LineWindows | src/data.py:22-25 | one window list per line, over that line's ids with unknown tokens as 1 |
| LmData.TextDataset | src/data.py:8-25 | `seq_len` is kept; the vocabulary is built from the non-blank lines' words; with `seq_len >= 0` every example is two lists of `seq_len` ids, each target id being the source id after it |
| LmData.LineWindowsShifted | src/data.py:22-25 | every example of the concatenated windows has source and target of length `seq_len`, the target moved on by one |
| LmData.TextDatasetInverse | src/data.py:19 | the dataset's inverse vocabulary is exact in both directions |
| LmData.ExamplesInLineOrder | src/data.py:22-25 | the example at offset i of line l sits after all examples of earlier lines; its source holds that line's ids from i and its target the ids from i+1, unknown tokens as 1 |
| LmData.ExampleIsWindow | src/data.py:22-25 | conversely, every example is the window at some offset i of some line l, with those source and target ids |
| LmData.TextDatasetWindow | src/data.py:8-25 | in the dataset itself, offset i of non-blank line l gives an example whose source is the line's ids from i and whose target is the ids from i+1 |
| LmData.TextDatasetExampleIsWindow | src/data.py:8-25 | every example of the dataset is such a window of some non-blank line |
| Seq2SeqData.Extend | src/seq2seq/data.py:27-29 | the `setdefault` loop never shrinks the vocabulary; what it adds is stated by Seq2SeqData.ExtendKeys, Seq2SeqData.ExtendGetExisting and Seq2SeqData.ExtendNewIdsFollowOrder |
| Seq2SeqData.Step | src/seq2seq/data.py:27-29 | a frequent token not yet present is appended with id `len(vocab)`; otherwise the vocabulary is unchanged |
| Seq2SeqData.StepAppends | src/seq2seq/data.py:27-29 | appending a new token adds its key at the end and keeps ids contiguous and keys distinct |
| Seq2SeqData.ExtendKeepsPrefix | src/seq2seq/data.py:26-34 | the loop only appends, so the reserved entries stay a prefix, and contiguity and distinct keys are kept |
| Seq2SeqData.ExtendKeys | src/seq2seq/data.py:27-29 | a token ends up present iff it was present before or is a frequent token of the corpus |
| Seq2SeqData.ContiguousGet | src/seq2seq/data.py:29 | in a contiguous vocabulary a token's id is its position |
| Seq2SeqData.ExtendGetExisting | src/seq2seq/data.py:29 | `setdefault` never reassigns an existing token, reserved ones included |
| Seq2SeqData.ExtendNewIdAtLeast | src/seq2seq/data.py:29 | a newly added token gets an id at or above the size before the loop |
| Seq2SeqData.ExtendHeadFirst | src/seq2seq/data.py:27-29 | the first frequent new token gets exactly the old size, later ones more |
| Seq2SeqData.ExtendNewIdsFollowOrder | src/seq2seq/data.py:27-29 | new tokens get increasing ids in first-seen order |
| Seq2SeqData.StepKeepsOrder | src/seq2seq/data.py:27-29 | one step keeps the loop's invariant: still contiguous, both tokens still new and in the same order |
| Seq2SeqData.ContiguousInjective | src/seq2seq/data.py:26-34 | contiguous ids are pairwise distinct |
| Seq2SeqData.ReservedShape | src/seq2seq/data.py:26-31 | the reserved prefixes are `{<pad>:0, <unk>:1}` and `{<pad>:0, <unk>:1, <bos>:2, <eos>:3}`, contiguous |
| Seq2SeqData.SideVocab | src/seq2seq/data.py:23-34 | a side's vocabulary is at least as large as its reserved prefix |
| Seq2SeqData.SideVocabShape | src/seq2seq/data.py:23-34 | the reserved prefix is kept; ids are contiguous and distinct; a token is present iff reserved or counted at least `max(min_freq, 1)` times |
| Seq2SeqData.SideVocabFirstSeenOrder | src/seq2seq/data.py:27-34 | two frequent unreserved tokens get ids in the order they first appear |
| Seq2SeqData.FrameTarget | src/seq2seq/data.py:39 | the target is 2, then each token's id or 1, then 3, so it is two longer than the line |
| Seq2SeqData.Run | src/seq2seq/data.py:13-40 | fails with the assertion message iff the non-blank line counts differ; otherwise one example per line pair |
| Seq2SeqData.RunVocabs | src/seq2seq/data.py:26-34 | both vocabularies start with their reserved entries and are contiguous with distinct keys |
| Seq2SeqData.RunExample | src/seq2seq/data.py:36-40 | example i is the source ids of line i (unknown as 1, no framing) and the framed target ids, all below the vocabulary sizes |
| Seq2SeqData.ContiguousLookup | src/seq2seq/data.py:38 | a lookup with default 1 in a contiguous vocabulary of at least two entries is a valid id |
| Seq2SeqData.IndexTokensInRange | src/seq2seq/data.py:38-39 | every indexed token is a valid id |
| Seq2SeqData.FrameTargetInRange | src/seq2seq/data.py:39 | every framed target id, bos and eos included, is a valid id |
| Seq2SeqData.RunTargetRoundTrip | src/seq2seq/data.py:31-39 | with `min_freq <= 1` the inverse target vocabulary recovers every target token from its id |
| Seq2SeqData.MaxLen | src/seq2seq/data.py:50-51 | bounds every row length and is attained by some row |
| Seq2SeqData.PadToShape | src/seq2seq/data.py:52-53 | a padded row has the target length, keeps the row as prefix, and is 0 after it |
| Seq2SeqData.PadRows | src/seq2seq/data.py:52-53 | padding keeps the number of rows |
| Seq2SeqData.PadRowsShape | src/seq2seq/data.py:50-53 | each padded row has the batch maximum length, its original prefix, and a suffix of 0s |
| Seq2SeqData.Sources | src/seq2seq/data.py:49 | `zip(*batch)` first half: the i-th source row |
| Seq2SeqData.Targets | src/seq2seq/data.py:49 | `zip(*batch)` second half: the i-th target row |
| Seq2SeqData.Collate | src/seq2seq/data.py:48-54 | an empty batch fails (`max` of nothing); otherwise both sides keep one row per example |
| Seq2SeqData.CollateRecovers | src/seq2seq/data.py:48-54 | each side is padded to its own maximum, keeps each row as prefix, with only 0s after it |
| Seq2SeqData.CollateSidesIndependent | src/seq2seq/data.py:50-53 | a concrete batch whose source pads to 3 and target to 4 |
| Seq2SeqData.Chunks | src/seq2seq/data.py:58 | each batch is non-empty and holds at most `batch_size` examples |
| Seq2SeqData.ChunksPartition | src/seq2seq/data.py:58 | the batches concatenate back to the dataset in order |
| Seq2SeqData.ChunksFull | src/seq2seq/data.py:58 | every batch but the last is full |
| Seq2SeqData.ChunksAt | src/seq2seq/data.py:58 | row k of batch j is example `j * batch_size + k` |
| Seq2SeqData.BuildDataloader | src/seq2seq/data.py:56-59 | the dataset is built first, by `run` with the `min_freq=1` of line 11, and its error is returned; then a batch size below one fails; otherwise the result is `Ok` with `run`'s dataset and, in order, the collated batches of its partition |
| Seq2SeqData.BatchesRecover | src/seq2seq/data.py:48-58 | collated chunks hold example `j * size + k` in row k of batch j, recoverable on both sides |
| Seq2SeqData.LoaderRecoversExample | src/seq2seq/data.py:56-59 | the loader loses no example: cutting row k of batch j to the example's length gives example `j * batch_size + k` back, on both sides |
| Seq2SeqData.LoaderIgnoresMinFreq | src/seq2seq/data.py:11 | the result does not depend on the `min_freq` argument |
| Seq2SeqTrain.Width | src/seq2seq/train.py:53 | for a rectangular batch, every row has the reported width |
| Seq2SeqTrain.PadMask | src/seq2seq/train.py:54-55 | the mask is set at k iff the id at k is 0 |
| Seq2SeqTrain.PrepareBatch | src/seq2seq/train.py:51-55 | one shifted input, one shifted output and one mask per target row, and one mask per source row |
| Seq2SeqTrain.ShiftByOne | src/seq2seq/train.py:51-52 | input and output rows have length L-1; input k is row k, output k is row k+1, so output k is input k+1 |
| Seq2SeqTrain.CausalLength | src/seq2seq/train.py:53 | the causal mask is built for the width of the shifted input, and both shifted tensors are rectangular |
| Seq2SeqTrain.LossCount | src/seq2seq/train.py:43 | the positions that feed the loss are at most the row's length; LossCountPositions says which they are |
| Seq2SeqTrain.LossCountPositions | src/seq2seq/train.py:43 | the count equals the number of positions whose expected id is not the ignored index |
| Seq2SeqTrain.AllPadAddsNothing | src/seq2seq/train.py:43 | a row of only pad ids feeds nothing to the loss |
| Seq2SeqTrain.IgnoreIndexIsPad | src/seq2seq/train.py:43 | the ignored index read from the target vocabulary is 0 |
| Seq2SeqTrain.CollatedLossPositions | src/seq2seq/train.py:51-60 | for a collated target without pad ids, output k feeds the loss iff `k < len - 1`, and there it expects `target[k+1]`; the input pad mask is set exactly on the padded tail |
| Seq2SeqTrain.CollatedLossCount | src/seq2seq/train.py:43-60 | such a target feeds exactly `len(tgt) - 1` positions to the loss, however wide the batch is |
| Seq2SeqTrain.BatchSizesSum | src/seq2seq/train.py:63-64 | the batch sizes of an epoch add up to the dataset size |
| Seq2SeqEval.LiteralUnkCounted | src/seq2seq/evaluate.py:33-35 | a literal `<unk>` token indexes to the unk id and so is counted |
| Seq2SeqEval.IndexLine | src/seq2seq/evaluate.py:31-36 | one id per token |
| Seq2SeqEval.IndexLines | src/seq2seq/evaluate.py:30-44 | one id list per line |
| Seq2SeqEval.IndexSide | src/seq2seq/evaluate.py:31-36 | the loop's ids are the indexed line and its counter is the number of ids equal to the unk id, at most the token count |
| Seq2SeqEval.IndexLineSnoc | src/seq2seq/evaluate.py:32-36 | indexing one more token appends exactly its id |
| Seq2SeqEval.EvalExample | src/seq2seq/evaluate.py:37-43 | the target is two longer than its token line |
| Seq2SeqEval.EvalExampleFramed | src/seq2seq/evaluate.py:31-43 | the source is the indexed line; the target is the vocabulary's bos id, the indexed line, and its eos id |
| Seq2SeqEval.EvalData | src/seq2seq/evaluate.py:30-44 | one example per line pair |
| Seq2SeqEval.IndexPairs | src/seq2seq/evaluate.py:27-44 | the loop builds exactly the examples, and each counter is the number of unk ids over its side |
| Seq2SeqEval.IndexPair | src/seq2seq/evaluate.py:31-43 | one iteration's example and the unk counts of its two lines |
| Seq2SeqEval.LoadTokenizedDataset | src/seq2seq/evaluate.py:19-57 | fails with the assertion message iff the non-blank line counts differ; otherwise the given vocabularies, the examples, and the two unk counts |
| Seq2SeqEval.TotalLengthIndexLines | src/seq2seq/evaluate.py:30-44 | indexing keeps the total token count |
| Seq2SeqEval.UnkCountBound | src/seq2seq/evaluate.py:33-41 | a side's unk counter never exceeds its token count |
| Seq2SeqEval.IndexLineAgrees | src/seq2seq/evaluate.py:33 | with `<unk>` at id 1, evaluation indexing agrees with training indexing |
| Seq2SeqEval.RunSpecials | src/seq2seq/data.py:26-31 | vocabularies built by `run` hold unk 1, bos 2 and eos 3 |
| Seq2SeqEval.EvalExampleAgrees | src/seq2seq/evaluate.py:31-43 | with the standard special ids, an evaluation example is the training example |
| Seq2SeqEval.LoadMatchesRun | src/seq2seq/evaluate.py:30-44 | reloading `run`'s lines with `run`'s vocabularies rebuilds exactly `run`'s examples |
| Seq2SeqEval.Continue | src/seq2seq/evaluate.py:65-74 | the loop only appends, at most one id per remaining step |
| Seq2SeqEval.DecodeIds | src/seq2seq/evaluate.py:60-75 | the ids `greedy_decode` returns: at most `max_len` of them, none for a non-positive `max_len`; pinned down by Seq2SeqEval.DecodeShape and Seq2SeqEval.DecodeUnique |
| Seq2SeqEval.ContinueShape | src/seq2seq/evaluate.py:65-74 | each appended id is the choice on the prefix before it; no eos before the last; stopping early means the last id is eos |
| Seq2SeqEval.DecodeShape | src/seq2seq/evaluate.py:64-75 | the result is at most `max_len` long, each id is the choice after `[bos]` and the ids before it, eos only last, and a shorter result ends in eos |
| Seq2SeqEval.DecodeUnique | src/seq2seq/evaluate.py:64-75 | any list with those four properties is the decode result |
| Seq2SeqEval.SameChoicesAgree | src/seq2seq/evaluate.py:71-72 | two runs of the same chooser agree on their common prefix |
| Seq2SeqEval.Decode | src/seq2seq/evaluate.py:64-75 | the loop computes the decode result |
| Seq2SeqEval.GreedyDecode | src/seq2seq/evaluate.py:60-75 | fails with KeyError iff bos is missing, or eos is missing and at least one step runs; the result has at most `max_len` ids |
| Seq2SeqEval.DecodeWithoutEos | src/seq2seq/evaluate.py:65-75 | for every chooser that never picks eos, every source and every bos, the decode yields exactly `max(max_len, 0)` ids |
| Seq2SeqEval.DecodeConstantChooser | src/seq2seq/evaluate.py:65-75 | a concrete case: always choosing 7 with eos 3 and `max_len` 3 yields `[7, 7, 7]` |
| Seq2SeqEval.StripEos | src/seq2seq/evaluate.py:87-88 | the prediction is unchanged, or loses exactly one trailing eos |
| Seq2SeqEval.Reference | src/seq2seq/evaluate.py:93 | the reference is the target without its first id |
| Seq2SeqEval.MatchCount | src/seq2seq/evaluate.py:96-99 | matches are at most the length of either side |
| Seq2SeqEval.ScoreExample | src/seq2seq/evaluate.py:85-100 | correct is at most total, and total is the reference length |
| Seq2SeqEval.Accuracy | src/seq2seq/evaluate.py:101 | 0 for a zero total, else the exact ratio; always within [0, 1] |
| Seq2SeqEval.Budget | src/seq2seq/evaluate.py:85 | the budget is the reference length plus 3: room for every reference id, its `<eos>` included, and two more |
| Seq2SeqEval.TallyAll | src/seq2seq/evaluate.py:84-100 | summed correct never exceeds summed total |
| Seq2SeqEval.TallyTotal | src/seq2seq/evaluate.py:93-100 | the total is the sum of target lengths minus one per example |
| Seq2SeqEval.ComputeAccuracy | src/seq2seq/evaluate.py:78-101 | no data gives 0.0; KeyError iff there is data and bos or eos is missing; otherwise the accuracy of the summed tally, within [0, 1] |
| Seq2SeqEval.TallyLoop | src/seq2seq/evaluate.py:84-100 | the loop's counters are the summed tally |
| Seq2SeqEval.ScoreOne | src/seq2seq/evaluate.py:85-100 | one iteration adds the score of the decoded, eos-stripped prediction |
| Seq2SeqEval.TallySnoc | src/seq2seq/evaluate.py:84-100 | scoring one more example adds its counts to the tally |
| Seq2SeqEval.ReferenceRoundTrip | src/seq2seq/evaluate.py:87-93 | stripping eos from the reference of a framed target gives back the ids |
| Seq2SeqEval.MatchCountSelf | src/seq2seq/evaluate.py:96-99 | a list matches itself everywhere |
| Seq2SeqEval.PerfectPredictionScore | src/seq2seq/evaluate.py:87-100 | a prediction equal to the ids plus eos scores n of n + 1, since the reference keeps its eos |
| Seq2SeqEval.MatchCountPrefix | src/seq2seq/evaluate.py:96-97 | only the first `len(pred)` reference ids are compared |
| Seq2SeqEval.MatchCountIgnoresOverflow | src/seq2seq/evaluate.py:96-97 | prediction ids past the reference's length do not count |
| Seq2SeqEval.AsymmetricTruncation | src/seq2seq/evaluate.py:96-101 | a short prediction is compared on the overlap while the whole reference counts: 2 of 4, accuracy 0.5 |
| LmGenerate.Choices | src/generate.py:24-25 | the choices are increasing ids below the size, none of them special |
| LmGenerate.ChoicesComplete | src/generate.py:25 | every non-special id below the size is a choice |
| LmGenerate.SeedId | src/generate.py:22-26 | the empty-prompt seed is unk or a non-special id below the vocabulary size; LmGenerate.SeedIdLeast says which |
| LmGenerate.SeedIdLeast | src/generate.py:22-26 | the empty-prompt seed is the least non-special id, or unk exactly when every id is special |
| LmGenerate.SeedIdFromThreeIds | src/generate.py:24-26 | with three or more ids the seed is never special |
| LmGenerate.PromptIds | src/generate.py:19-26 | KeyError iff `<unk>` is missing, or the prompt is empty and `<pad>` is missing; otherwise one id per word, or one seed id |
| LmGenerate.PromptTokenIds | src/generate.py:19-21 | a known word becomes its id, an unknown one the `<unk>` id |
| LmGenerate.EmptyPromptSeed | src/generate.py:22-26 | an empty prompt seeds with the deterministic seed over the vocabulary's size and special ids |
| LmGenerate.Sample | src/generate.py:28-36 | exactly `length` ids are appended, the seed stays a prefix, and each new id is below the vocabulary size |
| LmGenerate.Word | src/generate.py:38 | an id renders as its inverse-vocabulary token, or `<unk>` when it has none |
| LmGenerate.Render | src/generate.py:38 | no ids render as the empty string |
| LmGenerate.RenderSplits | src/generate.py:38 | with whitespace-free tokens, splitting the rendered text gives one word per id, in order |
| LmGenerate.Generate | src/generate.py:18-38 | fails iff the seed lookup fails; otherwise the ids are the seed plus `length` valid ids and the text is their rendering |
| ScanSplitter.Markers | scan_splitter.py:13 | the matched group boundaries are ordered and within the line |
| ScanSplitter.MarkersAt | scan_splitter.py:13 | if `p` is the first `IN:` in the line and `q` the first `OUT:` at or after its end, the pattern matches with its groups bounded by `p + 3` and `q` |
| ScanSplitter.MarkersSomeFirst | scan_splitter.py:13 | conversely, every match is bounded by the first `IN:` and the first `OUT:` at or after its end |
| ScanSplitter.MarkersNone | scan_splitter.py:13-15 | the pattern fails iff no `IN:` is followed, after its end, by `OUT:` |
| ScanSplitter.InSegment | scan_splitter.py:13-17 | group 1: empty when the pattern fails, and never starts or ends with whitespace |
| ScanSplitter.InSegmentAt | scan_splitter.py:13-19 | with `p` the first `IN:` and `q` the first `OUT:` after it, the IN part is the text between them with surrounding whitespace removed |
| ScanSplitter.OutSegment | scan_splitter.py:13-17 | group 2: empty when the pattern fails, and never starts with whitespace |
| ScanSplitter.OutSegmentAt | scan_splitter.py:13-20 | with `p` the first `IN:` and `q` the first `OUT:` after it, the OUT part is everything after that `OUT:`, without leading whitespace |
| ScanSplitter.ProcessLine | scan_splitter.py:6-20 | `process_line`: a non-empty result never starts with whitespace, and in input mode never ends with it; its value is given by ScanSplitter.ProcessLineRoundTrip and ScanSplitter.ProcessLineUnmatched |
| ScanSplitter.ProcessLineUnmatched | scan_splitter.py:13-15 | a line without `IN:` followed by `OUT:` yields the empty string |
| ScanSplitter.FirstAfterJunk | scan_splitter.py:13 | text before the first `IN:` is skipped by the lazy prefix |
| ScanSplitter.NoneBetween | scan_splitter.py:13 | no `OUT:` occurs between an `IN:` and the `OUT:` that follows its part, even with no whitespace before that `OUT:` |
| ScanSplitter.AssembledMarkers | scan_splitter.py:13 | in `junk IN: ws part ws OUT: ws rest`, the markers are found where they were placed |
| ScanSplitter.SecondMarker | scan_splitter.py:13 | the first `OUT:` after the IN part is the one placed after it |
| ScanSplitter.InPartRoundTrip | scan_splitter.py:13-19 | the IN part placed in an assembled line is extracted unchanged |
| ScanSplitter.InFromMarkers | scan_splitter.py:13-19 | a part between whitespace runs between the markers is what input mode returns |
| ScanSplitter.OutPartRoundTrip | scan_splitter.py:13-20 | the OUT part placed in an assembled line is extracted unchanged |
| ScanSplitter.OutFromMarkers | scan_splitter.py:17-20 | the text after `OUT:` and its whitespace is what output mode returns |
| ScanSplitter.ProcessLineRoundTrip | scan_splitter.py:6-20 | `process_line` on an assembled line returns the placed IN or OUT part, by mode |
| ScanSplitter.LineOutput | scan_splitter.py:50-55 | one stdin line prints at most one line, never an empty one |
| ScanSplitter.LineOutputSpec | scan_splitter.py:50-55 | a line prints nothing iff it is blank or its result is empty; otherwise it prints the result for the stripped line |
| ScanSplitter.ScanMain | scan_splitter.py:49-55 | at most one printed line per input line |
| ScanSplitter.ScanMainNoBlank | scan_splitter.py:49-55 | no printed line is empty |
| ScanSplitter.ScanMainAppend | scan_splitter.py:49-55 | lines are handled independently and in order |
| ScanSplitter.ScanAssembledLine | scan_splitter.py:49-55 | a whitespace-padded assembled stdin line prints its selected part, or nothing when that part is empty |
| FillBack.ActionWordsShape | fill_back.py:9-16 | `rmap` has distinct keys and distinct values |
| FillBack.ActionTokensDistinct | fill_back.py:9-16 | `rmap` has distinct keys |
| FillBack.WordActionsExact | fill_back.py:9-17 | `rmap_r` is the inversion of `rmap` and is exact in both directions |
| FillBack.RebuildToken | fill_back.py:35-41 | a known `W_` placeholder becomes the action of its word, or is dropped when the word has none; any other token is copied |
| FillBack.Rebuild | fill_back.py:34-41 | the rebuilt line is no longer than the input |
| FillBack.RebuiltLine | fill_back.py:28-47 | a blank predicted line rebuilds to the empty line; its words are given by FillBack.RebuildTokens and FillBack.RebuiltAbstractedLine |
| FillBack.RebuildAppend | fill_back.py:35-41 | tokens are rebuilt independently and in order |
| FillBack.RebuildNoPlaceholders | fill_back.py:35-41 | a line without `W_` tokens is copied unchanged |
| FillBack.RebuildTokens | fill_back.py:35-41 | every output token is an input token or an action token |
| FillBack.PlaceholderRoundTrip | fill_back.py:32-41 | rebuilding the placeholder of a word gives the word's action token, or the token itself |
| FillBack.FillBackRoundTrip | fill_back.py:31-47 | rebuilding a line abstracted with an injective placeholder map gives the line back |
| FillBack.LineCorrect | fill_back.py:47-53 | a blank reference line is matched only by a prediction that rebuilds to nothing, and a matched rebuilt line has no whitespace at either end; FillBack.Verdicts applies it line by line |
| FillBack.AbstractedLineCorrect | fill_back.py:28-54 | the abstraction of a reference line is counted correct, whatever whitespace surrounds it |
| FillBack.RebuiltAbstractedLine | fill_back.py:28-47 | the rebuilt, space-joined line equals the joined reference words |
| FillBack.SplitPadded | fill_back.py:28 | strip-and-split of a padded, space-joined word list gives the list |
| FillBack.Verdicts | fill_back.py:26-54 | one verdict per line, true iff the rebuilt line equals the stripped reference at that index |
| FillBack.Score | fill_back.py:21-59 | IndexError when a word map or reference line is missing, ZeroDivisionError for no lines; otherwise total is the line count and correct the number of true verdicts |
| FillBack.CountCorrect | fill_back.py:26-54 | the counters are the number of verdicts and of true ones |
| FillBack.AllCorrectIff | fill_back.py:53-59 | correct is at most total, with equality iff every line is correct |
| AccChecker.StrippedPairs | acc_checker.py:13-14 | exactly `min(len(olines), len(plines))` pairs, each of the two stripped lines |
| AccChecker.Mismatched | acc_checker.py:16-17 | the reports are at most the pairs |
| AccChecker.Matched | acc_checker.py:16-19 | the matches are at most the pairs |
| AccChecker.MatchedPlusMismatched | acc_checker.py:13-21 | every pair is either matched or reported: `matched + reports == total` |
| AccChecker.MismatchedMembers | acc_checker.py:16-17 | the reports are exactly the differing pairs |
| AccChecker.AllMatchedIff | acc_checker.py:16-19 | all pairs match iff every pair agrees |
| AccChecker.Check | acc_checker.py:6-23 | ZeroDivisionError iff either file is empty; otherwise total, matched and reports of the stripped pairs |
| AccChecker.PairsSnoc | acc_checker.py:16-21 | comparing one more pair updates exactly one of the two tallies |
| AccChecker.ExtraLinesIgnored | acc_checker.py:13 | lines of the original past the end of the prediction are never compared |
| AccChecker.SelfMatches | acc_checker.py:13-19 | a file compared with itself matches on every line |
| GenerateSource.Selected | generate_source.py:18 | the selection is no longer than the table |
| GenerateSource.SelectedIff | generate_source.py:17-18 | a pair is selected iff it is in `vmap` and its word is a token of the line |
| GenerateSource.SelectedAppend | generate_source.py:18 | selection follows table order |
| GenerateSource.SelectedNoDup | generate_source.py:17-18 | no pair is printed twice, even for repeated words |
| GenerateSource.Arrow | generate_source.py:18 | `x -> y` is four characters longer than its two parts |
| GenerateSource.Pairs | generate_source.py:17-18 | no selected pair prints nothing, and a single pair prints as its arrow alone; the selection is given by GenerateSource.SelectedIff |
| GenerateSource.SourceLine | generate_source.py:15-20 | every output line holds at least the separator |
| GenerateSource.CommandPartKept | generate_source.py:16-20 | the part before the separator is the line's words, single-spaced, and splits back into them |
| GenerateSource.StripKeepsSplit | generate_source.py:16 | stripping before splitting does not change the words |
| GenerateSource.BlankLine | generate_source.py:15-20 | a blank line prints as the bare separator |
| GenerateSource.NoCommandWord | generate_source.py:15-20 | a line none of whose words is a command word prints as its words, one space apart, followed by the bare separator |
| GenerateSource.PairIffWord | generate_source.py:17-18 | a pair is printed iff its word is among the line's tokens |
| GenerateSource.CommandActionsAgree | generate_source.py:5-10 | every `vmap` action maps back to its word under `rmap` in fill_back.py |

## Left out

- File reading, `print`, tqdm progress, argparse, json loading, checkpoints,
  `torch.save`/`torch.load` and device placement are I/O. The models take
  the lines, word maps and vocabularies as values.
- Neural computation is left out: the model, softmax, temperature division,
  the arg-max over logits and multinomial sampling. The greedy choice is the
  `NextId` function parameter, and sampling is a nondeterministic choice of
  an id below the vocabulary size.
- Loss values, perplexity and the printed percentages are floating point.
  Only which positions feed the loss and the integer counters are modelled.
  Token accuracy is an exact `real`, so float rounding is not modelled.
- `generate_square_subsequent_mask` lives in a file that is not part of this
  model. Only the size it is built for is stated.
- DataLoader shuffling is randomness. Batches are formed over a given
  example order.
- `src/seq2seq/train_hf.py`, `src/train.py` and `src/seq2seq/model.py` are
  not part of this model. They are tokenizer plumbing, a training loop
  without further index logic, and neural layers.
- `ParallelTextDataset.__init__` cannot run as written: it takes no
  parameters and names undefined variables. `Seq2SeqData.BuildDataloader`
  therefore uses `run` directly, as if `__init__` forwarded both paths; it
  keeps the literal `min_freq=1` of `src/seq2seq/data.py:11`.
- Seq2SeqEval.LoadTokenizedDataset: requires `<bos>` and `<eos>` in the
  target vocabulary. Without them the source's `get` would put `None` into
  the ids, and ids here are integers.
- Seq2SeqEval.ComputeAccuracy: does not model the debug prints' lookups
  `svocab[x]` and `rvocab[x]`, which raise KeyError for ids missing from
  the inverse vocabularies.
- Seq2SeqEval.Lookup, Seq2SeqEval.UnkIdOf: carry no contract of their own.
  Their meaning is stated by Seq2SeqEval.EvalExampleFramed,
  Seq2SeqEval.IndexLineAgrees and Seq2SeqEval.LiteralUnkCounted.
- LmGenerate.Sample: requires a non-empty vocabulary when at least one step
  runs. With an empty vocabulary the model has no output to sample from.
- LmGenerate.Render: its own contract covers only the empty case. The
  contents are stated by LmGenerate.RenderSplits and LmGenerate.Word.
- ScanSplitter.ProcessLine: requires a line without line breaks, because
  `.` in the pattern does not match one. A stdin line carries a break only
  as its terminator, and `main` strips that before calling it.
- FillBack.Score: checks up front that every line has a word map and a
  reference line. The script fails with the same IndexError at the first
  line that lacks one, after printing the earlier lines.
- LmData.ExamplesInLineOrder, LmData.ExampleIsWindow: require a
  non-negative `seq_len`. With a negative one Python's slices count from the
  end, the windows no longer have a common length, and no window statement
  is made. `LmData.TextDatasetWindow` and `LmData.TextDatasetExampleIsWindow`
  instantiate them with the dataset's own vocabulary and lines.
- LmData.VocabContiguous: is stated only for corpora that do not spell
  `<pad>` or `<unk>` themselves. When they do, the overriding assignments
  keep the comprehension's position, and `LmData.VocabLookup` gives the ids.

=== FILE: acc_checker.dfy ===
/** The script acc_checker.py: the lines of an original file and of a
    predicted file are paired up as `zip` pairs them (up to the shorter
    file), compared after stripping, and the exact matches are counted; each
    mismatching pair is reported. */
module AccChecker {
  import opened Results
  import opened PyStr

  /** `zip(olines, plines)` with both sides stripped. */
  function StrippedPairs(olines: seq<string>, plines: seq<string>): (r: seq<(string, string)>)
    ensures |r| == if |olines| <= |plines| then |olines| else |plines|
    ensures forall i :: 0 <= i < |r| ==> r[i] == (Strip(olines[i]), Strip(plines[i]))
  {
    var n := if |olines| <= |plines| then |olines| else |plines|;
    seq(n, i requires 0 <= i < n => (Strip(olines[i]), Strip(plines[i])))
  }

  /** The pairs that differ, in file order. */
  function Mismatched(ps: seq<(string, string)>): (r: seq<(string, string)>)
    ensures |r| <= |ps|
  {
    if |ps| == 0 then []
    else
      var last := ps[|ps| - 1];
      Mismatched(ps[..|ps| - 1]) + (if last.0 != last.1 then [last] else [])
  }

  /** How many pairs agree. */
  function Matched(ps: seq<(string, string)>): (r: nat)
    ensures r <= |ps|
  {
    if |ps| == 0 then 0
    else
      var last := ps[|ps| - 1];
      Matched(ps[..|ps| - 1]) + (if last.0 == last.1 then 1 else 0)
  }

  /** Every pair is either matched or reported, never both. */
  lemma {:induction false} MatchedPlusMismatched(ps: seq<(string, string)>)
    ensures Matched(ps) + |Mismatched(ps)| == |ps|
    decreases |ps|
  {
    if |ps| > 0 {
      MatchedPlusMismatched(ps[..|ps| - 1]);
    }
  }

  /** The report holds exactly the differing pairs. */
  lemma {:induction false} MismatchedMembers(ps: seq<(string, string)>)
    ensures forall x :: x in Mismatched(ps) <==> x in ps && x.0 != x.1
    decreases |ps|
  {
    if |ps| > 0 {
      var p := ps[..|ps| - 1];
      MismatchedMembers(p);
      assert ps == p + [ps[|ps| - 1]];
    }
  }

  /** All pairs match exactly when every pair agrees. */
  lemma {:induction false} AllMatchedIff(ps: seq<(string, string)>)
    ensures Matched(ps) == |ps| <==> forall i :: 0 <= i < |ps| ==> ps[i].0 == ps[i].1
    decreases |ps|
  {
    if |ps| > 0 {
      var p := ps[..|ps| - 1];
      AllMatchedIff(p);
      assert forall i :: 0 <= i < |p| ==> p[i] == ps[i];
    }
  }

  /** What the script prints: the mismatching pairs, and the two counters
      whose ratio (a float division) is the accuracy. */
  datatype Report = Report(matched: nat, total: nat, mismatches: seq<(string, string)>)

  /** The comparison loop; the final division fails when either file is
      empty, since then no pair was compared. */
  method Check(olines: seq<string>, plines: seq<string>) returns (r: Result<Report>)
    ensures r.Err? <==> |olines| == 0 || |plines| == 0
    ensures r.Err? ==> r.error == ZeroDivisionError
    ensures r.Ok? ==> var ps := StrippedPairs(olines, plines);
      && r.value.total == |ps|
      && r.value.matched == Matched(ps)
      && r.value.mismatches == Mismatched(ps)
  {
    var ps := StrippedPairs(olines, plines);
    var total, matched := 0, 0;
    var mismatches := [];
    for i := 0 to |ps|
      invariant total == i
      invariant matched == Matched(ps[..i]) && mismatches == Mismatched(ps[..i])
    {
      var (oline, pline) := ps[i];
      PairsSnoc(ps, i);
      if oline != pline {
        mismatches := mismatches + [(oline, pline)];
      } else {
        matched := matched + 1;
      }
      total := total + 1;
    }
    assert ps[..|ps|] == ps;
    if total == 0 {
      return Err(ZeroDivisionError);
    }
    r := Ok(Report(matched, total, mismatches));
  }

  /** Comparing one more pair updates exactly one of the two tallies. */
  lemma PairsSnoc(ps: seq<(string, string)>, i: nat)
    requires i < |ps|
    ensures Matched(ps[..i + 1]) == Matched(ps[..i]) + (if ps[i].0 == ps[i].1 then 1 else 0)
    ensures Mismatched(ps[..i + 1]) == Mismatched(ps[..i]) + (if ps[i].0 != ps[i].1 then [ps[i]] else [])
  {
    assert ps[..i + 1][..i] == ps[..i];
  }

  /** Original lines past the end of the predicted file are never looked at. */
  lemma ExtraLinesIgnored(olines: seq<string>, plines: seq<string>, extra: seq<string>)
    requires |plines| <= |olines|
    ensures StrippedPairs(olines + extra, plines) == StrippedPairs(olines, plines)
  {
    var a := StrippedPairs(olines + extra, plines);
    forall i | 0 <= i < |a|
      ensures a[i] == StrippedPairs(olines, plines)[i]
    {
      assert (olines + extra)[i] == olines[i];
    }
  }

  /** A file compared with itself matches on every line, however its lines
      are padded. */
  lemma SelfMatches(lines: seq<string>)
    ensures Matched(StrippedPairs(lines, lines)) == |lines|
    ensures Mismatched(StrippedPairs(lines, lines)) == []
  {
    var ps := StrippedPairs(lines, lines);
    AllMatchedIff(ps);
    MatchedPlusMismatched(ps);
  }
}

=== FILE: corpus.dfy ===
/** What the language-model and seq2seq pipelines share: the reserved token
    spellings and ids, the way a corpus file becomes token lists, and the
    lookup of tokens in a vocabulary. */
module Corpus {
  import opened PySeq
  import opened PyStr
  import opened Dict

  const PadToken: string := "<pad>"
  const UnkToken: string := "<unk>"
  const BosToken: string := "<bos>"
  const EosToken: string := "<eos>"

  const PadId: int := 0
  const UnkId: int := 1
  const BosId: int := 2
  const EosId: int := 3

  /** A vocabulary as the source builds and checkpoints it: token -> id, in insertion order. */
  type Vocab = Items<string, int>

  /** One training or evaluation example: input ids and target ids. */
  datatype Example = Example(src: seq<int>, tgt: seq<int>)

  /** `[l.strip() for l in f if l.strip()]`: the stripped non-blank lines, in
      file order. Each starts and ends with a non-whitespace character. */
  function NonBlankLines(lines: seq<string>): (r: seq<string>)
    ensures |r| <= |lines|
    ensures forall i :: 0 <= i < |r| ==> r[i] != [] && !IsSpace(r[i][0]) && !IsSpace(r[i][|r[i]| - 1])
  {
    if |lines| == 0 then []
    else
      var s := Strip(lines[0]);
      var rest := NonBlankLines(lines[1..]);
      if s == [] then rest else [s] + rest
  }

  /** The kept lines are exactly the non-empty stripped input lines. */
  lemma {:induction false} NonBlankLinesMembers(lines: seq<string>)
    ensures forall i :: 0 <= i < |lines| && Strip(lines[i]) != [] ==> Strip(lines[i]) in NonBlankLines(lines)
    ensures forall s :: s in NonBlankLines(lines) ==> s != [] && exists i :: 0 <= i < |lines| && Strip(lines[i]) == s
    decreases |lines|
  {
    if |lines| > 0 {
      var rest := lines[1..];
      NonBlankLinesMembers(rest);
      forall i | 1 <= i < |lines|
        ensures lines[i] == rest[i - 1]
      {
      }
    }
  }

  /** One line is kept, stripped, exactly when it is not blank. */
  lemma NonBlankLinesOne(l: string)
    ensures NonBlankLines([l]) == if Strip(l) == [] then [] else [Strip(l)]
  {
  }

  /** The filter works line by line: reading two pieces of a file one after
      the other keeps the lines of the first, in order and with repeats, and
      then those of the second. */
  lemma {:induction false} NonBlankLinesAppend(a: seq<string>, b: seq<string>)
    ensures NonBlankLines(a + b) == NonBlankLines(a) + NonBlankLines(b)
    decreases |a|
  {
    if |a| == 0 {
      assert a + b == b;
    } else {
      assert (a + b)[0] == a[0];
      assert (a + b)[1..] == a[1..] + b;
      NonBlankLinesAppend(a[1..], b);
    }
  }

  /** `[s.split() for s in sentences]` over the non-blank lines: every list is non-empty. */
  function TokenLines(lines: seq<string>): (r: seq<seq<string>>)
    ensures |r| == |NonBlankLines(lines)|
    ensures forall i :: 0 <= i < |r| ==> r[i] != []
  {
    var ls := NonBlankLines(lines);
    assert forall i :: 0 <= i < |ls| ==> Split(ls[i]) != [] by {
      forall i | 0 <= i < |ls|
        ensures Split(ls[i]) != []
      {
        SplitEmpty(ls[i]);
      }
    }
    seq(|ls|, i requires 0 <= i < |ls| => Split(ls[i]))
  }

  /** `[vocab.get(tok, dflt) for tok in toks]`. */
  function IndexTokens(vocab: Vocab, toks: seq<string>, dflt: int): (r: seq<int>)
    ensures |r| == |toks|
    ensures forall k :: 0 <= k < |toks| ==> r[k] == Get(vocab, toks[k]).GetOr(dflt)
  {
    seq(|toks|, k requires 0 <= k < |toks| => Get(vocab, toks[k]).GetOr(dflt))
  }
}

=== FILE: dict.dfy ===
/** Python `dict` as an insertion-ordered list of entries. Insertion order is
    observable in the modelled code: `setdefault(tok, len(vocab))` numbers tokens
    by position, and `{y: x for x, y in d.items()}` keeps, for every value, the
    key of its LAST entry. */
module Dict {
  import opened Results
  import opened PySeq

  type Items<K, V> = seq<(K, V)>

  function Keys<K, V>(d: Items<K, V>): (r: seq<K>)
    ensures |r| == |d|
    ensures forall i :: 0 <= i < |d| ==> r[i] == d[i].0
  {
    seq(|d|, i requires 0 <= i < |d| => d[i].0)
  }

  function Values<K, V>(d: Items<K, V>): (r: seq<V>)
    ensures |r| == |d|
    ensures forall i :: 0 <= i < |d| ==> r[i] == d[i].1
  {
    seq(|d|, i requires 0 <= i < |d| => d[i].1)
  }

  /** Every Python dict has pairwise distinct keys. */
  predicate WellFormed<K(==), V>(d: Items<K, V>) {
    NoDup(Keys(d))
  }

  /** No two keys share a value. */
  predicate Injective<K, V(==)>(d: Items<K, V>) {
    NoDup(Values(d))
  }

  /** Python's `d.get(k)`: the value of the first entry with key `k`, if any. */
  function Get<K(==), V>(d: Items<K, V>, k: K): (r: Option<V>)
    ensures r.None? <==> k !in Keys(d)
  {
    if k in Keys(d) then Some(d[IndexOf(Keys(d), k)].1) else None
  }

  /** In a dict with distinct keys, looking up an entry's key finds that entry's value. */
  lemma GetEntry<K, V>(d: Items<K, V>, i: nat)
    requires WellFormed(d) && i < |d|
    ensures Get(d, d[i].0) == Some(d[i].1)
  {
    var j := IndexOf(Keys(d), d[i].0);
    assert Keys(d)[i] == d[i].0;
  }

  /** A successful lookup comes from an entry of the dict. */
  lemma GetSome<K, V>(d: Items<K, V>, k: K)
    requires Get(d, k).Some?
    ensures (k, Get(d, k).value) in d
  {
    var j := IndexOf(Keys(d), k);
    assert d[j] == (k, Get(d, k).value);
  }

  /** Entries appended after a key do not change its lookup. */
  lemma GetAppend<K, V>(d: Items<K, V>, e: Items<K, V>, k: K)
    requires k in Keys(d)
    ensures Get(d + e, k) == Get(d, k)
  {
    assert Keys(d + e) == Keys(d) + Keys(e);
    IndexOfPrefix(Keys(d), Keys(e), k);
    var j := IndexOf(Keys(d), k);
    assert (d + e)[j] == d[j];
  }

  /** Looking up in a dict whose first entry is `e`. */
  lemma GetCons<K, V>(e: (K, V), d: Items<K, V>, k: K)
    ensures Get([e] + d, k) == if e.0 == k then Some(e.1) else Get(d, k)
  {
    var c := [e] + d;
    assert Keys(c) == [e.0] + Keys(d);
    if e.0 != k && k in Keys(d) {
      var j := IndexOf(Keys(d), k);
      assert IndexOf(Keys(c), k) == 1 + j by {
        assert Keys(c)[1..] == Keys(d);
      }
      assert c[1 + j] == d[j];
    }
  }

  /** Python's `d[k] = v`: overwrite in place if `k` is present, else append. */
  function Put<K(==), V>(d: Items<K, V>, k: K, v: V): (r: Items<K, V>)
    ensures |r| == (if k in Keys(d) then |d| else |d| + 1)
    ensures k !in Keys(d) ==> r == d + [(k, v)]
  {
    if k in Keys(d) then d[IndexOf(Keys(d), k) := (k, v)] else d + [(k, v)]
  }

  /** Put keeps every key in place and appends `k` when it is new. */
  lemma PutKeys<K, V>(d: Items<K, V>, k: K, v: V)
    ensures Keys(Put(d, k, v)) == (if k in Keys(d) then Keys(d) else Keys(d) + [k])
  {
    var r := Put(d, k, v);
    if k in Keys(d) {
      var j := IndexOf(Keys(d), k);
      assert forall i :: 0 <= i < |d| ==> Keys(r)[i] == Keys(d)[i];
    } else {
      assert forall i :: 0 <= i < |d| ==> Keys(r)[i] == Keys(d)[i];
      assert Keys(r)[|d|] == k;
    }
  }

  /** After `d[k] = v`, `k` maps to `v` and every other key keeps its value. */
  lemma PutGet<K, V>(d: Items<K, V>, k: K, v: V, k': K)
    ensures Get(Put(d, k, v), k') == if k' == k then Some(v) else Get(d, k')
  {
    var r := Put(d, k, v);
    PutKeys(d, k, v);
    if k in Keys(d) {
      var j := IndexOf(Keys(d), k);
      if k' in Keys(d) {
        var j' := IndexOf(Keys(d), k');
        assert k' != k ==> j' != j;
      }
    } else if k' in Keys(d) {
      IndexOfPrefix(Keys(d), [k], k');
    } else if k' == k {
      IndexOfLastNew(Keys(d), k);
    }
  }

  /** Put keeps keys distinct. */
  lemma PutWellFormed<K, V>(d: Items<K, V>, k: K, v: V)
    requires WellFormed(d)
    ensures WellFormed(Put(d, k, v))
  {
    PutKeys(d, k, v);
  }

  /** In a dict with distinct keys, Put changes exactly the entry of `k` (or appends one). */
  lemma PutEntries<K, V>(d: Items<K, V>, k: K, v: V)
    requires WellFormed(d)
    ensures forall i :: 0 <= i < |d| ==> Put(d, k, v)[i] == (if d[i].0 == k then (k, v) else d[i])
  {
    if k in Keys(d) {
      var j := IndexOf(Keys(d), k);
      forall i | 0 <= i < |d| && d[i].0 == k ensures i == j {
        assert Keys(d)[i] == Keys(d)[j];
      }
    }
  }

  /** Python's `d.setdefault(k, v)` where the returned value is unused: append
      `(k, v)` only when `k` is absent. */
  function SetDefault<K(==), V>(d: Items<K, V>, k: K, v: V): (r: Items<K, V>)
    ensures k in Keys(d) ==> r == d
    ensures k !in Keys(d) ==> r == d + [(k, v)]
  {
    if k in Keys(d) then d else d + [(k, v)]
  }

  /** Python's `{y: x for x, y in d.items()}`. */
  function Invert<K(==), V(==)>(d: Items<K, V>): (r: Items<V, K>)
    ensures WellFormed(r)
  {
    if |d| == 0 then []
    else
      var last := d[|d| - 1];
      var ip := Invert(d[..|d| - 1]);
      PutWellFormed(ip, last.1, last.0);
      Put(ip, last.1, last.0)
  }

  lemma ValuesSnoc<K, V(!new)>(d: Items<K, V>)
    requires |d| > 0
    ensures forall v :: v in Values(d) <==> v in Values(d[..|d| - 1]) || v == d[|d| - 1].1
  {
    var p := d[..|d| - 1];
    forall v ensures v in Values(d) <==> v in Values(p) || v == d[|d| - 1].1 {
      if v in Values(d) {
        var i :| 0 <= i < |d| && Values(d)[i] == v;
        if i < |p| { assert Values(p)[i] == v; }
      }
      if v in Values(p) {
        var i :| 0 <= i < |p| && Values(p)[i] == v;
        assert Values(d)[i] == v;
      }
      assert Values(d)[|d| - 1] == d[|d| - 1].1;
    }
  }

  /** The keys of the inverse are exactly the values of the dict. */
  lemma {:induction false} InvertKeys<K(!new), V(!new)>(d: Items<K, V>)
    ensures forall v :: v in Keys(Invert(d)) <==> v in Values(d)
  {
    if |d| > 0 {
      var p := d[..|d| - 1];
      var last := d[|d| - 1];
      InvertKeys(p);
      PutKeys(Invert(p), last.1, last.0);
      ValuesSnoc(d);
    }
  }

  /** When several keys share a value, the inverse maps that value to the LAST of them. */
  lemma {:induction false} InvertLastWins<K, V>(d: Items<K, V>, i: nat)
    requires i < |d|
    requires forall j :: i < j < |d| ==> d[j].1 != d[i].1
    ensures Get(Invert(d), d[i].1) == Some(d[i].0)
  {
    var p := d[..|d| - 1];
    var last := d[|d| - 1];
    PutGet(Invert(p), last.1, last.0, d[i].1);
    if i < |d| - 1 {
      assert p[i] == d[i];
      InvertLastWins(p, i);
    }
  }

  /** A value no entry carries is absent from the inverse. */
  lemma InvertMissing<K(!new), V(!new)>(d: Items<K, V>, v: V)
    requires v !in Values(d)
    ensures Get(Invert(d), v) == None
  {
    InvertKeys(d);
  }

  lemma {:induction false} InvertInjectiveLength<K(!new), V(!new)>(d: Items<K, V>)
    requires Injective(d)
    ensures |Invert(d)| == |d|
  {
    if |d| > 0 {
      var p := d[..|d| - 1];
      var last := d[|d| - 1];
      assert Values(p) == Values(d)[..|d| - 1];
      InvertInjectiveLength(p);
      InvertKeys(p);
      assert last.1 !in Values(p) by {
        assert Values(d)[..|d| - 1] == Values(p);
        assert Values(d)[|d| - 1] == last.1;
      }
    }
  }

  /** For an injective dict the inverse is exact: it maps every value back to its
      key, and nothing else. */
  lemma InvertInjective<K(!new), V(!new)>(d: Items<K, V>)
    requires Injective(d)
    ensures forall i :: 0 <= i < |d| ==> Get(Invert(d), d[i].1) == Some(d[i].0)
    ensures forall v :: v !in Values(d) ==> Get(Invert(d), v) == None
    ensures |Invert(d)| == |d|
  {
    forall i | 0 <= i < |d| ensures Get(Invert(d), d[i].1) == Some(d[i].0) {
      forall j | i < j < |d| ensures d[j].1 != d[i].1 {
        assert Values(d)[i] != Values(d)[j];
      }
      InvertLastWins(d, i);
    }
    forall v | v !in Values(d) ensures Get(Invert(d), v) == None {
      InvertMissing(d, v);
    }
    InvertInjectiveLength(d);
  }

  /** For an injective dict, the inverse maps `v` to `k` exactly when the dict maps `k` to `v`. */
  lemma InvertRoundTrip<K(!new), V(!new)>(d: Items<K, V>)
    requires WellFormed(d) && Injective(d)
    ensures forall k, v :: Get(d, k) == Some(v) <==> Get(Invert(d), v) == Some(k)
  {
    InvertInjective(d);
    InvertKeys(d);
    forall k, v ensures Get(d, k) == Some(v) <==> Get(Invert(d), v) == Some(k) {
      if Get(d, k) == Some(v) {
        GetSome(d, k);
        var i :| 0 <= i < |d| && d[i] == (k, v);
      }
      if Get(Invert(d), v) == Some(k) {
        var i :| 0 <= i < |d| && Values(d)[i] == v;
        GetEntry(d, i);
      }
    }
  }

  /** The entries with key and value exchanged, in the same order. */
  function Swap<K, V>(d: Items<K, V>): (r: Items<V, K>)
    ensures |r| == |d| && Keys(r) == Values(d) && Values(r) == Keys(d)
  {
    seq(|d|, i requires 0 <= i < |d| => (d[i].1, d[i].0))
  }

  /** Inverting an injective dict keeps its order: every entry is swapped in
      place, since no value is met twice. */
  lemma {:induction false} InvertSwaps<K(!new), V(!new)>(d: Items<K, V>)
    requires Injective(d)
    ensures Invert(d) == Swap(d)
  {
    if |d| > 0 {
      var p := d[..|d| - 1];
      var last := d[|d| - 1];
      assert Values(p) == Values(d)[..|d| - 1];
      InvertSwaps(p);
      assert last.1 !in Values(p) by {
        assert Values(d)[|d| - 1] == last.1;
      }
      assert Swap(d) == Swap(p) + [(last.1, last.0)];
    }
  }

  /** Putting a value no entry carries keeps the dict injective. */
  lemma PutFreshValueInjective<K, V>(d: Items<K, V>, k: K, v: V)
    requires WellFormed(d) && Injective(d)
    requires v !in Values(d)
    ensures Injective(Put(d, k, v))
  {
    PutEntries(d, k, v);
    var r := Put(d, k, v);
    forall i, j | 0 <= i < j < |r| ensures Values(r)[i] != Values(r)[j] {
      assert Values(d)[i] == d[i].1;
      if j < |d| {
        assert Values(d)[j] == d[j].1;
        assert Keys(d)[i] != Keys(d)[j];
      } else {
        assert Keys(d)[i] == d[i].0;
      }
    }
  }
}

=== FILE: fill_back.dfy ===
/** The post-processing script fill_back.py: a predicted action line uses
    placeholder tokens `W_...` for the primitive actions of its command; the
    per-line word map says which command word each placeholder stands for,
    and the fixed action table turns that word back into its action token
    (`jump` into `I_JUMP`, ...). Each rebuilt line is compared with the
    reference line and the exact matches are counted. */
module FillBack {
  import opened Results
  import opened PySeq
  import opened PyStr
  import opened Dict

  /** `rmap`: action token to command word. */
  const ActionWords: Items<string, string> := [
    ("I_JUMP", "jump"), ("I_WALK", "walk"), ("I_LOOK", "look"),
    ("I_RUN", "run"), ("I_TURN_RIGHT", "right"), ("I_TURN_LEFT", "left")]

  /** `rmap_r`: command word to action token, written out. */
  const WordActions: Items<string, string> := [
    ("jump", "I_JUMP"), ("walk", "I_WALK"), ("look", "I_LOOK"),
    ("run", "I_RUN"), ("right", "I_TURN_RIGHT"), ("left", "I_TURN_LEFT")]

  /** The placeholder prefix a rebuilt token must carry. */
  const PlaceholderPrefix: string := "W_"

  /** The action table has distinct keys and distinct values. */
  lemma ActionWordsShape()
    ensures WellFormed(ActionWords) && Injective(ActionWords)
  {
    ActionTokensDistinct();
    assert Values(ActionWords) == ["jump", "walk", "look", "run", "right", "left"];
  }

  lemma ActionTokensDistinct()
    ensures WellFormed(ActionWords)
  {
    assert Keys(ActionWords) == ["I_JUMP", "I_WALK", "I_LOOK", "I_RUN", "I_TURN_RIGHT", "I_TURN_LEFT"];
  }

  /** The written-out reverse table is `{y: x for x, y in rmap.items()}`, and
      since no two action tokens share a word it is exact: a word maps back
      to a token iff that token maps to the word. */
  lemma WordActionsExact()
    ensures WordActions == Invert(ActionWords)
    ensures forall t, w :: Get(ActionWords, t) == Some(w) <==> Get(WordActions, w) == Some(t)
  {
    ActionWordsShape();
    InvertSwaps(ActionWords);
    InvertRoundTrip(ActionWords);
  }

  /** The rebuilt tokens for one predicted token `w`, given the reverse
      action table `actions` (word to action token) and the reversed word map
      `rw` (placeholder to word): a known placeholder becomes the action token
      of its word, or is dropped when the word has none; any other token is
      copied. */
  function RebuildToken(actions: Items<string, string>, rw: Items<string, string>, w: string): (r: seq<string>)
    ensures |r| <= 1
    ensures !(StartsWith(w, PlaceholderPrefix) && w in Keys(rw)) ==> r == [w]
    ensures StartsWith(w, PlaceholderPrefix) && w in Keys(rw) ==>
      var word := Get(rw, w).value;
      && (r != [] <==> word in Keys(actions))
      && (r != [] ==> Get(actions, word) == Some(r[0]))
  {
    if StartsWith(w, PlaceholderPrefix) && w in Keys(rw) then
      match Get(actions, Get(rw, w).value)
      case Some(t) => [t]
      case None => []
    else [w]
  }

  /** The loop over the tokens of one line. */
  function Rebuild(actions: Items<string, string>, rw: Items<string, string>, ws: seq<string>): (r: seq<string>)
    ensures |r| <= |ws|
  {
    if |ws| == 0 then [] else RebuildToken(actions, rw, ws[0]) + Rebuild(actions, rw, ws[1..])
  }

  /** Rebuilding works token by token: it distributes over concatenation. */
  lemma {:induction false} RebuildAppend(actions: Items<string, string>, rw: Items<string, string>, a: seq<string>, b: seq<string>)
    ensures Rebuild(actions, rw, a + b) == Rebuild(actions, rw, a) + Rebuild(actions, rw, b)
    decreases |a|
  {
    if |a| > 0 {
      assert (a + b)[1..] == a[1..] + b;
      RebuildAppend(actions, rw, a[1..], b);
    } else {
      assert a + b == b;
    }
  }

  /** A line without placeholders is left as it is. */
  lemma {:induction false} RebuildNoPlaceholders(actions: Items<string, string>, rw: Items<string, string>, ws: seq<string>)
    requires forall i :: 0 <= i < |ws| ==> !StartsWith(ws[i], PlaceholderPrefix)
    ensures Rebuild(actions, rw, ws) == ws
    decreases |ws|
  {
    if |ws| > 0 {
      RebuildNoPlaceholders(actions, rw, ws[1..]);
    }
  }

  /** Every rebuilt token is an original token or an action token. */
  lemma {:induction false} RebuildTokens(actions: Items<string, string>, rw: Items<string, string>, ws: seq<string>)
    ensures forall x :: x in Rebuild(actions, rw, ws) ==> x in ws || x in Values(actions)
    decreases |ws|
  {
    if |ws| > 0 {
      RebuildTokens(actions, rw, ws[1..]);
      var r0 := RebuildToken(actions, rw, ws[0]);
      if r0 != [] && r0 != [ws[0]] {
        GetSome(actions, Get(rw, ws[0]).value);
      }
    }
  }

  /** The placeholder a token is written as: an action token whose word the
      word map `wm` covers becomes that word's placeholder; anything else
      stays. `table` maps action tokens to words. */
  function Placeholder(table: Items<string, string>, wm: Items<string, string>, t: string): (r: string)
    ensures (t in Keys(table) && Get(table, t).value in Keys(wm)) ==> Get(wm, Get(table, t).value) == Some(r)
    ensures !(t in Keys(table) && Get(table, t).value in Keys(wm)) ==> r == t
  {
    if t in Keys(table) && Get(table, t).value in Keys(wm)
    then Get(wm, Get(table, t).value).value
    else t
  }

  /** A reference line with its action tokens written as placeholders. */
  function Abstract(table: Items<string, string>, wm: Items<string, string>, ws: seq<string>): (r: seq<string>)
    ensures |r| == |ws|
    ensures forall i :: 0 <= i < |ws| ==> r[i] == Placeholder(table, wm, ws[i])
  {
    seq(|ws|, i requires 0 <= i < |ws| => Placeholder(table, wm, ws[i]))
  }

  /** A word map whose keys are distinct and whose placeholders are distinct
      words with the placeholder prefix. */
  predicate PlaceholderMap(wm: Items<string, string>) {
    && WellFormed(wm) && Injective(wm)
    && forall i :: 0 <= i < |wm| ==> IsWord(wm[i].1) && StartsWith(wm[i].1, PlaceholderPrefix)
  }

  /** One token: rebuilding its placeholder gives it back. */
  lemma PlaceholderRoundTrip(table: Items<string, string>, wm: Items<string, string>, t: string)
    requires WellFormed(table) && Injective(table) && PlaceholderMap(wm)
    requires !StartsWith(t, PlaceholderPrefix)
    ensures RebuildToken(Invert(table), Invert(wm), Placeholder(table, wm, t)) == [t]
  {
    if t in Keys(table) && Get(table, t).value in Keys(wm) {
      var word := Get(table, t).value;
      var p := Get(wm, word).value;
      GetSome(wm, word);
      InvertRoundTrip(wm);
      InvertKeys(wm);
      assert Get(Invert(wm), p) == Some(word);
      InvertRoundTrip(table);
      assert Get(Invert(table), word) == Some(t);
    }
  }

  /** Filling back undoes the abstraction: when the reference tokens carry no
      placeholder prefix, writing the action tokens as the placeholders of
      their words and rebuilding with both maps reversed gives the reference
      tokens back. */
  lemma FillBackRoundTrip(table: Items<string, string>, wm: Items<string, string>, ws: seq<string>)
    requires WellFormed(table) && Injective(table) && PlaceholderMap(wm)
    requires forall i :: 0 <= i < |ws| ==> !StartsWith(ws[i], PlaceholderPrefix)
    ensures Rebuild(Invert(table), Invert(wm), Abstract(table, wm, ws)) == ws
  {
    var a := Abstract(table, wm, ws);
    forall i | 0 <= i < |ws|
      ensures RebuildToken(Invert(table), Invert(wm), a[i]) == [ws[i]]
    {
      PlaceholderRoundTrip(table, wm, ws[i]);
    }
    RebuildEachToken(Invert(table), Invert(wm), a, ws);
  }

  /** When every token rebuilds to the matching reference token, the whole
      line rebuilds to the reference tokens. */
  lemma {:induction false} RebuildEachToken(actions: Items<string, string>, rw: Items<string, string>,
                                            a: seq<string>, ws: seq<string>)
    requires |a| == |ws|
    requires forall i :: 0 <= i < |a| ==> RebuildToken(actions, rw, a[i]) == [ws[i]]
    ensures Rebuild(actions, rw, a) == ws
    decreases |a|
  {
    if |a| > 0 {
      RebuildEachToken(actions, rw, a[1..], ws[1..]);
      assert ws == [ws[0]] + ws[1..];
    }
  }

  /** `" ".join(...)` of the rebuilt tokens of a predicted line. */
  function RebuiltLine(line: string, wm: Items<string, string>): (r: string)
    ensures Split(Strip(line)) == [] ==> r == []
  {
    Join(" ", Rebuild(WordActions, Invert(wm), Split(Strip(line))))
  }

  /** Whether a predicted line, rebuilt, equals the stripped reference line.
      A blank reference is matched only by a line that rebuilds to nothing,
      and a matched line has no whitespace at either end. */
  function LineCorrect(line: string, wm: Items<string, string>, reference: string): (r: bool)
    ensures AllSpace(reference) ==> (r <==> RebuiltLine(line, wm) == [])
    ensures r && RebuiltLine(line, wm) != [] ==>
      !IsSpace(RebuiltLine(line, wm)[0]) && !IsSpace(RebuiltLine(line, wm)[|RebuiltLine(line, wm)| - 1])
  {
    StripEmpty(reference);
    RebuiltLine(line, wm) == Strip(reference)
  }

  /** A predicted line that is the abstraction of a reference line scores as
      correct, whatever whitespace surrounds either of them. */
  lemma AbstractedLineCorrect(wm: Items<string, string>, ws: seq<string>, lead: string, trail: string)
    requires PlaceholderMap(wm)
    requires forall i :: 0 <= i < |ws| ==> IsWord(ws[i]) && !StartsWith(ws[i], PlaceholderPrefix)
    requires AllSpace(lead) && AllSpace(trail)
    ensures LineCorrect(lead + Join(" ", Abstract(ActionWords, wm, ws)) + trail, wm, Join(" ", ws))
  {
    RebuiltAbstractedLine(wm, ws, lead, trail);
    StripJoinWords(" ", ws);
  }

  /** Rebuilding the abstraction of a reference line gives the reference
      tokens joined by single spaces. */
  lemma RebuiltAbstractedLine(wm: Items<string, string>, ws: seq<string>, lead: string, trail: string)
    requires PlaceholderMap(wm)
    requires forall i :: 0 <= i < |ws| ==> IsWord(ws[i]) && !StartsWith(ws[i], PlaceholderPrefix)
    requires AllSpace(lead) && AllSpace(trail)
    ensures RebuiltLine(lead + Join(" ", Abstract(ActionWords, wm, ws)) + trail, wm) == Join(" ", ws)
  {
    var a := Abstract(ActionWords, wm, ws);
    AbstractWords(wm, ws);
    SplitPadded(a, lead, trail);
    ActionWordsShape();
    WordActionsExact();
    FillBackRoundTrip(ActionWords, wm, ws);
  }

  /** Stripping and splitting a padded line of joined words gives the words. */
  lemma SplitPadded(a: seq<string>, lead: string, trail: string)
    requires forall i :: 0 <= i < |a| ==> IsWord(a[i])
    requires AllSpace(lead) && AllSpace(trail)
    ensures Split(Strip(lead + Join(" ", a) + trail)) == a
  {
    JoinWordsEnds(" ", a);
    StripAround(lead, Join(" ", a), trail);
    SplitJoin(a);
  }

  /** Writing words as placeholders keeps them words. */
  lemma AbstractWords(wm: Items<string, string>, ws: seq<string>)
    requires PlaceholderMap(wm)
    requires forall i :: 0 <= i < |ws| ==> IsWord(ws[i])
    ensures forall i :: 0 <= i < |ws| ==> IsWord(Abstract(ActionWords, wm, ws)[i])
  {
    forall i | 0 <= i < |ws|
      ensures IsWord(Abstract(ActionWords, wm, ws)[i])
    {
      var t := ws[i];
      if t in Keys(ActionWords) && Get(ActionWords, t).value in Keys(wm) {
        GetSome(wm, Get(ActionWords, t).value);
      }
    }
  }

  /** The tallies the script prints: exact matches and lines read. The
      percentage `correct * 100 / total` is a float division. */
  datatype Tally = Tally(correct: nat, total: nat)

  /** The verdict for each predicted line, as long as there is a word map and
      a reference line for it. */
  function Verdicts(lines: seq<string>, wmaps: seq<Items<string, string>>, refs: seq<string>): (r: seq<bool>)
    requires |lines| <= |wmaps| && |lines| <= |refs|
    ensures |r| == |lines|
    ensures forall i :: 0 <= i < |lines| ==> (r[i] <==> LineCorrect(lines[i], wmaps[i], refs[i]))
  {
    seq(|lines|, i requires 0 <= i < |lines| => LineCorrect(lines[i], wmaps[i], refs[i]))
  }

  /** The script's loop: for line `li`, `wmaps[li]` and `cwlines[li]` are
      indexed (an `IndexError` as soon as either list is too short), the line
      is counted, and so is its verdict; afterwards the division by the line
      count fails when there were no lines. Since the lists do not change
      during the loop, the short-list test is made once up front. */
  method Score(lines: seq<string>, wmaps: seq<Items<string, string>>, refs: seq<string>) returns (r: Result<Tally>)
    ensures r.Err? <==> |lines| > |wmaps| || |lines| > |refs| || |lines| == 0
    ensures r.Err? && (|lines| > |wmaps| || |lines| > |refs|) ==> r.error == IndexError
    ensures r.Err? && |lines| <= |wmaps| && |lines| <= |refs| ==> r.error == ZeroDivisionError
    ensures r.Ok? ==> r.value.total == |lines|
    ensures r.Ok? ==> r.value.correct == Count(Verdicts(lines, wmaps, refs), true)
  {
    if |lines| > |wmaps| || |lines| > |refs| {
      return Err(IndexError);
    }
    var correct, total := CountCorrect(Verdicts(lines, wmaps, refs));
    if total == 0 {
      return Err(ZeroDivisionError);
    }
    r := Ok(Tally(correct, total));
  }

  /** The counters `correct` and `total` over the verdicts of the lines. */
  method CountCorrect(v: seq<bool>) returns (correct: nat, total: nat)
    ensures total == |v| && correct == Count(v, true)
  {
    correct, total := 0, 0;
    for li := 0 to |v|
      invariant total == li && correct == Count(v[..li], true)
    {
      total := total + 1;
      assert v[..li + 1] == v[..li] + [v[li]];
      CountAppend(v[..li], [v[li]], true);
      if v[li] {
        correct := correct + 1;
      }
    }
    assert v[..|v|] == v;
  }

  /** Every line counts as correct exactly when every rebuilt line equals its
      reference, and never more lines than were read. */
  lemma AllCorrectIff(lines: seq<string>, wmaps: seq<Items<string, string>>, refs: seq<string>)
    requires |lines| <= |wmaps| && |lines| <= |refs|
    ensures Count(Verdicts(lines, wmaps, refs), true) <= |lines|
    ensures Count(Verdicts(lines, wmaps, refs), true) == |lines|
        <==> forall i :: 0 <= i < |lines| ==> LineCorrect(lines[i], wmaps[i], refs[i])
  {
    var v := Verdicts(lines, wmaps, refs);
    CountFull(v);
  }

  /** `true` fills a sequence of verdicts exactly when it occurs in every slot. */
  lemma {:induction false} CountFull(v: seq<bool>)
    ensures Count(v, true) == |v| <==> forall i :: 0 <= i < |v| ==> v[i]
    decreases |v|
  {
    if |v| > 0 {
      var p := v[..|v| - 1];
      CountFull(p);
      assert forall i :: 0 <= i < |p| ==> p[i] == v[i];
    }
  }
}

=== FILE: generate_source.dfy ===
/** The script generate_source.py: each command line is printed with the
    primitive commands it mentions appended as `word -> ACTION` pairs, in the
    order of the fixed command table, after a ` || ` separator. */
module GenerateSource {
  import opened Results
  import opened PySeq
  import opened PyStr
  import opened Dict
  import FillBack

  /** `vmap`: command word to action token. */
  const CommandActions: Items<string, string> := [
    ("jump", "I_JUMP"), ("look", "I_LOOK"), ("walk", "I_WALK"), ("run", "I_RUN")]

  /** The entries of `table` whose key is one of `words`, in table order:
      `[(x, y) for x, y in vmap.items() if x in words]`. */
  function Selected(table: Items<string, string>, words: seq<string>): (r: Items<string, string>)
    ensures |r| <= |table|
  {
    if |table| == 0 then []
    else
      var e := table[0];
      (if e.0 in words then [e] else []) + Selected(table[1..], words)
  }

  /** An entry is selected exactly when it is in the table and its key is
      one of the words. */
  lemma {:induction false} SelectedIff(table: Items<string, string>, words: seq<string>)
    ensures forall e :: e in Selected(table, words) <==> e in table && e.0 in words
    decreases |table|
  {
    if |table| > 0 {
      SelectedIff(table[1..], words);
      assert table == [table[0]] + table[1..];
    }
  }

  /** Selection keeps table order: it distributes over concatenation of
      tables. */
  lemma {:induction false} SelectedAppend(a: Items<string, string>, b: Items<string, string>, words: seq<string>)
    ensures Selected(a + b, words) == Selected(a, words) + Selected(b, words)
    decreases |a|
  {
    if |a| > 0 {
      assert (a + b)[1..] == a[1..] + b;
      SelectedAppend(a[1..], b, words);
    } else {
      assert a + b == b;
    }
  }

  /** A table with distinct entries yields distinct selections, so no pair is
      printed twice. */
  lemma {:induction false} SelectedNoDup(table: Items<string, string>, words: seq<string>)
    requires NoDup(table)
    ensures NoDup(Selected(table, words))
    decreases |table|
  {
    if |table| > 0 {
      var rest := table[1..];
      assert NoDup(rest) by {
        assert forall i :: 0 <= i < |rest| ==> rest[i] == table[i + 1];
      }
      SelectedNoDup(rest, words);
      SelectedIff(rest, words);
      assert table[0] !in rest;
    }
  }

  /** `f"{x} -> {y}"`. */
  function Arrow(e: (string, string)): (r: string)
    ensures |r| == |e.0| + 4 + |e.1|
  {
    e.0 + " -> " + e.1
  }

  /** `", ".join(...)` of the arrows of the selected entries. */
  function Pairs(words: seq<string>): (r: string)
    ensures Selected(CommandActions, words) == [] ==> r == []
    ensures |Selected(CommandActions, words)| == 1 ==> r == Arrow(Selected(CommandActions, words)[0])
  {
    var sel := Selected(CommandActions, words);
    Join(", ", seq(|sel|, i requires 0 <= i < |sel| => Arrow(sel[i])))
  }

  /** The separator between the command and its pairs. */
  const Separator: string := " || "

  /** One output line: the stripped, re-spaced command, the separator, and
      the pairs for the command words it holds. */
  function SourceLine(line: string): (r: string)
    ensures |r| >= |Separator|
  {
    var words := Split(Strip(line));
    Join(" ", words) + Separator + Pairs(words)
  }

  /** The command part before the separator is the line's words, one space
      apart, and splits back into them. */
  lemma CommandPartKept(line: string)
    ensures SourceLine(line) == Join(" ", Split(line)) + Separator + Pairs(Split(line))
    ensures Split(Join(" ", Split(line))) == Split(line)
  {
    StripKeepsSplit(line);
    SplitJoin(Split(line));
  }

  /** Stripping does not change the words. */
  lemma StripKeepsSplit(s: string)
    ensures Split(Strip(s)) == Split(s)
  {
    var l := LStrip(s);
    LStripSpec(s);
    RStripSpec(l);
    var k := |RStrip(l)|;
    assert l == RStrip(l) + l[k..];
    SplitTrailingSpace(RStrip(l), l[k..]);
    assert LStrip(RStrip(l)) == RStrip(l) by {
      if RStrip(l) != [] {
        assert RStrip(l)[0] == l[0];
      }
    }
    SplitAfterLStrip(s);
    SplitAfterLStrip(RStrip(l));
  }

  /** `split` skips leading whitespace. */
  lemma SplitAfterLStrip(s: string)
    ensures Split(LStrip(s)) == Split(s)
  {
    LStripSpec(s);
    var t := LStrip(s);
    assert LStrip(t) == t by {
      if t != [] {
        assert !IsSpace(t[0]);
      }
    }
  }

  /** Trailing whitespace adds no word. */
  lemma {:induction false} SplitTrailingSpace(t: string, ws: string)
    requires AllSpace(ws)
    ensures Split(t + ws) == Split(t)
    decreases |t|
  {
    var s := t + ws;
    LStripSpec(s);
    LStripSpec(t);
    var i := |t| - |LStrip(t)|;
    if LStrip(t) == [] {
      assert AllSpace(s) by {
        assert forall j :: 0 <= j < |t| ==> t[..i][j] == t[j];
      }
      SplitEmpty(s);
      SplitEmpty(t);
    } else {
      assert LStrip(s) == LStrip(t) + ws by {
        LStripPrefixSpace(t, ws);
      }
      var u := LStrip(t);
      var n := WordLength(u);
      WordLengthSpace(u, ws);
      assert (u + ws)[..n] == u[..n];
      assert (u + ws)[n..] == u[n..] + ws;
      SplitTrailingSpace(u[n..], ws);
    }
  }

  /** `lstrip` of a string that is not all space ignores what follows. */
  lemma {:induction false} LStripPrefixSpace(t: string, ws: string)
    requires LStrip(t) != []
    ensures LStrip(t + ws) == LStrip(t) + ws
    decreases |t|
  {
    if IsSpace(t[0]) {
      assert (t + ws)[1..] == t[1..] + ws;
      LStripPrefixSpace(t[1..], ws);
    }
  }

  /** A trailing whitespace run does not lengthen the first word. */
  lemma {:induction false} WordLengthSpace(u: string, ws: string)
    requires AllSpace(ws)
    ensures WordLength(u + ws) == WordLength(u)
    decreases |u|
  {
    if |u| > 0 {
      assert (u + ws)[1..] == u[1..] + ws;
      WordLengthSpace(u[1..], ws);
    } else {
      assert u + ws == ws;
    }
  }

  /** A blank line prints as the bare separator. */
  lemma BlankLine(line: string)
    requires AllSpace(line)
    ensures SourceLine(line) == Separator
  {
    StripEmpty(line);
    SplitEmpty(Strip(line));
    SelectedIff(CommandActions, []);
    assert [] + Separator + [] == Separator;
  }

  /** A line none of whose words is a command word prints as its words,
      one space apart, followed by the bare separator. */
  lemma NoCommandWord(line: string)
    requires forall e :: e in CommandActions ==> e.0 !in Split(line)
    ensures SourceLine(line) == Join(" ", Split(line)) + Separator
  {
    CommandPartKept(line);
    SelectedIff(CommandActions, Split(line));
    assert Selected(CommandActions, Split(line)) == [];
  }

  /** Each pair of the table is printed exactly when its command word is a
      word of the line. */
  lemma PairIffWord(line: string, e: (string, string))
    ensures e in Selected(CommandActions, Split(Strip(line)))
        <==> e in CommandActions && e.0 in Split(Strip(line))
  {
    SelectedIff(CommandActions, Split(Strip(line)));
  }

  /** Every printed pair names an action that the fill-back table turns back
      into the same command word, so the two scripts agree. */
  lemma CommandActionsAgree()
    ensures forall e :: e in CommandActions ==> Get(FillBack.ActionWords, e.1) == Some(e.0)
  {
    FillBack.ActionTokensDistinct();
    forall e | e in CommandActions
      ensures Get(FillBack.ActionWords, e.1) == Some(e.0)
    {
      var i :| 0 <= i < |CommandActions| && CommandActions[i] == e;
      var j := [0, 2, 1, 3][i];
      assert FillBack.ActionWords[j] == (e.1, e.0);
      GetEntry(FillBack.ActionWords, j);
    }
  }
}

=== FILE: lm_data.dfy ===
/** The language-model corpus (`TextDataset` in src/data.py): vocabulary built
    from first-seen token order with ids `index + 2`, its inverse, and the
    sliding-window examples cut from every line. */
module LmData {
  import opened Results
  import opened PySeq
  import opened PyStr
  import opened Dict
  import opened Corpus

  /** `{t: base + i for i, t in enumerate(ds) if count[t] >= minFreq}`: an
      enumerated token keeps its index even when a token before it is dropped. */
  function KeptEntries(ds: seq<string>, flat: seq<string>, minFreq: int, base: int): (r: Vocab)
    ensures |r| <= |ds|
    decreases |ds|
  {
    if |ds| == 0 then []
    else
      var rest := KeptEntries(ds[1..], flat, minFreq, base + 1);
      if Count(flat, ds[0]) >= minFreq then [(ds[0], base)] + rest else rest
  }

  /** A token of `ds` is found with id `base` + its position exactly when it is
      frequent enough; any other token is absent. */
  lemma {:induction false} KeptEntriesGet(ds: seq<string>, flat: seq<string>, minFreq: int, base: int, t: string)
    requires NoDup(ds)
    ensures Get(KeptEntries(ds, flat, minFreq, base), t) ==
            if t in ds && Count(flat, t) >= minFreq then Some(base + IndexOf(ds, t)) else None
    decreases |ds|
  {
    if |ds| > 0 {
      var tail := ds[1..];
      var rest := KeptEntries(tail, flat, minFreq, base + 1);
      NoDupTail(ds, t);
      KeptEntriesGet(tail, flat, minFreq, base + 1, t);
      var r := KeptEntries(ds, flat, minFreq, base);
      if Count(flat, ds[0]) >= minFreq {
        assert r == [(ds[0], base)] + rest;
        GetCons((ds[0], base), rest, t);
      } else {
        assert r == rest;
      }
      if t == ds[0] {
        assert IndexOf(ds, t) == 0;
      }
    }
  }

  /** Entry ids grow strictly, stay within `base .. base + |ds| - 1`, and
      each id points back at its token's position in `ds`. */
  lemma {:induction false} KeptEntriesShape(ds: seq<string>, flat: seq<string>, minFreq: int, base: int)
    ensures forall i :: 0 <= i < |KeptEntries(ds, flat, minFreq, base)| ==>
              var e := KeptEntries(ds, flat, minFreq, base)[i];
              base <= e.1 < base + |ds| && e.0 == ds[e.1 - base]
    ensures forall i, j :: 0 <= i < j < |KeptEntries(ds, flat, minFreq, base)| ==>
              KeptEntries(ds, flat, minFreq, base)[i].1 < KeptEntries(ds, flat, minFreq, base)[j].1
    decreases |ds|
  {
    if |ds| > 0 {
      var rest := KeptEntries(ds[1..], flat, minFreq, base + 1);
      KeptEntriesShape(ds[1..], flat, minFreq, base + 1);
      var r := KeptEntries(ds, flat, minFreq, base);
      if Count(flat, ds[0]) >= minFreq {
        assert r == [(ds[0], base)] + rest;
        assert forall i :: 1 <= i < |r| ==> r[i] == rest[i - 1];
      } else {
        assert r == rest;
      }
    }
  }

  /** When every token is frequent enough, token `i` gets id `base + i`. */
  lemma {:induction false} KeptEntriesAll(ds: seq<string>, flat: seq<string>, minFreq: int, base: int)
    requires forall i :: 0 <= i < |ds| ==> Count(flat, ds[i]) >= minFreq
    ensures KeptEntries(ds, flat, minFreq, base) == seq(|ds|, i requires 0 <= i < |ds| => (ds[i], base + i))
    decreases |ds|
  {
    if |ds| > 0 {
      KeptEntriesAll(ds[1..], flat, minFreq, base + 1);
      var r := KeptEntries(ds, flat, minFreq, base);
      var rest := KeptEntries(ds[1..], flat, minFreq, base + 1);
      assert r == [(ds[0], base)] + rest;
      forall i | 0 <= i < |ds|
        ensures r[i] == (ds[i], base + i)
      {
        if i > 0 {
          assert r[i] == rest[i - 1];
        }
      }
    }
  }

  lemma KeptEntriesDistinct(ds: seq<string>, flat: seq<string>, minFreq: int, base: int)
    requires NoDup(ds)
    ensures WellFormed(KeptEntries(ds, flat, minFreq, base))
    ensures Injective(KeptEntries(ds, flat, minFreq, base))
    ensures forall v :: v in Values(KeptEntries(ds, flat, minFreq, base)) ==> v >= base
  {
    var r := KeptEntries(ds, flat, minFreq, base);
    KeptEntriesShape(ds, flat, minFreq, base);
    forall i, j | 0 <= i < j < |r| ensures Keys(r)[i] != Keys(r)[j] && Values(r)[i] != Values(r)[j] {
      assert ds[r[i].1 - base] != ds[r[j].1 - base];
    }
  }

  /** The vocabulary of src/data.py: kept tokens numbered by first appearance
      from 2, then `<pad>` set to 0 and `<unk>` set to 1. */
  function BuildVocab(tokenLists: seq<seq<string>>, minFreq: int): (r: Vocab)
    ensures WellFormed(r) && Injective(r)
  {
    var flat := Flatten(tokenLists);
    var ds := Distinct(flat);
    var kept := KeptEntries(ds, flat, minFreq, 2);
    KeptEntriesDistinct(ds, flat, minFreq, 2);
    var withPad := Put(kept, PadToken, PadId);
    PutWellFormed(kept, PadToken, PadId);
    PutFreshValueInjective(kept, PadToken, PadId);
    PutWellFormed(withPad, UnkToken, UnkId);
    assert UnkId !in Values(withPad) by {
      PutEntries(kept, PadToken, PadId);
      forall i | 0 <= i < |withPad| ensures withPad[i].1 != UnkId {
        if i < |kept| {
          assert Values(kept)[i] == kept[i].1 && Values(kept)[i] in Values(kept);
        } else {
          assert withPad == kept + [(PadToken, PadId)];
        }
      }
    }
    PutFreshValueInjective(withPad, UnkToken, UnkId);
    Put(withPad, UnkToken, UnkId)
  }

  /** `<pad>` is 0 and `<unk>` is 1, overriding a corpus token of the same
      spelling; any other token has id 2 + its first-seen position when it occurs
      at least `min_freq` times, and is absent otherwise. */
  lemma VocabLookup(tokenLists: seq<seq<string>>, minFreq: int, t: string)
    ensures var flat := Flatten(tokenLists);
            Get(BuildVocab(tokenLists, minFreq), t) ==
              if t == PadToken then Some(PadId)
              else if t == UnkToken then Some(UnkId)
              else if t in flat && Count(flat, t) >= minFreq then Some(2 + IndexOf(Distinct(flat), t))
              else None
  {
    var flat := Flatten(tokenLists);
    var ds := Distinct(flat);
    var kept := KeptEntries(ds, flat, minFreq, 2);
    KeptEntriesGet(ds, flat, minFreq, 2, t);
    PutGet(kept, PadToken, PadId, t);
    PutGet(Put(kept, PadToken, PadId), UnkToken, UnkId, t);
  }

  /** A token below the frequency threshold, or absent from the corpus, is
      indexed as `<unk>`. */
  lemma RareTokenIndexesAsUnk(tokenLists: seq<seq<string>>, minFreq: int, t: string)
    requires t != PadToken && t != UnkToken
    requires Count(Flatten(tokenLists), t) < minFreq || t !in Flatten(tokenLists)
    ensures t !in Keys(BuildVocab(tokenLists, minFreq))
    ensures IndexTokens(BuildVocab(tokenLists, minFreq), [t], UnkId) == [UnkId]
  {
    VocabLookup(tokenLists, minFreq, t);
  }

  /** Kept tokens get ids in the order of their first appearance in the corpus. */
  lemma VocabFirstSeenOrder(tokenLists: seq<seq<string>>, minFreq: int, a: string, b: string)
    requires a != PadToken && a != UnkToken && b != PadToken && b != UnkToken
    requires a in Flatten(tokenLists) && Count(Flatten(tokenLists), a) >= minFreq
    requires b in Flatten(tokenLists) && Count(Flatten(tokenLists), b) >= minFreq
    ensures Get(BuildVocab(tokenLists, minFreq), a).Some?
    ensures Get(BuildVocab(tokenLists, minFreq), b).Some?
    ensures Get(BuildVocab(tokenLists, minFreq), a).value < Get(BuildVocab(tokenLists, minFreq), b).value
            <==> IndexOf(Flatten(tokenLists), a) < IndexOf(Flatten(tokenLists), b)
  {
    VocabLookup(tokenLists, minFreq, a);
    VocabLookup(tokenLists, minFreq, b);
    DistinctFirstSeenOrder(Flatten(tokenLists), a, b);
  }

  /** With `min_freq <= 1` and no literal `<pad>`/`<unk>` in the corpus, the ids
      are exactly `0 .. len(vocab) - 1`. */
  lemma VocabContiguous(tokenLists: seq<seq<string>>, minFreq: int)
    requires minFreq <= 1
    requires PadToken !in Flatten(tokenLists) && UnkToken !in Flatten(tokenLists)
    ensures |BuildVocab(tokenLists, minFreq)| == |Distinct(Flatten(tokenLists))| + 2
    ensures forall i :: 0 <= i < |BuildVocab(tokenLists, minFreq)| ==>
              0 <= BuildVocab(tokenLists, minFreq)[i].1 < |BuildVocab(tokenLists, minFreq)|
    ensures forall n :: 0 <= n < |BuildVocab(tokenLists, minFreq)| ==> n in Values(BuildVocab(tokenLists, minFreq))
  {
    var flat := Flatten(tokenLists);
    var ds := Distinct(flat);
    var kept := AllKeptWithoutSpecials(flat, minFreq);
    var r := BuildVocab(tokenLists, minFreq);
    assert r == kept + [(PadToken, PadId), (UnkToken, UnkId)] by {
      var withPad := Put(kept, PadToken, PadId);
      assert UnkToken !in Keys(withPad) by {
        PutKeys(kept, PadToken, PadId);
      }
    }
    SpecialsAfterNumbered(ds, kept);
  }

  /** With every token kept, the numbered entries are `(ds[i], 2 + i)` and
      contain neither special token. */
  lemma AllKeptWithoutSpecials(flat: seq<string>, minFreq: int) returns (kept: Vocab)
    requires minFreq <= 1
    requires PadToken !in flat && UnkToken !in flat
    ensures kept == KeptEntries(Distinct(flat), flat, minFreq, 2)
    ensures kept == seq(|Distinct(flat)|, i requires 0 <= i < |Distinct(flat)| => (Distinct(flat)[i], 2 + i))
    ensures PadToken !in Keys(kept) && UnkToken !in Keys(kept)
  {
    var ds := Distinct(flat);
    forall i | 0 <= i < |ds| ensures Count(flat, ds[i]) >= minFreq {
      assert ds[i] in flat;
    }
    KeptEntriesAll(ds, flat, minFreq, 2);
    kept := KeptEntries(ds, flat, minFreq, 2);
    forall i | 0 <= i < |kept| ensures Keys(kept)[i] != PadToken && Keys(kept)[i] != UnkToken {
      assert Keys(kept)[i] == ds[i] && ds[i] in ds;
    }
  }

  lemma SpecialsAfterNumbered(ds: seq<string>, kept: Vocab)
    requires kept == seq(|ds|, i requires 0 <= i < |ds| => (ds[i], 2 + i))
    ensures var r := kept + [(PadToken, PadId), (UnkToken, UnkId)];
            && (forall i :: 0 <= i < |r| ==> 0 <= r[i].1 < |r|)
            && (forall n :: 0 <= n < |r| ==> n in Values(r))
  {
    var r := kept + [(PadToken, PadId), (UnkToken, UnkId)];
    forall n | 0 <= n < |r| ensures n in Values(r) {
      if n == 0 { assert Values(r)[|ds|] == 0; }
      else if n == 1 { assert Values(r)[|ds| + 1] == 1; }
      else { assert Values(r)[n - 2] == n; }
    }
  }

  /** With `min_freq > 1` a dropped token still uses up its index, so ids can
      reach past the vocabulary size: in `a b b` with `min_freq = 2` only `b` is
      kept, with id 3, in a vocabulary of three entries. */
  lemma VocabGapWhenFiltered()
    ensures Get(BuildVocab([["a", "b", "b"]], 2), "b") == Some(3)
    ensures |BuildVocab([["a", "b", "b"]], 2)| == 3
  {
    var ls := [["a", "b", "b"]];
    var flat := Flatten(ls);
    assert flat == ["a", "b", "b"];
    assert Count(flat, "a") == 1 && Count(flat, "b") == 2;
    assert Distinct(flat) == ["a", "b"];
    assert IndexOf(["a", "b"], "b") == 1;
    VocabLookup(ls, 2, "b");
    var kept := KeptEntries(["a", "b"], flat, 2, 2);
    assert kept == [("b", 3)];
  }

  /** `inv_vocab` is the exact inverse of the vocabulary. */
  lemma InvVocabRoundTrip(tokenLists: seq<seq<string>>, minFreq: int)
    ensures forall t, id :: Get(BuildVocab(tokenLists, minFreq), t) == Some(id)
              <==> Get(Invert(BuildVocab(tokenLists, minFreq)), id) == Some(t)
  {
    InvertRoundTrip(BuildVocab(tokenLists, minFreq));
  }

  /** `[(ids[i:i+seq_len], ids[i+1:i+seq_len+1]) for i in range(0, len(ids) - seq_len)]`. */
  function Windows(ids: seq<int>, seqLen: int): (r: seq<Example>)
    ensures |r| == (if |ids| > seqLen then |ids| - seqLen else 0)
  {
    var n := if |ids| > seqLen then |ids| - seqLen else 0;
    seq(n, i requires 0 <= i < n => Example(Slice(ids, i, i + seqLen), Slice(ids, i + 1, i + seqLen + 1)))
  }

  /** Window `i` is `seq_len` ids starting at `i` and the same ids shifted by one:
      each target is the next input. */
  lemma WindowAt(ids: seq<int>, seqLen: int, i: nat)
    requires seqLen >= 0 && i < |Windows(ids, seqLen)|
    ensures |Windows(ids, seqLen)[i].src| == seqLen && |Windows(ids, seqLen)[i].tgt| == seqLen
    ensures forall k :: 0 <= k < seqLen ==>
              Windows(ids, seqLen)[i].src[k] == ids[i + k] && Windows(ids, seqLen)[i].tgt[k] == ids[i + k + 1]
    ensures forall k :: 0 <= k < seqLen - 1 ==> Windows(ids, seqLen)[i].src[k + 1] == Windows(ids, seqLen)[i].tgt[k]
  {
    var e := Windows(ids, seqLen)[i];
    assert e == Example(Slice(ids, i, i + seqLen), Slice(ids, i + 1, i + seqLen + 1));
    assert e.src == ids[i..i + seqLen];
    assert e.tgt == ids[i + 1..i + seqLen + 1];
  }

  datatype LmDataset = LmDataset(vocab: Vocab, invVocab: Items<int, string>, seqLen: int, data: seq<Example>)

  /** The windows of every line, line by line. */
  function LineWindows(vocab: Vocab, tokenLists: seq<seq<string>>, seqLen: int): (r: seq<seq<Example>>)
    ensures |r| == |tokenLists|
    ensures forall l :: 0 <= l < |r| ==> r[l] == Windows(IndexTokens(vocab, tokenLists[l], UnkId), seqLen)
  {
    seq(|tokenLists|, l requires 0 <= l < |tokenLists| =>
      Windows(IndexTokens(vocab, tokenLists[l], UnkId), seqLen))
  }

  /** `TextDataset(path, seq_len, min_freq)` over the lines of the file:
      the vocabulary of the non-blank lines' words, `seq_len` as given, and
      the windows of every line in line order. With a non-negative `seq_len`
      every example is two id lists of that length, the target being the
      source moved on by one token. */
  function TextDataset(lines: seq<string>, seqLen: int, minFreq: int): (r: LmDataset)
    ensures r.seqLen == seqLen
    ensures r.vocab == BuildVocab(TokenLines(lines), minFreq)
    ensures r.data == Flatten(LineWindows(r.vocab, TokenLines(lines), seqLen))
    ensures |r.data| == TotalLength(LineWindows(r.vocab, TokenLines(lines), seqLen))
    ensures seqLen >= 0 ==> forall n :: 0 <= n < |r.data| ==> ShiftedPair(r.data[n], seqLen)
  {
    var tl := TokenLines(lines);
    var vocab := BuildVocab(tl, minFreq);
    var ws := LineWindows(vocab, tl, seqLen);
    FlattenLength(ws);
    LineWindowsShifted(vocab, tl, seqLen);
    LmDataset(vocab, Invert(vocab), seqLen, Flatten(ws))
  }

  /** Source and target both hold `seqLen` ids, and each target id is the
      source id after it. */
  predicate ShiftedPair(e: Example, seqLen: int)
  {
    && |e.src| == seqLen && |e.tgt| == seqLen
    && forall k :: 0 <= k < seqLen - 1 ==> e.src[k + 1] == e.tgt[k]
  }

  /** Every example of the flattened windows is a shifted pair. */
  lemma LineWindowsShifted(vocab: Vocab, tl: seq<seq<string>>, seqLen: int)
    ensures seqLen >= 0 ==> forall n :: 0 <= n < |Flatten(LineWindows(vocab, tl, seqLen))| ==>
      ShiftedPair(Flatten(LineWindows(vocab, tl, seqLen))[n], seqLen)
  {
    if seqLen >= 0 {
      var ws := LineWindows(vocab, tl, seqLen);
      forall n | 0 <= n < |Flatten(ws)| ensures ShiftedPair(Flatten(ws)[n], seqLen) {
        var l, i := FlattenLocate(ws, n);
        FlattenIndex(ws, l, i);
        WindowAt(IndexTokens(vocab, tl[l], UnkId), seqLen, i);
      }
    }
  }

  /** The dataset's inverse vocabulary maps every id back to its token. */
  lemma TextDatasetInverse(lines: seq<string>, seqLen: int, minFreq: int)
    ensures var r := TextDataset(lines, seqLen, minFreq);
      forall t, id :: Get(r.vocab, t) == Some(id) <==> Get(r.invVocab, id) == Some(t)
  {
    InvVocabRoundTrip(TokenLines(lines), minFreq);
  }

  /** Examples come line by line, and within a line by offset: window `i` of
      line `l` follows all windows of the lines before it; its source holds
      that line's ids from offset `i` and its target the ids from `i + 1`, with
      `<unk>` for tokens missing from the vocabulary. */
  lemma ExamplesInLineOrder(vocab: Vocab, tl: seq<seq<string>>, seqLen: int, l: nat, i: nat)
    requires seqLen >= 0
    requires l < |tl| && i + seqLen < |tl[l]|
    ensures var ws := LineWindows(vocab, tl, seqLen);
            var n := TotalLength(ws[..l]) + i;
            && n < |Flatten(ws)|
            && |Flatten(ws)[n].src| == seqLen && |Flatten(ws)[n].tgt| == seqLen
            && forall k :: 0 <= k < seqLen ==>
                 && Flatten(ws)[n].src[k] == Get(vocab, tl[l][i + k]).GetOr(UnkId)
                 && Flatten(ws)[n].tgt[k] == Get(vocab, tl[l][i + k + 1]).GetOr(UnkId)
  {
    var ws := LineWindows(vocab, tl, seqLen);
    var ids := IndexTokens(vocab, tl[l], UnkId);
    FlattenIndex(ws, l, i);
    WindowAt(ids, seqLen, i);
  }

  /** Conversely, every example is such a window: example `n` is window `i`
      of some line `l`, placed after the windows of the lines before `l`. */
  lemma ExampleIsWindow(vocab: Vocab, tl: seq<seq<string>>, seqLen: int, n: nat) returns (l: nat, i: nat)
    requires seqLen >= 0
    requires n < |Flatten(LineWindows(vocab, tl, seqLen))|
    ensures l < |tl| && i + seqLen < |tl[l]|
    ensures n == TotalLength(LineWindows(vocab, tl, seqLen)[..l]) + i
    ensures var e := Flatten(LineWindows(vocab, tl, seqLen))[n];
            && |e.src| == seqLen && |e.tgt| == seqLen
            && forall k :: 0 <= k < seqLen ==>
                 && e.src[k] == Get(vocab, tl[l][i + k]).GetOr(UnkId)
                 && e.tgt[k] == Get(vocab, tl[l][i + k + 1]).GetOr(UnkId)
  {
    var ws := LineWindows(vocab, tl, seqLen);
    l, i := FlattenLocate(ws, n);
    ExamplesInLineOrder(vocab, tl, seqLen, l, i);
  }

  /** The dataset's example `n` for offset `i` of non-blank line `l` sits
      after the examples of the earlier lines and holds that line's ids from
      `i` as source and from `i + 1` as target. */
  lemma TextDatasetWindow(lines: seq<string>, seqLen: int, minFreq: int, r: LmDataset, l: nat, i: nat, n: nat)
    requires r == TextDataset(lines, seqLen, minFreq) && seqLen >= 0
    requires l < |TokenLines(lines)| && i + seqLen < |TokenLines(lines)[l]|
    requires n == TotalLength(LineWindows(r.vocab, TokenLines(lines), seqLen)[..l]) + i
    ensures n < |r.data| && |r.data[n].src| == seqLen && |r.data[n].tgt| == seqLen
    ensures forall k :: 0 <= k < seqLen ==>
              && r.data[n].src[k] == Get(r.vocab, TokenLines(lines)[l][i + k]).GetOr(UnkId)
              && r.data[n].tgt[k] == Get(r.vocab, TokenLines(lines)[l][i + k + 1]).GetOr(UnkId)
  {
    var tl := TokenLines(lines);
    assert r.data == Flatten(LineWindows(r.vocab, tl, seqLen));
    WindowOf(r.vocab, tl, seqLen, r.data, l, i, n);
  }

  /** `ExamplesInLineOrder` for a dataset given as the flattened windows. */
  lemma WindowOf(vocab: Vocab, tl: seq<seq<string>>, seqLen: int, data: seq<Example>, l: nat, i: nat, n: nat)
    requires data == Flatten(LineWindows(vocab, tl, seqLen)) && seqLen >= 0
    requires l < |tl| && i + seqLen < |tl[l]|
    requires n == TotalLength(LineWindows(vocab, tl, seqLen)[..l]) + i
    ensures n < |data| && |data[n].src| == seqLen && |data[n].tgt| == seqLen
    ensures forall k :: 0 <= k < seqLen ==>
              && data[n].src[k] == Get(vocab, tl[l][i + k]).GetOr(UnkId)
              && data[n].tgt[k] == Get(vocab, tl[l][i + k + 1]).GetOr(UnkId)
  {
    ExamplesInLineOrder(vocab, tl, seqLen, l, i);
  }

  /** Every example of the dataset is the window at some offset `i` of some
      non-blank line `l`. */
  lemma TextDatasetExampleIsWindow(lines: seq<string>, seqLen: int, minFreq: int, n: nat) returns (l: nat, i: nat)
    requires seqLen >= 0
    requires n < |TextDataset(lines, seqLen, minFreq).data|
    ensures l < |TokenLines(lines)| && i + seqLen < |TokenLines(lines)[l]|
    ensures var r := TextDataset(lines, seqLen, minFreq);
            var tl := TokenLines(lines);
            && |r.data[n].src| == seqLen && |r.data[n].tgt| == seqLen
            && forall k :: 0 <= k < seqLen ==>
                 && r.data[n].src[k] == Get(r.vocab, tl[l][i + k]).GetOr(UnkId)
                 && r.data[n].tgt[k] == Get(r.vocab, tl[l][i + k + 1]).GetOr(UnkId)
  {
    var r := TextDataset(lines, seqLen, minFreq);
    l, i := ExampleIsWindow(r.vocab, TokenLines(lines), seqLen, n);
  }
}

=== FILE: lm_generate.dfy ===
/** Text generation with the language model (`generate` in src/generate.py):
    the seed ids from the prompt, a fixed number of sampled extensions, and
    rendering through the inverse vocabulary. The sampler is a
    nondeterministic choice of an id the model can output.

    The vocabulary is the checkpoint's dict, so its keys are distinct
    (`Dict.WellFormed`, as every builder here proves) and `|vocab|` is
    `len(vocab)`; the members below do not need that fact, so they do not
    require it. */
module LmGenerate {
  import opened Results
  import opened PySeq
  import opened PyStr
  import opened Dict
  import opened Corpus

  /** `i in {vocab['<pad>'], vocab['<unk>']}`. */
  predicate Special(i: int, pad: int, unk: int) {
    i == pad || i == unk
  }

  /** `[i for i in range(n) if i not in specials]`. */
  function Choices(n: nat, pad: int, unk: int): (r: seq<int>)
    ensures forall k :: 0 <= k < |r| ==> 0 <= r[k] < n && r[k] != pad && r[k] != unk
    ensures forall k, l :: 0 <= k < l < |r| ==> r[k] < r[l]
  {
    if n == 0 then []
    else
      var rest := Choices(n - 1, pad, unk);
      if n - 1 == pad || n - 1 == unk then rest else rest + [n - 1]
  }

  /** Every non-special id below `n` is a choice. */
  lemma {:induction false} ChoicesComplete(n: nat, pad: int, unk: int, i: int)
    requires 0 <= i < n && i != pad && i != unk
    ensures i in Choices(n, pad, unk)
    decreases n
  {
    if i < n - 1 {
      ChoicesComplete(n - 1, pad, unk, i);
    }
  }

  /** The seed for an empty prompt: the smallest id in `range(n)` that is not
      special, or the `<unk>` id when there is none. */
  function SeedId(n: nat, pad: int, unk: int): (r: int)
    ensures r == unk || (0 <= r < n && !Special(r, pad, unk))
  {
    var c := Choices(n, pad, unk);
    if |c| > 0 then c[0] else unk
  }

  /** The seed is the least non-special id, and falls back to `<unk>` only
      when every id below `n` is special. */
  lemma SeedIdLeast(n: nat, pad: int, unk: int)
    ensures var s := SeedId(n, pad, unk);
      || (0 <= s < n && !Special(s, pad, unk) && forall i :: 0 <= i < s ==> Special(i, pad, unk))
      || (s == unk && forall i :: 0 <= i < n ==> Special(i, pad, unk))
  {
    var c := Choices(n, pad, unk);
    forall i | 0 <= i < n && !Special(i, pad, unk)
      ensures |c| > 0 && c[0] <= i
    {
      ChoicesComplete(n, pad, unk, i);
      var k :| 0 <= k < |c| && c[k] == i;
    }
  }

  /** With at least three ids, two specials cannot cover them all. */
  lemma SeedIdFromThreeIds(n: nat, pad: int, unk: int)
    requires n >= 3
    ensures SeedId(n, pad, unk) != pad && SeedId(n, pad, unk) != unk
  {
    var i := if 0 != pad && 0 != unk then 0 else if 1 != pad && 1 != unk then 1 else 2;
    ChoicesComplete(n, pad, unk, i);
  }

  /** The starting ids. A non-empty prompt maps token by token with the
      `<unk>` id as fallback; that fallback is looked up for every token, so a
      vocabulary without `<unk>` fails. An empty prompt looks up both
      specials and seeds with one id. */
  function PromptIds(vocab: Vocab, prompt: string): (r: Result<seq<int>>)
    ensures r.Err? <==> UnkToken !in Keys(vocab) || (Split(prompt) == [] && PadToken !in Keys(vocab))
    ensures r.Err? ==> r.error == KeyError
    ensures r.Ok? && Split(prompt) != [] ==> |r.value| == |Split(prompt)|
    ensures r.Ok? && Split(prompt) == [] ==> |r.value| == 1
  {
    var toks := Split(prompt);
    if toks != [] then
      match Get(vocab, UnkToken)
      case None => Err(KeyError)
      case Some(unk) => Ok(seq(|toks|, k requires 0 <= k < |toks| => Get(vocab, toks[k]).GetOr(unk)))
    else
      match Get(vocab, PadToken)
      case None => Err(KeyError)
      case Some(pad) =>
        match Get(vocab, UnkToken)
        case None => Err(KeyError)
        case Some(unk) => Ok([SeedId(|vocab|, pad, unk)])
  }

  /** A known prompt token becomes its id; an unknown one becomes the `<unk>` id. */
  lemma PromptTokenIds(vocab: Vocab, prompt: string, k: nat)
    requires PromptIds(vocab, prompt).Ok? && k < |Split(prompt)|
    ensures var ids := PromptIds(vocab, prompt).value;
      var t := Split(prompt)[k];
      && (t in Keys(vocab) ==> Get(vocab, t) == Some(ids[k]))
      && (t !in Keys(vocab) ==> Get(vocab, UnkToken) == Some(ids[k]))
  {
  }

  /** An empty prompt seeds deterministically with `SeedId` over the
      vocabulary's size and its special ids. */
  lemma EmptyPromptSeed(vocab: Vocab, prompt: string)
    requires PromptIds(vocab, prompt).Ok? && Split(prompt) == []
    ensures PromptIds(vocab, prompt).value
         == [SeedId(|vocab|, Get(vocab, PadToken).value, Get(vocab, UnkToken).value)]
  {
  }

  /** The sampling loop: `length` times, append an id the model can output,
      i.e. one below the vocabulary size. The choice itself is left open. */
  method Sample(ids: seq<int>, vocabSize: nat, length: int) returns (out: seq<int>)
    requires length <= 0 || vocabSize > 0
    ensures |out| == |ids| + RangeLen(length)
    ensures out[..|ids|] == ids
    ensures forall k :: |ids| <= k < |out| ==> 0 <= out[k] < vocabSize
  {
    out := ids;
    var i := 0;
    while i < RangeLen(length)
      invariant 0 <= i <= RangeLen(length)
      invariant |out| == |ids| + i && out[..|ids|] == ids
      invariant forall k :: |ids| <= k < |out| ==> 0 <= out[k] < vocabSize
    {
      var next: int :| 0 <= next < vocabSize;
      out := out + [next];
      i := i + 1;
    }
  }

  /** One id as text: its token, or `"<unk>"` when the inverse has none. */
  function Word(inv: Items<int, string>, id: int): (r: string)
    ensures id in Keys(inv) ==> Get(inv, id) == Some(r)
    ensures id !in Keys(inv) ==> r == UnkToken
  {
    Get(inv, id).GetOr(UnkToken)
  }

  /** `" ".join(inv_vocab.get(i, "<unk>") for i in ids)`. */
  function Render(inv: Items<int, string>, ids: seq<int>): (r: string)
    ensures ids == [] ==> r == []
  {
    Join(" ", seq(|ids|, k requires 0 <= k < |ids| => Word(inv, ids[k])))
  }

  /** When every token the inverse vocabulary holds is a whitespace-free word,
      splitting the rendered text gives back one word per id. */
  lemma RenderSplits(inv: Items<int, string>, ids: seq<int>)
    requires forall k :: 0 <= k < |inv| ==> IsWord(inv[k].1)
    ensures |Split(Render(inv, ids))| == |ids|
    ensures forall k :: 0 <= k < |ids| ==> Split(Render(inv, ids))[k] == Word(inv, ids[k])
  {
    var ws := seq(|ids|, k requires 0 <= k < |ids| => Word(inv, ids[k]));
    forall k | 0 <= k < |ids|
      ensures IsWord(ws[k])
    {
      if ids[k] in Keys(inv) {
        GetSome(inv, ids[k]);
      }
    }
    SplitJoin(ws);
  }

  /** `generate`: seed ids, then exactly `length` sampled ids, rendered. The
      ids are returned too so that the text can be related to them. */
  method Generate(vocab: Vocab, inv: Items<int, string>, prompt: string, length: int)
    returns (r: Result<string>, ids: seq<int>)
    ensures r.Err? <==> PromptIds(vocab, prompt).Err?
    ensures r.Err? ==> r.error == KeyError
    ensures r.Ok? ==> var seed := PromptIds(vocab, prompt).value;
      && |ids| == |seed| + RangeLen(length)
      && ids[..|seed|] == seed
      && (forall k :: |seed| <= k < |ids| ==> 0 <= ids[k] < |vocab|)
      && r.value == Render(inv, ids)
  {
    var start := PromptIds(vocab, prompt);
    if start.Err? {
      return Err(start.error), [];
    }
    assert UnkToken in Keys(vocab);
    ids := Sample(start.value, |vocab|, length);
    r := Ok(Render(inv, ids));
  }
}

=== FILE: pyseq.dfy ===
/** Python list and `collections.Counter` behaviour over Dafny sequences. */
module PySeq {

  /** No element occurs twice. */
  predicate NoDup<T(==)>(s: seq<T>) {
    forall i, j :: 0 <= i < j < |s| ==> s[i] != s[j]
  }

  /** Python's normalisation of one slice bound against a length `n`. */
  function ClampIndex(i: int, n: nat): (r: nat)
    ensures r <= n
    ensures 0 <= i <= n ==> r == i
    ensures i < 0 && i + n >= 0 ==> r == i + n
  {
    if i < 0 then (if i + n < 0 then 0 else i + n)
    else if i > n then n
    else i
  }

  /** How many times `for _ in range(n)` runs. */
  function RangeLen(n: int): (r: nat)
    ensures n >= 0 ==> r == n
    ensures n < 0 ==> r == 0
  {
    if n > 0 then n else 0
  }

  /** Python's `s[lo:hi]`, including negative and out-of-range bounds. */
  function Slice<T>(s: seq<T>, lo: int, hi: int): (r: seq<T>)
    ensures |r| <= |s|
    ensures 0 <= lo <= hi <= |s| ==> r == s[lo..hi]
    ensures 0 <= lo <= |s| && hi >= |s| ==> r == s[lo..]
  {
    var a := ClampIndex(lo, |s|);
    var b := ClampIndex(hi, |s|);
    if a < b then s[a..b] else []
  }

  /** The concatenation of a list of lists, in order. */
  function Flatten<T>(ss: seq<seq<T>>): (r: seq<T>)
    ensures |ss| == 0 ==> r == []
  {
    if |ss| == 0 then [] else Flatten(ss[..|ss| - 1]) + ss[|ss| - 1]
  }

  lemma {:induction false} FlattenAppend<T>(a: seq<seq<T>>, b: seq<seq<T>>)
    ensures Flatten(a + b) == Flatten(a) + Flatten(b)
    decreases |b|
  {
    if |b| == 0 {
      assert a + b == a;
    } else {
      var p, last := b[..|b| - 1], b[|b| - 1];
      assert (a + b)[..|a + b| - 1] == a + p && (a + b)[|a + b| - 1] == last;
      FlattenAppend(a, p);
      assert Flatten(a + b) == Flatten(a + p) + last;
      assert Flatten(b) == Flatten(p) + last;
      assert (Flatten(a) + Flatten(p)) + last == Flatten(a) + (Flatten(p) + last);
    }
  }

  /** The sum of the lengths of a list of lists. */
  function TotalLength<T>(ss: seq<seq<T>>): nat {
    if |ss| == 0 then 0 else TotalLength(ss[..|ss| - 1]) + |ss[|ss| - 1]|
  }

  lemma {:induction false} FlattenLength<T>(ss: seq<seq<T>>)
    ensures |Flatten(ss)| == TotalLength(ss)
    decreases |ss|
  {
    if |ss| > 0 {
      FlattenLength(ss[..|ss| - 1]);
    }
  }

  /** Element `i` of list `l` sits in the flattening right after the elements of
      the lists before `l`. */
  lemma {:induction false} FlattenIndex<T>(ss: seq<seq<T>>, l: nat, i: nat)
    requires l < |ss| && i < |ss[l]|
    ensures TotalLength(ss[..l]) + i < |Flatten(ss)|
    ensures Flatten(ss)[TotalLength(ss[..l]) + i] == ss[l][i]
    decreases |ss|
  {
    var p := ss[..|ss| - 1];
    FlattenLength(p);
    if l == |ss| - 1 {
      assert ss[..l] == p;
    } else {
      assert p[..l] == ss[..l];
      FlattenIndex(p, l, i);
    }
  }

  /** Every position of the flattening is element `i` of some list `l`,
      right after the elements of the lists before `l`. */
  lemma {:induction false} FlattenLocate<T>(ss: seq<seq<T>>, n: nat) returns (l: nat, i: nat)
    requires n < |Flatten(ss)|
    ensures l < |ss| && i < |ss[l]| && n == TotalLength(ss[..l]) + i
    decreases |ss|
  {
    var p := ss[..|ss| - 1];
    FlattenLength(p);
    if n < |Flatten(p)| {
      l, i := FlattenLocate(p, n);
      assert p[..l] == ss[..l];
    } else {
      l, i := |ss| - 1, n - TotalLength(p);
      assert ss[..l] == p;
    }
  }

  lemma FlattenMember<T>(ss: seq<seq<T>>, i: nat, x: T)
    requires i < |ss| && x in ss[i]
    ensures x in Flatten(ss)
  {
    if i < |ss| - 1 {
      FlattenMember(ss[..|ss| - 1], i, x);
    }
  }

  /** How many times `x` occurs in `s`. */
  function Count<T(==)>(s: seq<T>, x: T): (r: nat)
    ensures r <= |s|
    ensures r == 0 <==> x !in s
  {
    if |s| == 0 then 0
    else Count(s[..|s| - 1], x) + (if s[|s| - 1] == x then 1 else 0)
  }

  lemma {:induction false} CountAppend<T>(a: seq<T>, b: seq<T>, x: T)
    ensures Count(a + b, x) == Count(a, x) + Count(b, x)
    decreases |b|
  {
    if |b| == 0 {
      assert a + b == a;
    } else {
      assert (a + b)[..|a + b| - 1] == a + b[..|b| - 1];
      CountAppend(a, b[..|b| - 1], x);
    }
  }

  /** The position of the first occurrence of `x` in `s`. */
  function IndexOf<T(==)>(s: seq<T>, x: T): (r: nat)
    requires x in s
    ensures r < |s| && s[r] == x
    ensures forall j :: 0 <= j < r ==> s[j] != x
  {
    if s[0] == x then 0 else 1 + IndexOf(s[1..], x)
  }

  /** The distinct elements of `s` in order of first appearance: the key order of
      a `Counter` built from `s`. */
  function Distinct<T(==,!new)>(s: seq<T>): (r: seq<T>)
    ensures NoDup(r)
    ensures forall x :: x in r <==> x in s
    ensures |r| <= |s|
  {
    if |s| == 0 then []
    else
      var d := Distinct(s[..|s| - 1]);
      var x := s[|s| - 1];
      assert forall y :: y in s <==> y in s[..|s| - 1] || y == x by {
        assert s == s[..|s| - 1] + [x];
      }
      if x in d then d else d + [x]
  }

  /** Dropping the head of a list without duplicates: the rest has none,
      does not hold the head, and every other element moves one place left. */
  lemma NoDupTail<T>(s: seq<T>, x: T)
    requires NoDup(s) && |s| > 0
    ensures NoDup(s[1..]) && s[0] !in s[1..]
    ensures x in s <==> x == s[0] || x in s[1..]
    ensures x in s[1..] ==> IndexOf(s, x) == 1 + IndexOf(s[1..], x)
  {
    var t := s[1..];
    assert forall i :: 0 <= i < |t| ==> t[i] == s[i + 1];
    assert s == [s[0]] + t;
  }

  /** Distinct lists its elements in the order of their first occurrences in `s`. */
  lemma {:induction false} DistinctFirstSeenOrder<T(!new)>(s: seq<T>, x: T, y: T)
    requires x in s && y in s
    ensures IndexOf(Distinct(s), x) < IndexOf(Distinct(s), y) <==> IndexOf(s, x) < IndexOf(s, y)
    decreases |s|
  {
    var p := s[..|s| - 1];
    var last := s[|s| - 1];
    assert s == p + [last];
    var d := Distinct(p);
    if x in p && y in p {
      DistinctFirstSeenOrder(p, x, y);
      IndexOfPrefix(p, [last], x);
      IndexOfPrefix(p, [last], y);
      if last !in d {
        IndexOfPrefix(d, [last], x);
        IndexOfPrefix(d, [last], y);
      }
    } else if x in p {
      // y first occurs at the last position, after x
      assert y == last && y !in d;
      IndexOfPrefix(p, [last], x);
      IndexOfPrefix(d, [last], x);
      assert IndexOf(s, y) == |p| by { IndexOfLastNew(p, last); }
      assert IndexOf(Distinct(s), y) == |d| by { IndexOfLastNew(d, last); }
    } else if y in p {
      assert x == last && x !in d;
      IndexOfPrefix(p, [last], y);
      IndexOfPrefix(d, [last], y);
      assert IndexOf(s, x) == |p| by { IndexOfLastNew(p, last); }
      assert IndexOf(Distinct(s), x) == |d| by { IndexOfLastNew(d, last); }
    } else {
      assert x == last && y == last;
    }
  }

  lemma IndexOfPrefix<T>(a: seq<T>, b: seq<T>, x: T)
    requires x in a
    ensures x in a + b && IndexOf(a + b, x) == IndexOf(a, x)
  {
    var i := IndexOf(a, x);
    assert (a + b)[i] == x;
    var k := IndexOf(a + b, x);
    assert k <= i;
    assert k < |a| && a[k] == x;
  }

  lemma IndexOfLastNew<T>(a: seq<T>, x: T)
    requires x !in a
    ensures IndexOf(a + [x], x) == |a|
  {
    assert (a + [x])[|a|] == x;
  }
}

=== FILE: pystr.dfy ===
/** Python `str` operations used by the modelled code: `strip`, `lstrip`,
    `split()` with no separator, `sep.join`, `startswith` and substring search.
    Strings are `seq<char>`. */
module PyStr {
  import opened Results

  /** Python's `str.isspace` for one character, which is also what `\s`,
      `strip()` and `split()` treat as whitespace. */
  predicate IsSpace(c: char) {
    || c == ' ' || c == '\t' || c == '\n' || c == '\r'
    || c == '\U{B}' || c == '\U{C}'
    || ('\U{1C}' <= c <= '\U{1F}')
    || c == '\U{85}' || c == '\U{A0}' || c == '\U{1680}'
    || ('\U{2000}' <= c <= '\U{200A}')
    || c == '\U{2028}' || c == '\U{2029}' || c == '\U{202F}'
    || c == '\U{205F}' || c == '\U{3000}'
  }

  predicate AllSpace(s: string) {
    forall i :: 0 <= i < |s| ==> IsSpace(s[i])
  }

  predicate NoSpace(s: string) {
    forall i :: 0 <= i < |s| ==> !IsSpace(s[i])
  }

  /** A token as `split()` produces it: non-empty and free of whitespace. */
  predicate IsWord(w: string) {
    w != [] && NoSpace(w)
  }

  /** Python's `s.lstrip()`: the suffix left after the longest whitespace
      prefix (see `LStripSpec`). */
  function LStrip(s: string): (r: string)
    ensures |r| <= |s|
  {
    if |s| > 0 && IsSpace(s[0]) then LStrip(s[1..]) else s
  }

  /** `lstrip` keeps a suffix, removes only whitespace, and leaves no
      leading whitespace behind. */
  lemma {:induction false} LStripSpec(s: string)
    ensures LStrip(s) == s[|s| - |LStrip(s)|..]
    ensures AllSpace(s[..|s| - |LStrip(s)|])
    ensures LStrip(s) == [] || !IsSpace(LStrip(s)[0])
    decreases |s|
  {
    if |s| > 0 && IsSpace(s[0]) {
      LStripSpec(s[1..]);
      var k := |s| - |LStrip(s)|;
      assert s[1..][..k - 1] == s[1..k];
      assert s[1..][k - 1..] == s[k..];
    }
  }

  /** Python's `s.rstrip()`: the prefix left after the longest whitespace
      suffix (see `RStripSpec`). */
  function RStrip(s: string): (r: string)
    ensures |r| <= |s|
  {
    if |s| > 0 && IsSpace(s[|s| - 1]) then RStrip(s[..|s| - 1]) else s
  }

  /** `rstrip` keeps a prefix, removes only whitespace, and leaves no
      trailing whitespace behind. */
  lemma {:induction false} RStripSpec(s: string)
    ensures RStrip(s) == s[..|RStrip(s)|]
    ensures AllSpace(s[|RStrip(s)|..])
    ensures RStrip(s) == [] || !IsSpace(RStrip(s)[|RStrip(s)| - 1])
    decreases |s|
  {
    if |s| > 0 && IsSpace(s[|s| - 1]) {
      RStripSpec(s[..|s| - 1]);
      var k := |RStrip(s)|;
      assert s[..|s| - 1][..k] == s[..k];
      assert s[..|s| - 1][k..] == s[k..|s| - 1];
      forall i | k <= i < |s| ensures IsSpace(s[i]) {
        if i < |s| - 1 {
          assert s[i] == s[..|s| - 1][k..][i - k];
        }
      }
    }
  }

  /** Python's `s.strip()`: both ends are non-whitespace (see `StripEmpty`
      for when nothing is left). */
  function Strip(s: string): (r: string)
    ensures |r| <= |s|
    ensures r != [] ==> !IsSpace(r[0]) && !IsSpace(r[|r| - 1])
  {
    var l := LStrip(s);
    LStripSpec(s);
    RStripSpec(l);
    RStrip(l)
  }

  /** `strip` leaves nothing exactly when the string is blank. */
  lemma StripEmpty(s: string)
    ensures Strip(s) == [] <==> AllSpace(s)
  {
    var l := LStrip(s);
    LStripSpec(s);
    RStripSpec(l);
    var k := |s| - |l|;
    forall i | 0 <= i < |s|
      ensures IsSpace(s[i]) <==> i < k || IsSpace(l[i - k])
    {
      if i < k {
        assert s[..k][i] == s[i];
      }
    }
    if RStrip(l) == [] {
      assert l[|RStrip(l)|..] == l;
    }
  }

  /** Length of the longest prefix of `s` without whitespace. */
  function WordLength(s: string): (n: nat)
    ensures n <= |s|
    ensures NoSpace(s[..n])
    ensures n < |s| ==> IsSpace(s[n])
  {
    if |s| == 0 || IsSpace(s[0]) then 0 else 1 + WordLength(s[1..])
  }

  lemma LStripEmpty(s: string)
    ensures LStrip(s) == [] <==> AllSpace(s)
  {
    var t := LStrip(s);
    LStripSpec(s);
    if t != [] {
      assert s[|s| - |t|] == t[0];
    }
  }

  /** Python's `s.split()`: the maximal runs of non-whitespace characters, in order. */
  function Split(s: string): (r: seq<string>)
    ensures forall i :: 0 <= i < |r| ==> IsWord(r[i])
    decreases |s|
  {
    var t := LStrip(s);
    LStripSpec(s);
    if t == [] then []
    else
      var n := WordLength(t);
      assert n != 0;
      var w := t[..n];
      assert IsWord(w);
      [w] + Split(t[n..])
  }

  /** `split()` finds no token exactly when the string is blank, which is the
      condition `if line.strip()` tests. */
  lemma SplitEmpty(s: string)
    ensures Split(s) == [] <==> AllSpace(s)
    ensures Split(s) == [] <==> Strip(s) == []
  {
    LStripEmpty(s);
    StripEmpty(s);
  }

  /** Python's `sep.join(ws)`. */
  function Join(sep: string, ws: seq<string>): (r: string)
    ensures |ws| == 0 ==> r == []
    ensures |ws| == 1 ==> r == ws[0]
  {
    if |ws| == 0 then []
    else if |ws| == 1 then ws[0]
    else ws[0] + (sep + Join(sep, ws[1..]))
  }

  lemma SplitSkipsLeadingSpace(c: char, s: string)
    requires IsSpace(c)
    ensures Split([c] + s) == Split(s)
  {
    assert ([c] + s)[1..] == s;
  }

  lemma SplitOfWordThenRest(w: string, rest: string)
    requires IsWord(w)
    requires rest == [] || IsSpace(rest[0])
    ensures Split(w + rest) == [w] + Split(rest)
  {
    var s := w + rest;
    assert LStrip(s) == s;
    WordLengthOfWord(w, rest);
    assert s[..|w|] == w && s[|w|..] == rest;
  }

  lemma {:induction false} WordLengthOfWord(w: string, rest: string)
    requires NoSpace(w)
    requires rest == [] || IsSpace(rest[0])
    ensures WordLength(w + rest) == |w|
    decreases |w|
  {
    if |w| > 0 {
      assert (w + rest)[1..] == w[1..] + rest;
      WordLengthOfWord(w[1..], rest);
    }
  }

  lemma SplitJoinSingle(w: string)
    requires IsWord(w)
    ensures Split(Join(" ", [w])) == [w]
  {
    SplitOfWordThenRest(w, []);
    assert w + [] == w;
  }

  lemma SplitJoinCons(w: string, tail: seq<string>)
    requires IsWord(w) && |tail| >= 1
    requires Split(Join(" ", tail)) == tail
    ensures Split(Join(" ", [w] + tail)) == [w] + tail
  {
    var ws := [w] + tail;
    assert ws[1..] == tail;
    var rest := Join(" ", tail);
    assert Join(" ", ws) == w + (" " + rest);
    SplitOfWordThenRest(w, " " + rest);
    SplitSkipsLeadingSpace(' ', rest);
  }

  /** Joining words with single spaces and splitting again gives the words back. */
  lemma {:induction false} SplitJoin(ws: seq<string>)
    requires forall i :: 0 <= i < |ws| ==> IsWord(ws[i])
    ensures Split(Join(" ", ws)) == ws
    decreases |ws|
  {
    if |ws| == 1 {
      SplitJoinSingle(ws[0]);
    } else if |ws| > 1 {
      SplitJoin(ws[1..]);
      SplitJoinCons(ws[0], ws[1..]);
      assert ws == [ws[0]] + ws[1..];
    }
  }

  /** Python's `s.startswith(p)`. */
  predicate StartsWith(s: string, p: string) {
    |p| <= |s| && s[..|p|] == p
  }

  /** `pat` occurs in `s` starting at position `i`. */
  predicate OccursAt(s: string, pat: string, i: int) {
    0 <= i && i + |pat| <= |s| && s[i..i + |pat|] == pat
  }

  /** An occurrence at `j` in `s` is one at `j - d` in `s[d..]`. */
  lemma OccursDrop(s: string, pat: string, d: nat, j: int)
    requires d <= |s| && d <= j
    ensures OccursAt(s[d..], pat, j - d) <==> OccursAt(s, pat, j)
  {
    if j + |pat| <= |s| {
      assert s[d..][j - d..j - d + |pat|] == s[j..j + |pat|];
    }
  }

  /** Python's `s.find(pat)`: the first occurrence of `pat` in `s` (see
      `FindSpec`). */
  function Find(s: string, pat: string): (r: Option<nat>)
    ensures r.Some? ==> r.value + |pat| <= |s|
    decreases |s|
  {
    if |pat| > |s| then None
    else if s[..|pat|] == pat then Some(0)
    else
      match Find(s[1..], pat)
      case None => None
      case Some(k) => Some(k + 1)
  }

  /** `find` reports an occurrence with none before it, or `None` when there
      is no occurrence at all. */
  lemma {:induction false} FindSpec(s: string, pat: string)
    ensures Find(s, pat).Some? ==> OccursAt(s, pat, Find(s, pat).value)
    ensures Find(s, pat).Some? ==> forall j :: 0 <= j < Find(s, pat).value ==> !OccursAt(s, pat, j)
    ensures Find(s, pat).None? ==> forall j :: !OccursAt(s, pat, j)
    decreases |s|
  {
    if |pat| <= |s| && s[..|pat|] != pat {
      var t := s[1..];
      FindSpec(t, pat);
      forall j | 1 <= j
        ensures OccursAt(t, pat, j - 1) <==> OccursAt(s, pat, j)
      {
        OccursDrop(s, pat, 1, j);
      }
      assert !OccursAt(s, pat, 0);
      match Find(t, pat)
      case None =>
      case Some(k) =>
        assert Find(s, pat) == Some(k + 1);
    }
  }

  /** Python's `s.find(pat, start)`: the first occurrence of `pat` at or
      after `start` (see `FindFromSpec`). */
  function FindFrom(s: string, pat: string, start: nat): (r: Option<nat>)
    ensures r.Some? ==> start <= r.value && r.value + |pat| <= |s|
  {
    if start > |s| then None
    else
      match Find(s[start..], pat)
      case None => None
      case Some(k) => Some(start + k)
  }

  /** `find` from `start` reports an occurrence with none between `start`
      and it, or `None` when there is none at or after `start`. */
  lemma FindFromSpec(s: string, pat: string, start: nat)
    ensures FindFrom(s, pat, start).Some? ==> OccursAt(s, pat, FindFrom(s, pat, start).value)
    ensures FindFrom(s, pat, start).Some? ==>
      forall j :: start <= j < FindFrom(s, pat, start).value ==> !OccursAt(s, pat, j)
    ensures FindFrom(s, pat, start).None? ==> forall j :: start <= j ==> !OccursAt(s, pat, j)
  {
    if start <= |s| {
      FindSpec(s[start..], pat);
      forall j | start <= j {
        OccursDrop(s, pat, start, j);
      }
    }
  }

  /** When `pat` occurs at `p` and nowhere before, `find` reports `p`. */
  lemma FindFirst(s: string, pat: string, p: nat)
    requires OccursAt(s, pat, p)
    requires forall j :: 0 <= j < p ==> !OccursAt(s, pat, j)
    ensures Find(s, pat) == Some(p)
  {
    FindSpec(s, pat);
  }

  /** When `pat` occurs at `p` and nowhere in `[start, p)`, `find` reports `p`. */
  lemma FindFromFirst(s: string, pat: string, start: nat, p: nat)
    requires start <= p && OccursAt(s, pat, p)
    requires forall j :: start <= j < p ==> !OccursAt(s, pat, j)
    ensures FindFrom(s, pat, start) == Some(p)
  {
    FindFromSpec(s, pat, start);
  }

  /** An occurrence fixes the characters it covers. */
  lemma OccursCovers(s: string, pat: string, j: int, g: int)
    requires OccursAt(s, pat, j) && j <= g < j + |pat|
    ensures s[g] == pat[g - j]
  {
    assert s[j..j + |pat|][g - j] == s[g];
  }

  /** An occurrence inside a slice is an occurrence in that slice. */
  lemma OccursInSlice(s: string, pat: string, lo: int, hi: int, j: int)
    requires 0 <= lo <= j && j + |pat| <= hi <= |s| && OccursAt(s, pat, j)
    ensures OccursAt(s[lo..hi], pat, j - lo)
  {
    forall k | 0 <= k < |pat|
      ensures s[lo..hi][j - lo..j - lo + |pat|][k] == pat[k]
    {
      OccursCovers(s, pat, j, j + k);
    }
  }

  /** Leading whitespace in front of a string that starts with a non-space is
      what `lstrip` removes. */
  lemma {:induction false} LStripSpaces(ws: string, t: string)
    requires AllSpace(ws) && (t == [] || !IsSpace(t[0]))
    ensures LStrip(ws + t) == t
    decreases |ws|
  {
    if |ws| > 0 {
      assert (ws + t)[1..] == ws[1..] + t;
      LStripSpaces(ws[1..], t);
    } else {
      assert ws + t == t;
    }
  }

  /** Trailing whitespace after a string that ends in a non-space is what
      `rstrip` removes. */
  lemma {:induction false} RStripSpaces(t: string, ws: string)
    requires AllSpace(ws) && (t == [] || !IsSpace(t[|t| - 1]))
    ensures RStrip(t + ws) == t
    decreases |ws|
  {
    if |ws| > 0 {
      assert (t + ws)[..|t + ws| - 1] == t + ws[..|ws| - 1];
      RStripSpaces(t, ws[..|ws| - 1]);
    } else {
      assert t + ws == t;
    }
  }

  /** `strip` removes exactly the whitespace around an already stripped string. */
  lemma StripAround(ws1: string, x: string, ws2: string)
    requires AllSpace(ws1) && AllSpace(ws2)
    requires x == [] || (!IsSpace(x[0]) && !IsSpace(x[|x| - 1]))
    ensures Strip(ws1 + x + ws2) == x
  {
    if x == [] {
      assert ws1 + x + ws2 == (ws1 + ws2) + [];
      LStripSpaces(ws1 + ws2, []);
    } else {
      assert ws1 + x + ws2 == ws1 + (x + ws2);
      LStripSpaces(ws1, x + ws2);
      RStripSpaces(x, ws2);
    }
  }

  /** Words joined by any separator begin with the first word's first
      character and end with the last word's last character. */
  lemma {:induction false} JoinWordsEnds(sep: string, ws: seq<string>)
    requires forall i :: 0 <= i < |ws| ==> IsWord(ws[i])
    ensures var j := Join(sep, ws);
      && (j == [] <==> ws == [])
      && (ws != [] ==> IsWord(ws[0]) && IsWord(ws[|ws| - 1]) && j[0] == ws[0][0]
                       && j[|j| - 1] == ws[|ws| - 1][|ws[|ws| - 1]| - 1])
    decreases |ws|
  {
    if |ws| > 1 {
      JoinWordsEnds(sep, ws[1..]);
    }
  }

  /** Joined words have nothing for `strip` to remove. */
  lemma StripJoinWords(sep: string, ws: seq<string>)
    requires forall i :: 0 <= i < |ws| ==> IsWord(ws[i])
    ensures Strip(Join(sep, ws)) == Join(sep, ws)
  {
    var j := Join(sep, ws);
    JoinWordsEnds(sep, ws);
    assert [] + j + [] == j;
    StripAround([], j, []);
  }

  /** `strip` only removes characters. */
  lemma StripKeepsChars(s: string)
    ensures forall k :: 0 <= k < |Strip(s)| ==> Strip(s)[k] in s
  {
    var l := LStrip(s);
    var i := |s| - |l|;
    LStripSpec(s);
    RStripSpec(l);
    forall k | 0 <= k < |Strip(s)|
      ensures Strip(s)[k] in s
    {
      assert Strip(s)[k] == l[k] == s[i + k];
    }
  }
}

=== FILE: results.dfy ===
/** Failure-carrying values shared by every module of the model.
    Python exceptions that the modelled code can raise become `Err` values. */
module Results {

  datatype Option<+T> = None | Some(value: T) {

    /** Returns the value inside `Some`, or `default` for `None` (Python's `d.get(k, default)`). */
    function GetOr(default: T): T {
      match this
      case Some(v) => v
      case None => default
    }
  }

  /** The Python exceptions the modelled code raises on bad input. */
  datatype Error =
    | AssertionError(message: string)
    | KeyError
    | IndexError
    | ValueError
    | ZeroDivisionError

  datatype Result<+T> = Ok(value: T) | Err(error: Error)
}

=== FILE: scan_splitter.dfy ===
/** `scan_splitter.py`: pull the IN or the OUT segment out of SCAN-style lines
    `IN: <command> OUT: <actions>`. The pattern `.*?IN:\s*(.*?)\s*OUT:\s*(.*)`,
    matched at the start of a line without line breaks, is modelled through
    the first `IN:` and the first `OUT:` after it. */
module ScanSplitter {
  import opened Results
  import opened PyStr

  const InMarker: string := "IN:"
  const OutMarker: string := "OUT:"

  /** `.` in the pattern does not match a line break. A line read from
      standard input holds one only as its terminator, which `strip` drops. */
  predicate NoNewline(s: string) {
    forall i :: 0 <= i < |s| ==> s[i] != '\n'
  }

  /** A line of standard input, terminator included: once stripped, no line
      break is left. */
  predicate OneLine(raw: string) {
    NoNewline(Strip(raw))
  }

  /** Where the two groups of `.*?A\s*(.*?)\s*B\s*(.*)` lie for markers `a`
      and `b`, or `None` when the pattern does not match: the lazy prefix
      stops at the first `a`, and the lazy first group runs from the end of
      that `a` to the first `b` at or after it. The result is that end and
      the position of that `b`. */
  function Markers(line: string, a: string, b: string): (r: Option<(nat, nat)>)
    ensures r.Some? ==> r.value.0 <= r.value.1 && r.value.1 + |b| <= |line|
  {
    match Find(line, a)
    case None => None
    case Some(p) =>
      match FindFrom(line, b, p + |a|)
      case None => None
      case Some(q) => Some((p + |a|, q))
  }

  /** `a` occurs at `p` and nowhere before it, and `b` occurs at `q`, at or
      after the end of that `a`, and nowhere between the two. */
  predicate FirstOccurrences(line: string, a: string, b: string, p: nat, q: nat) {
    && OccursAt(line, a, p) && (forall j :: 0 <= j < p ==> !OccursAt(line, a, j))
    && p + |a| <= q && OccursAt(line, b, q)
    && (forall j :: p + |a| <= j < q ==> !OccursAt(line, b, j))
  }

  /** When `p` is the first `a` and `q` the first `b` after it, the pattern
      matches there. */
  lemma MarkersAt(line: string, a: string, b: string, p: nat, q: nat)
    requires FirstOccurrences(line, a, b, p, q)
    ensures Markers(line, a, b) == Some((p + |a|, q))
  {
    FindFirst(line, a, p);
    FindFromFirst(line, b, p + |a|, q);
  }

  /** What `Find` and `FindFrom` locate are the first occurrences. */
  lemma FoundFirst(line: string, a: string, b: string, p: nat, q: nat)
    requires Find(line, a) == Some(p) && FindFrom(line, b, p + |a|) == Some(q)
    ensures FirstOccurrences(line, a, b, p, q)
  {
    FindSpec(line, a);
    FindFromSpec(line, b, p + |a|);
  }

  /** Conversely, a match is made of the first `a` and the first `b` at or
      after its end. */
  lemma MarkersSomeFirst(line: string, a: string, b: string)
    ensures Markers(line, a, b).Some? ==>
      && Markers(line, a, b).value.0 >= |a|
      && FirstOccurrences(line, a, b, Markers(line, a, b).value.0 - |a|, Markers(line, a, b).value.1)
  {
    FindSpec(line, a);
    if Find(line, a).Some? {
      var p := Find(line, a).value;
      FindFromSpec(line, b, p + |a|);
    }
  }

  /** The pattern fails exactly when no `a` is followed, at or after its end,
      by a `b`. */
  lemma MarkersNone(line: string, a: string, b: string)
    ensures Markers(line, a, b).None? <==>
      forall p, q :: OccursAt(line, a, p) && p + |a| <= q ==> !OccursAt(line, b, q)
  {
    FindSpec(line, a);
    match Find(line, a)
    case None =>
    case Some(p0) =>
      FindFromSpec(line, b, p0 + |a|);
      forall p, q | OccursAt(line, a, p) && p + |a| <= q && OccursAt(line, b, q)
        ensures FindFrom(line, b, p0 + |a|).Some?
      {
        assert p0 <= p;
      }
  }

  /** Group 1: the text between the markers without the whitespace around it
      (the greedy `\s*` in front, the lazy group and the `\s*` behind), or
      `""` when the pattern does not match. */
  function InSegment(line: string, a: string, b: string): (r: string)
    ensures Markers(line, a, b).None? ==> r == []
    ensures r != [] ==> !IsSpace(r[0]) && !IsSpace(r[|r| - 1])
  {
    Strip(BetweenMarkers(line, a, b))
  }

  /** The text between the markers, or `""` when the pattern does not match. */
  function BetweenMarkers(line: string, a: string, b: string): string
  {
    var m := Markers(line, a, b);
    if m.None? then [] else line[m.value.0..m.value.1]
  }

  /** Group 2: the rest of the line after the whitespace that follows the
      second marker, or `""` when the pattern does not match. */
  function OutSegment(line: string, a: string, b: string): (r: string)
    ensures Markers(line, a, b).None? ==> r == []
    ensures r != [] ==> !IsSpace(r[0])
  {
    LStripSpec(AfterMarkers(line, a, b));
    LStrip(AfterMarkers(line, a, b))
  }

  /** The text after the second marker, or `""` when the pattern does not
      match. */
  function AfterMarkers(line: string, a: string, b: string): string
  {
    var m := Markers(line, a, b);
    if m.None? then [] else line[m.value.1 + |b|..]
  }

  /** Group 1 once both markers are located: the stripped text between them. */
  lemma InSegmentAt(line: string, a: string, b: string, p: nat, q: nat)
    requires FirstOccurrences(line, a, b, p, q)
    ensures p + |a| <= q && InSegment(line, a, b) == Strip(line[p + |a|..q])
  {
    MarkersAt(line, a, b, p, q);
    assert BetweenMarkers(line, a, b) == line[p + |a|..q];
  }

  /** Group 2 once both markers are located: the text after the second
      marker without its leading whitespace. */
  lemma OutSegmentAt(line: string, a: string, b: string, p: nat, q: nat)
    requires FirstOccurrences(line, a, b, p, q)
    ensures q + |b| <= |line| && OutSegment(line, a, b) == LStrip(line[q + |b|..])
  {
    MarkersAt(line, a, b, p, q);
    assert AfterMarkers(line, a, b) == line[q + |b|..];
  }

  /** `process_line`: the IN segment, or the OUT segment in output mode, or
      `""` for a line the pattern does not match. */
  function ProcessLine(line: string, outputMode: bool): (r: string)
    requires NoNewline(line)
    ensures r != [] ==> !IsSpace(r[0])
    ensures r != [] && !outputMode ==> !IsSpace(r[|r| - 1])
  {
    if outputMode then OutSegment(line, InMarker, OutMarker) else InSegment(line, InMarker, OutMarker)
  }

  /** A line where no `IN:` is followed by an `OUT:` is skipped as malformed. */
  lemma ProcessLineUnmatched(line: string, outputMode: bool)
    requires NoNewline(line)
    requires forall p, q :: OccursAt(line, InMarker, p) && p + 3 <= q ==> !OccursAt(line, OutMarker, q)
    ensures ProcessLine(line, outputMode) == []
  {
    MarkersNone(line, InMarker, OutMarker);
  }

  /** `a` is first found right after `junk` in `junk + rest` when `rest`
      starts with `a`, `junk` holds no `a`, and the first character of `a`
      recurs nowhere else in `a`: an occurrence reaching from `junk` into the
      marker would need that character at a later place of `a`. */
  lemma FirstAfterJunk(junk: string, a: string, rest: string)
    requires |a| >= 1 && forall k :: 1 <= k < |a| ==> a[k] != a[0]
    requires forall j :: !OccursAt(junk, a, j)
    requires |rest| >= |a| && rest[..|a|] == a
    ensures Find(junk + rest, a) == Some(|junk|)
  {
    var line := junk + rest;
    assert line[|junk|..] == rest;
    assert line[|junk|..|junk| + |a|] == rest[..|a|];
    assert line[0..|junk|] == junk;
    forall j | 0 <= j < |junk| && OccursAt(line, a, j)
      ensures false
    {
      if j + |a| <= |junk| {
        OccursInSlice(line, a, 0, |junk|, j);
      } else {
        assert line[|junk|] == rest[0] == a[0];
        OccursCovers(line, a, j, |junk|);
      }
    }
    FindFirst(line, a, |junk|);
  }

  /** No `b` starts in the stretch `ws1 + inp + ws2` that begins at `off`
      when `b` holds no whitespace, `inp` holds no `b`, `ws1` and `ws2` are
      whitespace, and what follows starts like `b` while the first character
      of `b` recurs nowhere else in `b`: an occurrence would have to cover a
      whitespace character, or reach from `inp` into the following `b`. */
  lemma NoneBetween(line: string, off: nat, ws1: string, inp: string, ws2: string, rest: string, b: string)
    requires NoSpace(b) && |b| >= 1 && AllSpace(ws1) && AllSpace(ws2)
    requires |rest| >= 1 && rest[0] == b[0] && forall k :: 1 <= k < |b| ==> b[k] != b[0]
    requires forall j :: !OccursAt(inp, b, j)
    requires off <= |line| && line[off..] == ws1 + (inp + (ws2 + rest))
    ensures forall j :: off <= j < off + |ws1| + |inp| + |ws2| ==> !OccursAt(line, b, j)
  {
    var i0 := off + |ws1|;
    var i1 := i0 + |inp|;
    assert line[i0..i1] == inp by {
      assert line[off..][|ws1|..][..|inp|] == inp;
    }
    forall j | off <= j < off + |ws1| + |inp| + |ws2| && OccursAt(line, b, j)
      ensures false
    {
      if j < i0 {
        assert line[j] == line[off..][j - off] == ws1[j - off];
        OccursCovers(line, b, j, j);
      } else if j + |b| <= i1 {
        OccursInSlice(line, b, i0, i1, j);
      } else if |ws2| == 0 {
        assert line[i1] == line[off..][i1 - off] == rest[0];
        OccursCovers(line, b, j, i1);
      } else {
        var g := if j < i1 then i1 else j;
        assert line[g] == line[off..][g - off] == ws2[g - i1];
        OccursCovers(line, b, j, g);
      }
    }
  }

  /** A line built as `junk`, the IN marker, whitespace, the IN part,
      whitespace, the OUT marker, whitespace and the OUT part (nested to the
      right so that each piece is the suffix after the ones before it). */
  function Assembled(junk: string, ws1: string, inp: string, ws2: string, ws3: string, out: string): (r: string)
    ensures |r| == |junk| + 7 + |ws1| + |inp| + |ws2| + |ws3| + |out|
  {
    junk + (InMarker + (ws1 + (inp + (ws2 + (OutMarker + (ws3 + out))))))
  }

  /** Where the markers of an assembled line are found. */
  lemma AssembledMarkers(junk: string, ws1: string, inp: string, ws2: string, ws3: string, out: string)
    requires AllSpace(ws1) && AllSpace(ws2)
    requires forall j :: !OccursAt(junk, InMarker, j)
    requires forall j :: !OccursAt(inp, OutMarker, j)
    ensures var line := Assembled(junk, ws1, inp, ws2, ws3, out);
      var p := |junk|;
      var q := p + 3 + |ws1| + |inp| + |ws2|;
      && FirstOccurrences(line, InMarker, OutMarker, p, q)
      && line[p + 3..q] == ws1 + inp + ws2
      && line[q + 4..] == ws3 + out
  {
    var line := Assembled(junk, ws1, inp, ws2, ws3, out);
    var p := |junk|;
    var t1 := ws1 + (inp + (ws2 + (OutMarker + (ws3 + out))));
    FirstAfterJunk(junk, InMarker, InMarker + t1);
    assert line[p + 3..] == t1 by {
      assert line[p..] == InMarker + t1;
    }
    SecondMarker(line, p + 3, ws1, inp, ws2, ws3, out);
    FoundFirst(line, InMarker, OutMarker, p, p + 3 + |ws1| + |inp| + |ws2|);
  }

  /** The OUT marker is found first after the whitespace behind the IN part. */
  lemma SecondMarker(line: string, off: nat, ws1: string, inp: string, ws2: string, ws3: string, out: string)
    requires AllSpace(ws1) && AllSpace(ws2)
    requires forall j :: !OccursAt(inp, OutMarker, j)
    requires off <= |line| && line[off..] == ws1 + (inp + (ws2 + (OutMarker + (ws3 + out))))
    ensures var q := off + |ws1| + |inp| + |ws2|;
      && FindFrom(line, OutMarker, off) == Some(q)
      && line[off..q] == ws1 + inp + ws2
      && line[q + 4..] == ws3 + out
  {
    var tb := OutMarker + (ws3 + out);
    var t1 := line[off..];
    var n := |ws1| + |inp| + |ws2|;
    var q := off + n;
    NoneBetween(line, off, ws1, inp, ws2, tb, OutMarker);
    assert line[q..] == tb by {
      assert t1[n..] == tb;
    }
    assert line[q..q + 4] == OutMarker;
    FindFromFirst(line, OutMarker, off, q);
    assert line[off..q] == t1[..n];
    assert t1[..n] == ws1 + inp + ws2;
    assert line[q + 4..] == tb[4..];
  }

  /** Input mode gives back the IN part of an assembled line. */
  lemma InPartRoundTrip(junk: string, ws1: string, inp: string, ws2: string, ws3: string, out: string)
    requires AllSpace(ws1) && AllSpace(ws2)
    requires forall j :: !OccursAt(junk, InMarker, j)
    requires forall j :: !OccursAt(inp, OutMarker, j)
    requires inp == [] || (!IsSpace(inp[0]) && !IsSpace(inp[|inp| - 1]))
    ensures InSegment(Assembled(junk, ws1, inp, ws2, ws3, out), InMarker, OutMarker) == inp
  {
    var line := Assembled(junk, ws1, inp, ws2, ws3, out);
    var p := |junk|;
    AssembledMarkers(junk, ws1, inp, ws2, ws3, out);
    InFromMarkers(line, p, p + 3 + |ws1| + |inp| + |ws2|, ws1, inp, ws2);
  }

  /** Group 1 is the IN part when whitespace surrounds it between the
      located markers. */
  lemma InFromMarkers(line: string, p: nat, q: nat, ws1: string, inp: string, ws2: string)
    requires FirstOccurrences(line, InMarker, OutMarker, p, q)
    requires line[p + 3..q] == ws1 + inp + ws2
    requires AllSpace(ws1) && AllSpace(ws2)
    requires inp == [] || (!IsSpace(inp[0]) && !IsSpace(inp[|inp| - 1]))
    ensures InSegment(line, InMarker, OutMarker) == inp
  {
    InSegmentAt(line, InMarker, OutMarker, p, q);
    StripAround(ws1, inp, ws2);
  }

  /** Output mode gives back the OUT part of an assembled line. */
  lemma OutPartRoundTrip(junk: string, ws1: string, inp: string, ws2: string, ws3: string, out: string)
    requires AllSpace(ws1) && AllSpace(ws2) && AllSpace(ws3)
    requires forall j :: !OccursAt(junk, InMarker, j)
    requires forall j :: !OccursAt(inp, OutMarker, j)
    requires out == [] || !IsSpace(out[0])
    ensures OutSegment(Assembled(junk, ws1, inp, ws2, ws3, out), InMarker, OutMarker) == out
  {
    var line := Assembled(junk, ws1, inp, ws2, ws3, out);
    var p := |junk|;
    AssembledMarkers(junk, ws1, inp, ws2, ws3, out);
    OutFromMarkers(line, p, p + 3 + |ws1| + |inp| + |ws2|, ws3, out);
  }

  /** Group 2 is the OUT part when whitespace and the OUT part follow the
      located second marker. */
  lemma OutFromMarkers(line: string, p: nat, q: nat, ws3: string, out: string)
    requires FirstOccurrences(line, InMarker, OutMarker, p, q)
    requires q + 4 <= |line| && line[q + 4..] == ws3 + out
    requires AllSpace(ws3) && (out == [] || !IsSpace(out[0]))
    ensures OutSegment(line, InMarker, OutMarker) == out
  {
    OutSegmentAt(line, InMarker, OutMarker, p, q);
    LStripSpaces(ws3, out);
  }

  /** A line assembled from an IN part and an OUT part, with any whitespace
      around the markers and any text without `IN:` before them, gives back
      the IN part in input mode and the OUT part in output mode. */
  lemma ProcessLineRoundTrip(junk: string, ws1: string, inp: string, ws2: string, ws3: string, out: string,
                             outputMode: bool)
    requires AllSpace(ws1) && AllSpace(ws2) && AllSpace(ws3)
    requires forall j :: !OccursAt(junk, InMarker, j)
    requires forall j :: !OccursAt(inp, OutMarker, j)
    requires inp == [] || (!IsSpace(inp[0]) && !IsSpace(inp[|inp| - 1]))
    requires out == [] || !IsSpace(out[0])
    requires NoNewline(Assembled(junk, ws1, inp, ws2, ws3, out))
    ensures ProcessLine(Assembled(junk, ws1, inp, ws2, ws3, out), outputMode) == if outputMode then out else inp
  {
    if outputMode {
      OutPartRoundTrip(junk, ws1, inp, ws2, ws3, out);
    } else {
      InPartRoundTrip(junk, ws1, inp, ws2, ws3, out);
    }
  }

  /** What `main` prints for one line of standard input, terminator
      included: nothing for a blank line or an empty result, otherwise the
      result of the stripped line. */
  function LineOutput(raw: string, outputMode: bool): (r: seq<string>)
    requires OneLine(raw)
    ensures |r| <= 1 && (r == [] || r[0] != [])
  {
    var line := Strip(raw);
    if line == [] then []
    else
      var result := ProcessLine(line, outputMode);
      if result == [] then [] else [result]
  }

  /** A line prints nothing exactly when it is blank or its result is empty;
      otherwise it prints the result for the stripped line. */
  lemma LineOutputSpec(raw: string, outputMode: bool)
    requires OneLine(raw)
    ensures var r := LineOutput(raw, outputMode);
      && (r == [] <==> Strip(raw) == [] || ProcessLine(Strip(raw), outputMode) == [])
      && (r != [] ==> r[0] == ProcessLine(Strip(raw), outputMode))
  {
  }

  /** The `main` loop over the lines of standard input, in order. */
  function ScanMain(lines: seq<string>, outputMode: bool): (r: seq<string>)
    requires forall i :: 0 <= i < |lines| ==> OneLine(lines[i])
    ensures |r| <= |lines|
  {
    if |lines| == 0 then []
    else LineOutput(lines[0], outputMode) + ScanMain(lines[1..], outputMode)
  }

  /** `main` never prints an empty line. */
  lemma {:induction false} ScanMainNoBlank(lines: seq<string>, outputMode: bool)
    requires forall i :: 0 <= i < |lines| ==> OneLine(lines[i])
    ensures forall i :: 0 <= i < |ScanMain(lines, outputMode)| ==> ScanMain(lines, outputMode)[i] != []
    decreases |lines|
  {
    if |lines| > 0 {
      ScanMainNoBlank(lines[1..], outputMode);
    }
  }

  /** Lines are handled one at a time: the output for two consecutive chunks
      of input is the two outputs one after the other. */
  lemma {:induction false} ScanMainAppend(a: seq<string>, b: seq<string>, outputMode: bool)
    requires forall i :: 0 <= i < |a| ==> OneLine(a[i])
    requires forall i :: 0 <= i < |b| ==> OneLine(b[i])
    ensures forall i :: 0 <= i < |a + b| ==> OneLine((a + b)[i])
    ensures ScanMain(a + b, outputMode) == ScanMain(a, outputMode) + ScanMain(b, outputMode)
    decreases |a|
  {
    if |a| > 0 {
      assert (a + b)[1..] == a[1..] + b;
      ScanMainAppend(a[1..], b, outputMode);
      var h := LineOutput(a[0], outputMode);
      assert h + (ScanMain(a[1..], outputMode) + ScanMain(b, outputMode))
          == (h + ScanMain(a[1..], outputMode)) + ScanMain(b, outputMode);
    } else {
      assert a + b == b;
    }
  }

  /** A line of standard input holding an assembled line between whitespace
      prints the selected part, or nothing when that part is empty. An empty
      OUT part must end the line right after its marker. */
  lemma ScanAssembledLine(lead: string, ws1: string, inp: string, ws2: string, ws3: string, out: string,
                          trail: string, outputMode: bool)
    requires AllSpace(lead) && AllSpace(trail)
    requires AllSpace(ws1) && AllSpace(ws2) && AllSpace(ws3)
    requires forall j :: !OccursAt(inp, OutMarker, j)
    requires inp == [] || (!IsSpace(inp[0]) && !IsSpace(inp[|inp| - 1]))
    requires out == [] ==> ws3 == []
    requires out != [] ==> !IsSpace(out[0]) && !IsSpace(out[|out| - 1])
    requires OneLine(lead + Assembled([], ws1, inp, ws2, ws3, out) + trail)
    ensures var part := if outputMode then out else inp;
      ScanMain([lead + Assembled([], ws1, inp, ws2, ws3, out) + trail], outputMode)
        == if part == [] then [] else [part]
  {
    var line := Assembled([], ws1, inp, ws2, ws3, out);
    var raw := lead + line + trail;
    AssembledEnds(ws1, inp, ws2, ws3, out);
    StripAround(lead, line, trail);
    ProcessLineRoundTrip([], ws1, inp, ws2, ws3, out, outputMode);
    ScanOneLine(raw, outputMode);
  }

  /** An assembled line without junk starts with the IN marker and ends with
      the OUT part, or with the OUT marker when that part is empty. */
  lemma AssembledEnds(ws1: string, inp: string, ws2: string, ws3: string, out: string)
    requires out == [] ==> ws3 == []
    requires out != [] ==> !IsSpace(out[|out| - 1])
    ensures var line := Assembled([], ws1, inp, ws2, ws3, out);
      line != [] && !IsSpace(line[0]) && !IsSpace(line[|line| - 1])
  {
    var line := Assembled([], ws1, inp, ws2, ws3, out);
    assert line[0] == 'I';
    var tb := OutMarker + (ws3 + out);
    assert line[|line| - |tb|..] == tb;
    assert line[|line| - 1] == if out == [] then ':' else out[|out| - 1];
  }

  /** `main` on a single line prints that line's output. */
  lemma ScanOneLine(raw: string, outputMode: bool)
    requires OneLine(raw)
    ensures ScanMain([raw], outputMode) == LineOutput(raw, outputMode)
  {
    assert [raw][1..] == [];
  }
}

=== FILE: seq2seq_data.dfy ===
/** The parallel corpus of the seq2seq model (`ParallelTextDataset.run` and
    `collate_fn` in src/seq2seq/data.py): contiguous source and target
    vocabularies built with `setdefault`, `[bos] + ids + [eos]` targets, and
    batch-local right padding. */
module Seq2SeqData {
  import opened Results
  import opened PySeq
  import opened PyStr
  import opened Dict
  import opened Corpus

  /** Entry `i` carries id `i`: the ids are exactly `0 .. len - 1`. */
  predicate Contiguous(v: Vocab) {
    forall i :: 0 <= i < |v| ==> v[i].1 == i
  }

  /** `for tok, freq in counter.items(): if freq >= min_freq: vocab.setdefault(tok, len(vocab))`. */
  function Extend(v: Vocab, ds: seq<string>, flat: seq<string>, minFreq: int): (r: Vocab)
    ensures |r| >= |v|
    decreases |ds|
  {
    if |ds| == 0 then v
    else Extend(Step(v, ds[0], flat, minFreq), ds[1..], flat, minFreq)
  }

  /** One iteration of the counting loop. */
  function Step(v: Vocab, t: string, flat: seq<string>, minFreq: int): (r: Vocab)
    ensures Count(flat, t) >= minFreq && t !in Keys(v) ==> r == v + [(t, |v|)]
    ensures Count(flat, t) < minFreq || t in Keys(v) ==> r == v
  {
    if Count(flat, t) >= minFreq then SetDefault(v, t, |v|) else v
  }

  /** A step that adds a token appends it with the next id, keeping the
      vocabulary contiguous and its keys distinct. */
  lemma StepAppends(v: Vocab, t: string, flat: seq<string>, minFreq: int)
    requires Count(flat, t) >= minFreq && t !in Keys(v)
    ensures Keys(Step(v, t, flat, minFreq)) == Keys(v) + [t]
    ensures Contiguous(v) ==> Contiguous(Step(v, t, flat, minFreq))
    ensures WellFormed(v) ==> WellFormed(Step(v, t, flat, minFreq))
  {
    assert Keys(v + [(t, |v|)]) == Keys(v) + [t];
  }

  /** `setdefault` never touches an existing entry, so the reserved entries keep
      their ids; new entries continue the numbering, keeping the ids contiguous
      and the keys distinct. */
  lemma {:induction false} ExtendKeepsPrefix(v: Vocab, ds: seq<string>, flat: seq<string>, minFreq: int)
    ensures Extend(v, ds, flat, minFreq)[..|v|] == v
    ensures Contiguous(v) ==> Contiguous(Extend(v, ds, flat, minFreq))
    ensures WellFormed(v) ==> WellFormed(Extend(v, ds, flat, minFreq))
    decreases |ds|
  {
    if |ds| > 0 {
      var v' := Step(v, ds[0], flat, minFreq);
      ExtendKeepsPrefix(v', ds[1..], flat, minFreq);
      var r := Extend(v, ds, flat, minFreq);
      assert r[..|v'|][..|v|] == r[..|v|];
      assert v'[..|v|] == v;
      if v' != v {
        StepAppends(v, ds[0], flat, minFreq);
      }
    }
  }

  /** A token ends up in the vocabulary exactly when it was there already or it
      occurs at least `min_freq` times. */
  lemma {:induction false} ExtendKeys(v: Vocab, ds: seq<string>, flat: seq<string>, minFreq: int, t: string)
    ensures t in Keys(Extend(v, ds, flat, minFreq)) <==> t in Keys(v) || (t in ds && Count(flat, t) >= minFreq)
    decreases |ds|
  {
    if |ds| > 0 {
      var v' := Step(v, ds[0], flat, minFreq);
      ExtendKeys(v', ds[1..], flat, minFreq, t);
      assert t in ds <==> t == ds[0] || t in ds[1..] by {
        assert ds == [ds[0]] + ds[1..];
      }
      if v' != v {
        StepAppends(v, ds[0], flat, minFreq);
      }
    }
  }

  /** In a contiguous vocabulary a token's id is its position. */
  lemma ContiguousGet(v: Vocab, t: string)
    requires Contiguous(v) && t in Keys(v)
    ensures Get(v, t) == Some(IndexOf(Keys(v), t))
  {
  }

  /** Entries present before the pass keep their ids. */
  lemma ExtendGetExisting(v: Vocab, ds: seq<string>, flat: seq<string>, minFreq: int, t: string)
    requires t in Keys(v)
    ensures Get(Extend(v, ds, flat, minFreq), t) == Get(v, t)
  {
    var r := Extend(v, ds, flat, minFreq);
    ExtendKeepsPrefix(v, ds, flat, minFreq);
    assert r == v + r[|v|..];
    GetAppend(v, r[|v|..], t);
  }

  /** A token added by the pass gets an id at or beyond the old length. */
  lemma ExtendNewIdAtLeast(v: Vocab, ds: seq<string>, flat: seq<string>, minFreq: int, t: string)
    requires Contiguous(v) && t !in Keys(v)
    requires t in Keys(Extend(v, ds, flat, minFreq))
    ensures Get(Extend(v, ds, flat, minFreq), t).value >= |v|
  {
    var r := Extend(v, ds, flat, minFreq);
    ExtendKeepsPrefix(v, ds, flat, minFreq);
    var j := IndexOf(Keys(r), t);
    assert r[j] == (t, j);
  }

  /** The first token of the pass, if kept, gets a smaller id than any later
      token added by it. */
  lemma ExtendHeadFirst(v: Vocab, ds: seq<string>, flat: seq<string>, minFreq: int, b: string)
    requires Contiguous(v) && |ds| > 0 && ds[0] !in Keys(v) && Count(flat, ds[0]) >= minFreq
    requires b != ds[0] && b !in Keys(v) && b in Keys(Extend(v, ds, flat, minFreq))
    ensures Get(Extend(v, ds, flat, minFreq), ds[0]) == Some(|v|)
    ensures Get(Extend(v, ds, flat, minFreq), b).value > |v|
  {
    var a := ds[0];
    var v' := Step(v, a, flat, minFreq);
    StepAppends(v, a, flat, minFreq);
    ExtendGetExisting(v', ds[1..], flat, minFreq, a);
    IndexOfLastNew(Keys(v), a);
    ContiguousGet(v', a);
    ExtendNewIdAtLeast(v', ds[1..], flat, minFreq, b);
  }

  /** Of two tokens new to the vocabulary, the one seen first gets the smaller
      id: new ids follow first-seen order. */
  lemma {:induction false} ExtendNewIdsFollowOrder(v: Vocab, ds: seq<string>, flat: seq<string>, minFreq: int, a: string, b: string)
    requires WellFormed(v) && Contiguous(v) && NoDup(ds)
    requires a in ds && b in ds && a !in Keys(v) && b !in Keys(v)
    requires Count(flat, a) >= minFreq && Count(flat, b) >= minFreq
    requires IndexOf(ds, a) < IndexOf(ds, b)
    ensures Get(Extend(v, ds, flat, minFreq), a).Some? && Get(Extend(v, ds, flat, minFreq), b).Some?
    ensures Get(Extend(v, ds, flat, minFreq), a).value < Get(Extend(v, ds, flat, minFreq), b).value
    decreases |ds|
  {
    ExtendKeys(v, ds, flat, minFreq, a);
    ExtendKeys(v, ds, flat, minFreq, b);
    if a == ds[0] {
      ExtendHeadFirst(v, ds, flat, minFreq, b);
    } else {
      StepKeepsOrder(v, ds, flat, minFreq, a, b);
      ExtendNewIdsFollowOrder(Step(v, ds[0], flat, minFreq), ds[1..], flat, minFreq, a, b);
    }
  }

  /** When neither token heads the list, the situation carries over to the
      vocabulary after one step and the rest of the list. */
  lemma StepKeepsOrder(v: Vocab, ds: seq<string>, flat: seq<string>, minFreq: int, a: string, b: string)
    requires WellFormed(v) && Contiguous(v) && NoDup(ds)
    requires a in ds && b in ds && a !in Keys(v) && b !in Keys(v)
    requires IndexOf(ds, a) < IndexOf(ds, b) && a != ds[0]
    ensures var v' := Step(v, ds[0], flat, minFreq);
      && WellFormed(v') && Contiguous(v') && NoDup(ds[1..])
      && a in ds[1..] && b in ds[1..] && a !in Keys(v') && b !in Keys(v')
      && IndexOf(ds[1..], a) < IndexOf(ds[1..], b)
  {
    var v' := Step(v, ds[0], flat, minFreq);
    var tail := ds[1..];
    assert ds == [ds[0]] + tail;
    assert a in tail && b in tail;
    assert IndexOf(ds, a) == 1 + IndexOf(tail, a);
    assert IndexOf(ds, b) == 1 + IndexOf(tail, b);
    if v' != v {
      StepAppends(v, ds[0], flat, minFreq);
    }
  }

  /** Distinct positions carry distinct ids in a contiguous vocabulary. */
  lemma ContiguousInjective(v: Vocab)
    requires Contiguous(v)
    ensures Injective(v)
  {
    forall i, j | 0 <= i < j < |v|
      ensures Values(v)[i] != Values(v)[j]
    {
    }
  }

  /** The reserved entries a side's vocabulary starts from. */
  const SrcReserved: Vocab := [(PadToken, PadId), (UnkToken, UnkId)]
  const TgtReserved: Vocab := [(PadToken, PadId), (UnkToken, UnkId), (BosToken, BosId), (EosToken, EosId)]

  lemma ReservedShape()
    ensures WellFormed(SrcReserved) && Contiguous(SrcReserved)
    ensures WellFormed(TgtReserved) && Contiguous(TgtReserved)
    ensures Keys(SrcReserved) == [PadToken, UnkToken]
    ensures Keys(TgtReserved) == [PadToken, UnkToken, BosToken, EosToken]
  {
    assert Keys(SrcReserved) == [PadToken, UnkToken];
    assert Keys(TgtReserved) == [PadToken, UnkToken, BosToken, EosToken];
  }

  /** One side's vocabulary: the reserved entries, then every token counted at
      least `min_freq` times, numbered in first-seen order. */
  function SideVocab(reserved: Vocab, tokenLists: seq<seq<string>>, minFreq: int): (r: Vocab)
    ensures |r| >= |reserved|
  {
    var flat := Flatten(tokenLists);
    Extend(reserved, Distinct(flat), flat, minFreq)
  }

  /** A side's vocabulary keeps the reserved entries at the front, has ids
      `0 .. len - 1` with distinct tokens, and holds exactly the reserved tokens
      and the frequent ones. */
  lemma SideVocabShape(reserved: Vocab, tokenLists: seq<seq<string>>, minFreq: int)
    requires WellFormed(reserved) && Contiguous(reserved)
    ensures SideVocab(reserved, tokenLists, minFreq)[..|reserved|] == reserved
    ensures Contiguous(SideVocab(reserved, tokenLists, minFreq))
    ensures WellFormed(SideVocab(reserved, tokenLists, minFreq))
    ensures Injective(SideVocab(reserved, tokenLists, minFreq))
    ensures forall t :: t in Keys(SideVocab(reserved, tokenLists, minFreq)) <==>
      t in Keys(reserved) || Count(Flatten(tokenLists), t) >= if minFreq <= 1 then 1 else minFreq
  {
    var flat := Flatten(tokenLists);
    var v := SideVocab(reserved, tokenLists, minFreq);
    ExtendKeepsPrefix(reserved, Distinct(flat), flat, minFreq);
    ContiguousInjective(v);
    forall t
      ensures t in Keys(v) <==> t in Keys(reserved) || Count(flat, t) >= if minFreq <= 1 then 1 else minFreq
    {
      ExtendKeys(reserved, Distinct(flat), flat, minFreq, t);
    }
  }

  /** Two non-reserved tokens that are kept get ids in the order of their first
      occurrence in the corpus. */
  lemma SideVocabFirstSeenOrder(reserved: Vocab, tokenLists: seq<seq<string>>, minFreq: int, a: string, b: string)
    requires WellFormed(reserved) && Contiguous(reserved)
    requires a !in Keys(reserved) && b !in Keys(reserved)
    requires Count(Flatten(tokenLists), a) >= minFreq && Count(Flatten(tokenLists), b) >= minFreq
    requires a in Flatten(tokenLists) && b in Flatten(tokenLists)
    requires IndexOf(Flatten(tokenLists), a) < IndexOf(Flatten(tokenLists), b)
    ensures Get(SideVocab(reserved, tokenLists, minFreq), a).Some?
    ensures Get(SideVocab(reserved, tokenLists, minFreq), b).Some?
    ensures Get(SideVocab(reserved, tokenLists, minFreq), a).value < Get(SideVocab(reserved, tokenLists, minFreq), b).value
  {
    var flat := Flatten(tokenLists);
    DistinctFirstSeenOrder(flat, a, b);
    ExtendNewIdsFollowOrder(reserved, Distinct(flat), flat, minFreq, a, b);
  }

  /** The indexed parallel corpus: both vocabularies and one example per line pair. */
  datatype ParallelDataset = ParallelDataset(srcVocab: Vocab, tgtVocab: Vocab, data: seq<Example>)

  const LineCountMessage: string := "Source and target files must have same number of lines"

  /** `[bos] + [tgt_vocab.get(tok, 1) for tok in toks] + [eos]`. */
  function FrameTarget(tgtVocab: Vocab, toks: seq<string>): (r: seq<int>)
    ensures |r| == |toks| + 2 && r[0] == BosId && r[|r| - 1] == EosId
    ensures forall k :: 0 <= k < |toks| ==> r[k + 1] == Get(tgtVocab, toks[k]).GetOr(UnkId)
  {
    [BosId] + IndexTokens(tgtVocab, toks, UnkId) + [EosId]
  }

  /** `ParallelTextDataset.run`: the line counts of the two files (blank lines
      dropped) must agree; then both vocabularies are built and every line pair
      becomes an example. */
  function Run(srcLines: seq<string>, tgtLines: seq<string>, minFreq: int): (r: Result<ParallelDataset>)
    ensures r.Err? <==> |NonBlankLines(srcLines)| != |NonBlankLines(tgtLines)|
    ensures r.Err? ==> r.error == AssertionError(LineCountMessage)
    ensures r.Ok? ==> |r.value.data| == |NonBlankLines(srcLines)|
  {
    var srcToks := TokenLines(srcLines);
    var tgtToks := TokenLines(tgtLines);
    if |srcToks| != |tgtToks| then Err(AssertionError(LineCountMessage))
    else
      var sv := SideVocab(SrcReserved, srcToks, minFreq);
      var tv := SideVocab(TgtReserved, tgtToks, minFreq);
      Ok(ParallelDataset(sv, tv, seq(|srcToks|, i requires 0 <= i < |srcToks| =>
        Example(IndexTokens(sv, srcToks[i], UnkId), FrameTarget(tv, tgtToks[i])))))
  }

  /** Both vocabularies reserve their special ids and are contiguous. */
  lemma RunVocabs(srcLines: seq<string>, tgtLines: seq<string>, minFreq: int)
    requires Run(srcLines, tgtLines, minFreq).Ok?
    ensures var d := Run(srcLines, tgtLines, minFreq).value;
      && d.srcVocab[..2] == [(PadToken, PadId), (UnkToken, UnkId)]
      && d.tgtVocab[..4] == [(PadToken, PadId), (UnkToken, UnkId), (BosToken, BosId), (EosToken, EosId)]
      && Contiguous(d.srcVocab) && WellFormed(d.srcVocab)
      && Contiguous(d.tgtVocab) && WellFormed(d.tgtVocab)
  {
    ReservedShape();
    SideVocabShape(SrcReserved, TokenLines(srcLines), minFreq);
    SideVocabShape(TgtReserved, TokenLines(tgtLines), minFreq);
  }

  /** Example `i` is line `i` of each file: the source ids index its tokens,
      the target ids are framed by `<bos>` and `<eos>`, and every id is in the
      range of its vocabulary. */
  lemma RunExample(srcLines: seq<string>, tgtLines: seq<string>, minFreq: int, i: nat)
    requires Run(srcLines, tgtLines, minFreq).Ok?
    requires i < |Run(srcLines, tgtLines, minFreq).value.data|
    ensures var d := Run(srcLines, tgtLines, minFreq).value;
      var e := d.data[i];
      var s := TokenLines(srcLines)[i];
      var t := TokenLines(tgtLines)[i];
      && |e.src| == |s| > 0
      && |e.tgt| == |t| + 2 && e.tgt[0] == BosId && e.tgt[|e.tgt| - 1] == EosId
      && (forall k :: 0 <= k < |s| ==> e.src[k] == Get(d.srcVocab, s[k]).GetOr(UnkId))
      && (forall k :: 0 <= k < |t| ==> e.tgt[k + 1] == Get(d.tgtVocab, t[k]).GetOr(UnkId))
      && (forall k :: 0 <= k < |e.src| ==> 0 <= e.src[k] < |d.srcVocab|)
      && (forall k :: 0 <= k < |e.tgt| ==> 0 <= e.tgt[k] < |d.tgtVocab|)
  {
    var d := Run(srcLines, tgtLines, minFreq).value;
    RunVocabs(srcLines, tgtLines, minFreq);
    var s := TokenLines(srcLines)[i];
    var t := TokenLines(tgtLines)[i];
    assert d.data[i] == Example(IndexTokens(d.srcVocab, s, UnkId), FrameTarget(d.tgtVocab, t));
    IndexTokensInRange(d.srcVocab, s);
    FrameTargetInRange(d.tgtVocab, t);
  }

  /** A lookup with fallback `<unk>` in a contiguous vocabulary of at least two
      entries gives an id within range. */
  lemma ContiguousLookup(v: Vocab, t: string)
    requires Contiguous(v) && |v| >= 2
    ensures 0 <= Get(v, t).GetOr(UnkId) < |v|
  {
    if t in Keys(v) {
      ContiguousGet(v, t);
    }
  }

  lemma IndexTokensInRange(v: Vocab, toks: seq<string>)
    requires Contiguous(v) && |v| >= 2
    ensures forall k :: 0 <= k < |toks| ==> 0 <= IndexTokens(v, toks, UnkId)[k] < |v|
  {
    forall k | 0 <= k < |toks|
      ensures 0 <= IndexTokens(v, toks, UnkId)[k] < |v|
    {
      ContiguousLookup(v, toks[k]);
    }
  }

  lemma FrameTargetInRange(v: Vocab, toks: seq<string>)
    requires Contiguous(v) && |v| >= 4
    ensures forall k :: 0 <= k < |toks| + 2 ==> 0 <= FrameTarget(v, toks)[k] < |v|
  {
    var r := FrameTarget(v, toks);
    IndexTokensInRange(v, toks);
    assert r == [BosId] + (IndexTokens(v, toks, UnkId) + [EosId]);
  }

  /** With `min_freq <= 1` no information is lost: mapping a target line's ids
      back through the inverted vocabulary gives its tokens. */
  lemma RunTargetRoundTrip(srcLines: seq<string>, tgtLines: seq<string>, minFreq: int, i: nat, k: nat)
    requires minFreq <= 1 && Run(srcLines, tgtLines, minFreq).Ok?
    requires i < |Run(srcLines, tgtLines, minFreq).value.data|
    requires k < |TokenLines(tgtLines)[i]|
    ensures var d := Run(srcLines, tgtLines, minFreq).value;
      Get(Invert(d.tgtVocab), d.data[i].tgt[k + 1]) == Some(TokenLines(tgtLines)[i][k])
  {
    var d := Run(srcLines, tgtLines, minFreq).value;
    var tl := TokenLines(tgtLines);
    var t := tl[i][k];
    ReservedShape();
    SideVocabShape(TgtReserved, tl, minFreq);
    FlattenMember(tl, i, t);
    assert t in Keys(d.tgtVocab);
    GetSome(d.tgtVocab, t);
    InvertRoundTrip(d.tgtVocab);
  }

  /** `max(len(s) for s in rows)`, taken as 0 on no rows (callers exclude that case). */
  function MaxLen(rows: seq<seq<int>>): (r: nat)
    ensures forall i :: 0 <= i < |rows| ==> |rows[i]| <= r
    ensures |rows| > 0 ==> exists i :: 0 <= i < |rows| && |rows[i]| == r
  {
    if |rows| == 0 then 0
    else
      var m := MaxLen(rows[..|rows| - 1]);
      if |rows[|rows| - 1]| > m then |rows[|rows| - 1]| else m
  }

  /** `row + [0] * (n - len(row))`; a negative repeat count gives no padding. */
  function PadTo(row: seq<int>, n: int): (r: seq<int>)
  {
    row + seq(if n > |row| then n - |row| else 0, _ => PadId)
  }

  /** Right padding keeps the row as a prefix and fills up to `n` with pad ids. */
  lemma PadToShape(row: seq<int>, n: int)
    requires |row| <= n
    ensures |PadTo(row, n)| == n
    ensures PadTo(row, n)[..|row|] == row
    ensures forall k :: |row| <= k < n ==> PadTo(row, n)[k] == PadId
  {
  }

  /** Every row padded to the batch's longest row. */
  function PadRows(rows: seq<seq<int>>): (r: seq<seq<int>>)
    ensures |r| == |rows|
  {
    var n := MaxLen(rows);
    seq(|rows|, i requires 0 <= i < |rows| => PadTo(rows[i], n))
  }

  /** The padded rows form a rectangle as wide as the longest row; each row is
      its original followed by pad ids only. */
  lemma PadRowsShape(rows: seq<seq<int>>, i: nat)
    requires i < |rows|
    ensures |PadRows(rows)[i]| == MaxLen(rows)
    ensures PadRows(rows)[i][..|rows[i]|] == rows[i]
    ensures forall k :: |rows[i]| <= k < MaxLen(rows) ==> PadRows(rows)[i][k] == PadId
  {
    PadToShape(rows[i], MaxLen(rows));
  }

  /** A padded batch: source rows and target rows, each side rectangular. */
  datatype Batch = Batch(src: seq<seq<int>>, tgt: seq<seq<int>>)

  function Sources(batch: seq<Example>): (r: seq<seq<int>>)
    ensures |r| == |batch| && forall i :: 0 <= i < |batch| ==> r[i] == batch[i].src
  {
    seq(|batch|, i requires 0 <= i < |batch| => batch[i].src)
  }

  function Targets(batch: seq<Example>): (r: seq<seq<int>>)
    ensures |r| == |batch| && forall i :: 0 <= i < |batch| ==> r[i] == batch[i].tgt
  {
    seq(|batch|, i requires 0 <= i < |batch| => batch[i].tgt)
  }

  /** `collate_fn`: an empty batch cannot be unpacked into two sides; otherwise
      each side is padded independently to its own longest row. */
  function Collate(batch: seq<Example>): (r: Result<Batch>)
    ensures r.Err? <==> |batch| == 0
    ensures r.Err? ==> r.error == ValueError
    ensures r.Ok? ==> |r.value.src| == |r.value.tgt| == |batch|
  {
    if |batch| == 0 then Err(ValueError)
    else Ok(Batch(PadRows(Sources(batch)), PadRows(Targets(batch))))
  }

  /** Collation loses nothing: example `i` is recovered from row `i` of each
      side by cutting it to its own length, and the two sides are padded to
      their own widths. */
  lemma CollateRecovers(batch: seq<Example>, i: nat)
    requires i < |batch|
    ensures Collate(batch).Ok?
    ensures var b := Collate(batch).value;
      && |b.src[i]| == MaxLen(Sources(batch)) && |b.tgt[i]| == MaxLen(Targets(batch))
      && b.src[i][..|batch[i].src|] == batch[i].src
      && b.tgt[i][..|batch[i].tgt|] == batch[i].tgt
      && (forall k :: |batch[i].src| <= k < |b.src[i]| ==> b.src[i][k] == PadId)
      && (forall k :: |batch[i].tgt| <= k < |b.tgt[i]| ==> b.tgt[i][k] == PadId)
  {
    PadRowsShape(Sources(batch), i);
    PadRowsShape(Targets(batch), i);
  }

  /** The two sides of one batch are padded to different widths. */
  lemma CollateSidesIndependent()
    ensures var b := Collate([Example([5], [2, 7, 8, 3]), Example([5, 6, 9], [2, 3])]);
      && b.Ok?
      && b.value.src == [[5, 0, 0], [5, 6, 9]]
      && b.value.tgt == [[2, 7, 8, 3], [2, 3, 0, 0]]
  {
    var batch := [Example([5], [2, 7, 8, 3]), Example([5, 6, 9], [2, 3])];
    assert Sources(batch) == [[5], [5, 6, 9]];
    assert Targets(batch) == [[2, 7, 8, 3], [2, 3]];
    assert MaxLen(Sources(batch)) == 3;
    assert MaxLen(Targets(batch)) == 4;
    assert PadTo([5], 3) == [5, 0, 0];
    assert PadTo([5, 6, 9], 3) == [5, 6, 9];
    assert PadTo([2, 7, 8, 3], 4) == [2, 7, 8, 3];
    assert PadTo([2, 3], 4) == [2, 3, 0, 0];
  }

  /** `DataLoader(dataset, batch_size)` without shuffling: consecutive groups
      of `size` examples in dataset order, the last one possibly shorter. */
  function Chunks<T>(xs: seq<T>, size: nat): (r: seq<seq<T>>)
    requires size > 0
    ensures forall j :: 0 <= j < |r| ==> 0 < |r[j]| <= size
    decreases |xs|
  {
    if |xs| == 0 then []
    else if |xs| <= size then [xs]
    else [xs[..size]] + Chunks(xs[size..], size)
  }

  /** Batching keeps every example once, in order. */
  lemma {:induction false} ChunksPartition<T>(xs: seq<T>, size: nat)
    requires size > 0
    ensures Flatten(Chunks(xs, size)) == xs
    decreases |xs|
  {
    if |xs| == 0 {
    } else if |xs| <= size {
      assert Flatten([xs]) == Flatten([]) + xs;
    } else {
      var rest := Chunks(xs[size..], size);
      ChunksPartition(xs[size..], size);
      FlattenAppend([xs[..size]], rest);
      assert Flatten([xs[..size]]) == Flatten([]) + xs[..size];
      assert xs == xs[..size] + xs[size..];
    }
  }

  /** Only the last batch may be short. */
  lemma {:induction false} ChunksFull<T>(xs: seq<T>, size: nat)
    requires size > 0
    ensures forall j :: 0 <= j < |Chunks(xs, size)| - 1 ==> |Chunks(xs, size)[j]| == size
    decreases |xs|
  {
    if |xs| > size {
      var rest := Chunks(xs[size..], size);
      ChunksFull(xs[size..], size);
      assert forall j :: 1 <= j < |Chunks(xs, size)| ==> Chunks(xs, size)[j] == rest[j - 1];
    }
  }

  /** Row `k` of batch `j` is example `j * size + k` of the dataset. */
  lemma {:induction false} ChunksAt<T>(xs: seq<T>, size: nat, j: nat, k: nat)
    requires size > 0 && k < size && j * size + k < |xs|
    ensures j < |Chunks(xs, size)| && k < |Chunks(xs, size)[j]|
    ensures Chunks(xs, size)[j][k] == xs[j * size + k]
    decreases j
  {
    if j > 0 {
      var m := (j - 1) * size;
      assert m >= 0;
      assert j * size == m + size;
      ChunksAt(xs[size..], size, j - 1, k);
      assert xs[size..][m + k] == xs[j * size + k];
    }
  }

  /** `build_dataloader`: the dataset and its collated batches in order.
      `ParallelTextDataset.__init__` calls `run` with `min_freq=1` whatever
      the caller passes, so `minFreq` has no effect. The dataset is built
      first, so its error wins; only then does the loader reject a batch
      size below one. */
  function BuildDataloader(srcLines: seq<string>, tgtLines: seq<string>, batchSize: int, minFreq: int): (r: Result<(ParallelDataset, seq<Batch>)>)
    ensures Run(srcLines, tgtLines, 1).Err? ==> r == Err(Run(srcLines, tgtLines, 1).error)
    ensures Run(srcLines, tgtLines, 1).Ok? && batchSize <= 0 ==> r == Err(ValueError)
    ensures r.Ok? <==> Run(srcLines, tgtLines, 1).Ok? && batchSize > 0
    ensures r.Ok? ==> Run(srcLines, tgtLines, 1) == Ok(r.value.0)
    ensures r.Ok? ==> (
      && batchSize > 0
      && |r.value.1| == |Chunks(r.value.0.data, batchSize)|
      && forall j :: 0 <= j < |r.value.1| ==> Collate(Chunks(r.value.0.data, batchSize)[j]) == Ok(r.value.1[j]))
  {
    match Run(srcLines, tgtLines, 1)
    case Err(e) => Err(e)
    case Ok(d) =>
      if batchSize <= 0 then Err(ValueError)
      else
        var chunks := Chunks(d.data, batchSize);
        Ok((d, seq(|chunks|, j requires 0 <= j < |chunks| => Collate(chunks[j]).value)))
  }

  /** Batches collated from the chunks of `data` hold example
      `n = j * size + k` in row `k` of batch `j`, recoverable on both sides. */
  lemma BatchesRecover(data: seq<Example>, size: nat, batches: seq<Batch>, j: nat, k: nat, n: nat)
    requires size > 0 && |batches| == |Chunks(data, size)|
    requires forall i :: 0 <= i < |batches| ==> Collate(Chunks(data, size)[i]) == Ok(batches[i])
    requires k < size && n == j * size + k && n < |data|
    ensures j < |batches| && k < |batches[j].src| && k < |batches[j].tgt|
    ensures |data[n].src| <= |batches[j].src[k]| && |data[n].tgt| <= |batches[j].tgt[k]|
    ensures batches[j].src[k][..|data[n].src|] == data[n].src
    ensures batches[j].tgt[k][..|data[n].tgt|] == data[n].tgt
  {
    var chunks := Chunks(data, size);
    ChunksAt(data, size, j, k);
    var chunk := chunks[j];
    assert Collate(chunk) == Ok(batches[j]);
    CollateRecovers(chunk, k);
  }

  /** The loader loses no example: row `k` of batch `j` holds example
      `n = j * batch_size + k` of the dataset, on both sides, and cutting the
      padded row to the example's own length gives the example back. */
  lemma LoaderRecoversExample(srcLines: seq<string>, tgtLines: seq<string>, batchSize: nat, minFreq: int,
                              d: ParallelDataset, batches: seq<Batch>, j: nat, k: nat, n: nat)
    requires BuildDataloader(srcLines, tgtLines, batchSize, minFreq) == Ok((d, batches))
    requires k < batchSize && n == j * batchSize + k && n < |d.data|
    ensures j < |batches| && k < |batches[j].src| && k < |batches[j].tgt|
    ensures |d.data[n].src| <= |batches[j].src[k]| && |d.data[n].tgt| <= |batches[j].tgt[k]|
    ensures batches[j].src[k][..|d.data[n].src|] == d.data[n].src
    ensures batches[j].tgt[k][..|d.data[n].tgt|] == d.data[n].tgt
  {
    BatchesRecover(d.data, batchSize, batches, j, k, n);
  }

  /** The `min_freq` argument is pinned to 1 on its way to `run`. */
  lemma LoaderIgnoresMinFreq(srcLines: seq<string>, tgtLines: seq<string>, batchSize: int, f1: int, f2: int)
    ensures BuildDataloader(srcLines, tgtLines, batchSize, f1) == BuildDataloader(srcLines, tgtLines, batchSize, f2)
  {
  }
}

=== FILE: seq2seq_eval.dfy ===
/** Evaluation of the seq2seq model (src/seq2seq/evaluate.py): indexing a
    held-out corpus with a stored vocabulary while counting `<unk>`
    substitutions, the greedy decode state machine, and the token-accuracy
    aggregate. The trained network is the abstract `NextId` choice. */
module Seq2SeqEval {
  import opened Results
  import opened PySeq
  import opened Dict
  import opened Corpus
  import opened Seq2SeqData

  /** `vocab.get('<unk>', 1)`: the id substitutions are counted against. */
  function UnkIdOf(v: Vocab): (r: int)
  {
    Get(v, UnkToken).GetOr(UnkId)
  }

  /** `vocab.get(tok, vocab.get('<unk>', 1))`. */
  function Lookup(v: Vocab, tok: string): (r: int)
  {
    Get(v, tok).GetOr(UnkIdOf(v))
  }

  /** A literal `<unk>` token indexes to the id that is counted as a substitution. */
  lemma LiteralUnkCounted(v: Vocab)
    ensures Lookup(v, UnkToken) == UnkIdOf(v)
  {
  }

  /** The ids of one line. */
  function IndexLine(v: Vocab, toks: seq<string>): (r: seq<int>)
    ensures |r| == |toks|
  {
    seq(|toks|, k requires 0 <= k < |toks| => Lookup(v, toks[k]))
  }

  /** The ids of every line. */
  function IndexLines(v: Vocab, lines: seq<seq<string>>): (r: seq<seq<int>>)
    ensures |r| == |lines|
  {
    seq(|lines|, i requires 0 <= i < |lines| => IndexLine(v, lines[i]))
  }

  /** The inner loop of `load_tokenized_dataset`: look every token up and count
      how many ids equal the `<unk>` id. */
  method IndexSide(v: Vocab, toks: seq<string>) returns (ids: seq<int>, unks: nat)
    ensures ids == IndexLine(v, toks)
    ensures unks == Count(ids, UnkIdOf(v)) && unks <= |toks|
  {
    var u := UnkIdOf(v);
    ids := [];
    unks := 0;
    var k := 0;
    while k < |toks|
      invariant 0 <= k <= |toks|
      invariant ids == IndexLine(v, toks[..k]) && unks == Count(ids, u)
    {
      var idx := Lookup(v, toks[k]);
      if idx == u {
        unks := unks + 1;
      }
      CountAppend(ids, [idx], u);
      IndexLineSnoc(v, toks, k);
      ids := ids + [idx];
      k := k + 1;
    }
    assert toks[..k] == toks;
  }

  /** One more token adds its id at the end. */
  lemma IndexLineSnoc(v: Vocab, toks: seq<string>, k: nat)
    requires k < |toks|
    ensures IndexLine(v, toks[..k + 1]) == IndexLine(v, toks[..k]) + [Lookup(v, toks[k])]
  {
    var a := IndexLine(v, toks[..k + 1]);
    var b := IndexLine(v, toks[..k]) + [Lookup(v, toks[k])];
    forall j | 0 <= j < k + 1
      ensures a[j] == b[j]
    {
      assert toks[..k + 1][j] == toks[j];
      if j < k {
        assert toks[..k][j] == toks[j];
      }
    }
  }

  /** What the loader reports: the vocabularies, the examples and the number
      of `<unk>` substitutions per side. */
  datatype EvalDataset = EvalDataset(srcVocab: Vocab, tgtVocab: Vocab, data: seq<Example>,
                                     srcUnkCount: nat, tgtUnkCount: nat)

  /** One evaluation example: the source ids, and the target ids framed by the
      vocabulary's own `<bos>` and `<eos>` ids. */
  function EvalExample(sv: Vocab, tv: Vocab, s: seq<string>, t: seq<string>): (r: Example)
    requires BosToken in Keys(tv) && EosToken in Keys(tv)
    ensures |r.tgt| == |t| + 2
  {
    Example(IndexLine(sv, s), [Get(tv, BosToken).value] + IndexLine(tv, t) + [Get(tv, EosToken).value])
  }

  /** The target of an evaluation example is the indexed target line between
      the vocabulary's `<bos>` and `<eos>` ids. */
  lemma EvalExampleFramed(sv: Vocab, tv: Vocab, s: seq<string>, t: seq<string>)
    requires BosToken in Keys(tv) && EosToken in Keys(tv)
    ensures var r := EvalExample(sv, tv, s, t);
      && r.src == IndexLine(sv, s)
      && |r.tgt| == |t| + 2 && Get(tv, BosToken) == Some(r.tgt[0]) && Get(tv, EosToken) == Some(r.tgt[|t| + 1])
      && r.tgt[1..|t| + 1] == IndexLine(tv, t)
  {
    var r := EvalExample(sv, tv, s, t);
    assert r.tgt[1..|t| + 1] == IndexLine(tv, t);
  }

  /** Extending the counted lines by one adds that line's substitutions. */
  lemma CountLinesSnoc(v: Vocab, lines: seq<seq<string>>, i: nat)
    requires i < |lines|
    ensures Count(Flatten(IndexLines(v, lines[..i + 1])), UnkIdOf(v))
         == Count(Flatten(IndexLines(v, lines[..i])), UnkIdOf(v)) + Count(IndexLine(v, lines[i]), UnkIdOf(v))
  {
    var a := IndexLines(v, lines[..i]);
    var b := IndexLines(v, lines[..i + 1]);
    assert b[..i] == a;
    assert b[i] == IndexLine(v, lines[i]);
    CountAppend(Flatten(a), IndexLine(v, lines[i]), UnkIdOf(v));
  }

  /** The examples of paired token lines. */
  function EvalData(sv: Vocab, tv: Vocab, ss: seq<seq<string>>, ts: seq<seq<string>>): (r: seq<Example>)
    requires |ss| == |ts| && BosToken in Keys(tv) && EosToken in Keys(tv)
    ensures |r| == |ss|
  {
    seq(|ss|, i requires 0 <= i < |ss| => EvalExample(sv, tv, ss[i], ts[i]))
  }

  lemma EvalDataSnoc(sv: Vocab, tv: Vocab, ss: seq<seq<string>>, ts: seq<seq<string>>, i: nat)
    requires i < |ss| == |ts| && BosToken in Keys(tv) && EosToken in Keys(tv)
    ensures EvalData(sv, tv, ss[..i + 1], ts[..i + 1])
         == EvalData(sv, tv, ss[..i], ts[..i]) + [EvalExample(sv, tv, ss[i], ts[i])]
  {
  }

  /** The indexing loop of `load_tokenized_dataset` over paired token lines. */
  method IndexPairs(ss: seq<seq<string>>, ts: seq<seq<string>>, sv: Vocab, tv: Vocab)
    returns (data: seq<Example>, unkSrc: nat, unkTgt: nat)
    requires |ss| == |ts| && BosToken in Keys(tv) && EosToken in Keys(tv)
    ensures data == EvalData(sv, tv, ss, ts)
    ensures unkSrc == Count(Flatten(IndexLines(sv, ss)), UnkIdOf(sv))
    ensures unkTgt == Count(Flatten(IndexLines(tv, ts)), UnkIdOf(tv))
  {
    data := [];
    unkSrc := 0;
    unkTgt := 0;
    var bos := Get(tv, BosToken).value;
    var eos := Get(tv, EosToken).value;
    var i := 0;
    while i < |ss|
      invariant 0 <= i <= |ss|
      invariant data == EvalData(sv, tv, ss[..i], ts[..i])
      invariant unkSrc == Count(Flatten(IndexLines(sv, ss[..i])), UnkIdOf(sv))
      invariant unkTgt == Count(Flatten(IndexLines(tv, ts[..i])), UnkIdOf(tv))
    {
      var e, su, tu := IndexPair(sv, tv, ss[i], ts[i], bos, eos);
      PairSnoc(sv, tv, ss, ts, i);
      data := data + [e];
      unkSrc := unkSrc + su;
      unkTgt := unkTgt + tu;
      i := i + 1;
    }
    assert ss[..i] == ss && ts[..i] == ts;
  }

  /** One line pair: both sides indexed, the target framed by `bos` and
      `eos`, and each side's substitutions counted. */
  method IndexPair(sv: Vocab, tv: Vocab, s: seq<string>, t: seq<string>, bos: int, eos: int)
    returns (e: Example, su: nat, tu: nat)
    ensures e == Example(IndexLine(sv, s), [bos] + IndexLine(tv, t) + [eos])
    ensures su == Count(IndexLine(sv, s), UnkIdOf(sv)) && tu == Count(IndexLine(tv, t), UnkIdOf(tv))
  {
    var srcIds, tgtIds;
    srcIds, su := IndexSide(sv, s);
    tgtIds, tu := IndexSide(tv, t);
    e := Example(srcIds, [bos] + tgtIds + [eos]);
  }

  /** One more line pair extends the examples by its example and each side's
      substitution count by that line's. */
  lemma PairSnoc(sv: Vocab, tv: Vocab, ss: seq<seq<string>>, ts: seq<seq<string>>, i: nat)
    requires i < |ss| == |ts| && BosToken in Keys(tv) && EosToken in Keys(tv)
    ensures EvalData(sv, tv, ss[..i + 1], ts[..i + 1]) == EvalData(sv, tv, ss[..i], ts[..i])
      + [Example(IndexLine(sv, ss[i]), [Get(tv, BosToken).value] + IndexLine(tv, ts[i]) + [Get(tv, EosToken).value])]
    ensures Count(Flatten(IndexLines(sv, ss[..i + 1])), UnkIdOf(sv))
         == Count(Flatten(IndexLines(sv, ss[..i])), UnkIdOf(sv)) + Count(IndexLine(sv, ss[i]), UnkIdOf(sv))
    ensures Count(Flatten(IndexLines(tv, ts[..i + 1])), UnkIdOf(tv))
         == Count(Flatten(IndexLines(tv, ts[..i])), UnkIdOf(tv)) + Count(IndexLine(tv, ts[i]), UnkIdOf(tv))
  {
    EvalDataSnoc(sv, tv, ss, ts, i);
    CountLinesSnoc(sv, ss, i);
    CountLinesSnoc(tv, ts, i);
  }

  /** `load_tokenized_dataset`: the non-blank line counts must agree; every
      line pair is indexed with the given vocabularies and the substitutions
      are counted per side. The target vocabulary must hold `<bos>` and
      `<eos>`. */
  method LoadTokenizedDataset(srcLines: seq<string>, tgtLines: seq<string>, sv: Vocab, tv: Vocab)
    returns (r: Result<EvalDataset>)
    requires BosToken in Keys(tv) && EosToken in Keys(tv)
    ensures r.Err? <==> |NonBlankLines(srcLines)| != |NonBlankLines(tgtLines)|
    ensures r.Err? ==> r.error == AssertionError(LineCountMessage)
    ensures r.Ok? ==> r.value.srcVocab == sv && r.value.tgtVocab == tv
    ensures r.Ok? ==> |r.value.data| == |TokenLines(srcLines)|
    ensures r.Ok? ==> r.value.data == EvalData(sv, tv, TokenLines(srcLines), TokenLines(tgtLines))
    ensures r.Ok? ==> r.value.srcUnkCount == Count(Flatten(IndexLines(sv, TokenLines(srcLines))), UnkIdOf(sv))
    ensures r.Ok? ==> r.value.tgtUnkCount == Count(Flatten(IndexLines(tv, TokenLines(tgtLines))), UnkIdOf(tv))
  {
    var ss := TokenLines(srcLines);
    var ts := TokenLines(tgtLines);
    if |ss| != |ts| {
      return Err(AssertionError(LineCountMessage));
    }
    var data, unkSrc, unkTgt := IndexPairs(ss, ts, sv, tv);
    r := Ok(EvalDataset(sv, tv, data, unkSrc, unkTgt));
  }

  lemma TotalLengthIndexLines(v: Vocab, lines: seq<seq<string>>)
    ensures TotalLength(IndexLines(v, lines)) == TotalLength(lines)
    decreases |lines|
  {
    if |lines| > 0 {
      var n := |lines| - 1;
      assert IndexLines(v, lines)[..n] == IndexLines(v, lines[..n]);
      TotalLengthIndexLines(v, lines[..n]);
    }
  }

  /** A side's substitution count never exceeds its number of tokens. */
  lemma UnkCountBound(v: Vocab, lines: seq<seq<string>>)
    ensures Count(Flatten(IndexLines(v, lines)), UnkIdOf(v)) <= TotalLength(lines)
  {
    FlattenLength(IndexLines(v, lines));
    TotalLengthIndexLines(v, lines);
  }

  /** Where `<unk>` has id 1, both fallbacks give the same ids. */
  lemma IndexLineAgrees(v: Vocab, toks: seq<string>)
    requires Get(v, UnkToken) == Some(UnkId)
    ensures IndexLine(v, toks) == IndexTokens(v, toks, UnkId)
  {
  }

  /** The vocabularies `run` builds hold the reserved tokens at their ids. */
  lemma RunSpecials(srcLines: seq<string>, tgtLines: seq<string>, minFreq: int)
    requires Run(srcLines, tgtLines, minFreq).Ok?
    ensures var d := Run(srcLines, tgtLines, minFreq).value;
      && Get(d.srcVocab, UnkToken) == Some(UnkId)
      && Get(d.tgtVocab, UnkToken) == Some(UnkId)
      && Get(d.tgtVocab, BosToken) == Some(BosId)
      && Get(d.tgtVocab, EosToken) == Some(EosId)
  {
    var d := Run(srcLines, tgtLines, minFreq).value;
    RunVocabs(srcLines, tgtLines, minFreq);
    assert d.srcVocab[1] == d.srcVocab[..2][1];
    assert d.tgtVocab[1] == d.tgtVocab[..4][1];
    assert d.tgtVocab[2] == d.tgtVocab[..4][2];
    assert d.tgtVocab[3] == d.tgtVocab[..4][3];
    GetEntry(d.srcVocab, 1);
    GetEntry(d.tgtVocab, 1);
    GetEntry(d.tgtVocab, 2);
    GetEntry(d.tgtVocab, 3);
  }

  /** With the reserved ids in place, the evaluation framing is `run`'s framing. */
  lemma EvalExampleAgrees(sv: Vocab, tv: Vocab, s: seq<string>, t: seq<string>)
    requires Get(sv, UnkToken) == Some(UnkId) && Get(tv, UnkToken) == Some(UnkId)
    requires Get(tv, BosToken) == Some(BosId) && Get(tv, EosToken) == Some(EosId)
    ensures EvalExample(sv, tv, s, t) == Example(IndexTokens(sv, s, UnkId), FrameTarget(tv, t))
  {
    IndexLineAgrees(sv, s);
    IndexLineAgrees(tv, t);
  }

  /** Loading a corpus with the vocabularies `run` built from that same corpus
      reproduces `run`'s examples. */
  lemma LoadMatchesRun(srcLines: seq<string>, tgtLines: seq<string>, minFreq: int, i: nat)
    requires Run(srcLines, tgtLines, minFreq).Ok?
    requires i < |Run(srcLines, tgtLines, minFreq).value.data|
    ensures var d := Run(srcLines, tgtLines, minFreq).value;
      && BosToken in Keys(d.tgtVocab) && EosToken in Keys(d.tgtVocab)
      && EvalExample(d.srcVocab, d.tgtVocab, TokenLines(srcLines)[i], TokenLines(tgtLines)[i]) == d.data[i]
  {
    var d := Run(srcLines, tgtLines, minFreq).value;
    RunSpecials(srcLines, tgtLines, minFreq);
    var s := TokenLines(srcLines)[i];
    var t := TokenLines(tgtLines)[i];
    EvalExampleAgrees(d.srcVocab, d.tgtVocab, s, t);
    assert d.data[i] == Example(IndexTokens(d.srcVocab, s, UnkId), FrameTarget(d.tgtVocab, t));
  }

  /** The trained model's arg-max choice of the next target id, given the
      source ids and the target ids decoded so far. */
  type NextId = (seq<int>, seq<int>) -> int

  /** The decode loop from prefix `ys` with `budget` iterations left. */
  function Continue(next: NextId, src: seq<int>, eos: int, ys: seq<int>, budget: nat): (r: seq<int>)
    ensures |ys| <= |r| <= |ys| + budget && r[..|ys|] == ys
    decreases budget
  {
    if budget == 0 then ys
    else
      var w := next(src, ys);
      if w == eos then ys + [w] else Continue(next, src, eos, ys + [w], budget - 1)
  }

  /** The ids `greedy_decode` returns: decode from `[bos]` and drop the `bos`. */
  function DecodeIds(next: NextId, src: seq<int>, bos: int, eos: int, maxLen: int): (r: seq<int>)
    ensures |r| <= RangeLen(maxLen)
    ensures maxLen <= 0 ==> r == []
  {
    Continue(next, src, eos, [bos], RangeLen(maxLen))[1..]
  }

  /** The loop appends one chosen id per iteration, stops right after `eos`,
      and otherwise uses up its budget. */
  lemma {:induction false} ContinueShape(next: NextId, src: seq<int>, eos: int, ys: seq<int>, budget: nat)
    ensures var r := Continue(next, src, eos, ys, budget);
      && (forall k :: |ys| <= k < |r| ==> r[k] == next(src, r[..k]))
      && (forall k :: |ys| <= k < |r| - 1 ==> r[k] != eos)
      && (|r| < |ys| + budget ==> |r| > |ys| && r[|r| - 1] == eos)
    decreases budget
  {
    if budget > 0 {
      var w := next(src, ys);
      if w != eos {
        var ys' := ys + [w];
        ContinueShape(next, src, eos, ys', budget - 1);
        var r := Continue(next, src, eos, ys, budget);
        assert r[..|ys'|] == ys';
        assert r[|ys|] == w;
        assert r[..|ys|] == ys;
      }
    }
  }

  /** `greedy_decode` as a state machine: at most `max_len` ids, each the
      model's choice after `[bos]` and the ids before it; `eos` only as the
      last id; fewer than `max_len` ids only when the last one is `eos`. */
  lemma DecodeShape(next: NextId, src: seq<int>, bos: int, eos: int, maxLen: int)
    ensures var r := DecodeIds(next, src, bos, eos, maxLen);
      && |r| <= RangeLen(maxLen)
      && (forall k :: 0 <= k < |r| ==> r[k] == next(src, [bos] + r[..k]))
      && (forall k :: 0 <= k < |r| - 1 ==> r[k] != eos)
      && (|r| < RangeLen(maxLen) ==> |r| > 0 && r[|r| - 1] == eos)
  {
    var full := Continue(next, src, eos, [bos], RangeLen(maxLen));
    var r := DecodeIds(next, src, bos, eos, maxLen);
    ContinueShape(next, src, eos, [bos], RangeLen(maxLen));
    assert full == [bos] + r;
    forall k | 0 <= k < |r|
      ensures r[k] == next(src, [bos] + r[..k])
    {
      assert full[..k + 1] == [bos] + r[..k];
      assert r[k] == full[k + 1];
    }
  }

  /** The shape properties pin the output down: any id list that has them is
      the decoded one. */
  lemma DecodeUnique(next: NextId, src: seq<int>, bos: int, eos: int, maxLen: int, out: seq<int>)
    requires |out| <= RangeLen(maxLen)
    requires forall k :: 0 <= k < |out| ==> out[k] == next(src, [bos] + out[..k])
    requires forall k :: 0 <= k < |out| - 1 ==> out[k] != eos
    requires |out| < RangeLen(maxLen) ==> |out| > 0 && out[|out| - 1] == eos
    ensures out == DecodeIds(next, src, bos, eos, maxLen)
  {
    var r := DecodeIds(next, src, bos, eos, maxLen);
    DecodeShape(next, src, bos, eos, maxLen);
    var m := if |out| < |r| then |out| else |r|;
    SameChoicesAgree(next, src, bos, out, r, m);
    assert |out| == |r|;
    assert out == out[..m] && r == r[..m];
  }

  /** Two lists that each follow the model's choices agree on their common length. */
  lemma {:induction false} SameChoicesAgree(next: NextId, src: seq<int>, bos: int, a: seq<int>, b: seq<int>, m: nat)
    requires m <= |a| && m <= |b|
    requires forall k :: 0 <= k < |a| ==> a[k] == next(src, [bos] + a[..k])
    requires forall k :: 0 <= k < |b| ==> b[k] == next(src, [bos] + b[..k])
    ensures a[..m] == b[..m]
    decreases m
  {
    if m > 0 {
      SameChoicesAgree(next, src, bos, a, b, m - 1);
      assert a[..m - 1] == b[..m - 1];
      assert a[m - 1] == b[m - 1];
      assert a[..m] == a[..m - 1] + [a[m - 1]];
      assert b[..m] == b[..m - 1] + [b[m - 1]];
    }
  }

  /** The decode loop of `greedy_decode`, one model call per iteration. */
  method Decode(next: NextId, src: seq<int>, bos: int, eos: int, maxLen: int) returns (out: seq<int>)
    ensures out == DecodeIds(next, src, bos, eos, maxLen)
  {
    var n := RangeLen(maxLen);
    var ys := [bos];
    var i := 0;
    var done := false;
    while i < n && !done
      invariant 0 <= i <= n && |ys| == i + 1
      invariant done ==> Continue(next, src, eos, [bos], n) == ys
      invariant !done ==> Continue(next, src, eos, [bos], n) == Continue(next, src, eos, ys, n - i)
      decreases n - i
    {
      var w := next(src, ys);
      ys := ys + [w];
      i := i + 1;
      if w == eos {
        done := true;
      }
    }
    out := ys[1..];
  }

  /** `greedy_decode`: the `<bos>` lookup fails on a vocabulary without it, and
      the `<eos>` lookup fails once the loop runs at least once. */
  function GreedyDecode(next: NextId, src: seq<int>, tv: Vocab, maxLen: int): (r: Result<seq<int>>)
    ensures r.Err? <==> BosToken !in Keys(tv) || (maxLen > 0 && EosToken !in Keys(tv))
    ensures r.Err? ==> r.error == KeyError
    ensures r.Ok? ==> |r.value| <= RangeLen(maxLen)
  {
    match Get(tv, BosToken)
    case None => Err(KeyError)
    case Some(bos) =>
      if maxLen <= 0 then Ok([])
      else
        match Get(tv, EosToken)
        case None => Err(KeyError)
        case Some(eos) =>
          DecodeShape(next, src, bos, eos, maxLen);
          Ok(DecodeIds(next, src, bos, eos, maxLen))
  }

  /** A model that never chooses `eos` uses the whole budget. */
  lemma DecodeWithoutEos(next: NextId, src: seq<int>, bos: int, eos: int, maxLen: int)
    requires forall s, p :: next(s, p) != eos
    ensures |DecodeIds(next, src, bos, eos, maxLen)| == RangeLen(maxLen)
  {
    DecodeShape(next, src, bos, eos, maxLen);
  }

  /** One such chooser: always 7, with eos 3 and a budget of 3. */
  lemma DecodeConstantChooser()
    ensures DecodeIds((s: seq<int>, p: seq<int>) => 7, [4, 5], 2, 3, 3) == [7, 7, 7]
  {
    var next := (s: seq<int>, p: seq<int>) => 7;
    assert Continue(next, [4, 5], 3, [2, 7, 7, 7], 0) == [2, 7, 7, 7];
    assert Continue(next, [4, 5], 3, [2, 7, 7], 1) == [2, 7, 7, 7];
    assert Continue(next, [4, 5], 3, [2, 7], 2) == [2, 7, 7, 7];
    assert Continue(next, [4, 5], 3, [2], 3) == [2, 7, 7, 7];
  }

  /** `pred[:-1]` when the prediction ends in `eos`. */
  function StripEos(pred: seq<int>, eos: int): (r: seq<int>)
    ensures r == pred || (|pred| > 0 && pred[|pred| - 1] == eos && r == pred[..|pred| - 1])
    ensures |r| <= |pred|
  {
    if |pred| > 0 && pred[|pred| - 1] == eos then pred[..|pred| - 1] else pred
  }

  /** `tgt_ids[1:]`: the target without its `<bos>`, still ending in `<eos>`. */
  function Reference(tgt: seq<int>): (r: seq<int>)
    ensures |tgt| > 0 ==> r == tgt[1..]
    ensures |tgt| == 0 ==> r == []
  {
    Slice(tgt, 1, |tgt|)
  }

  /** Positions `k < min(len(pred), len(target))` where the two agree. */
  function MatchCount(pred: seq<int>, target: seq<int>): (r: nat)
    ensures r <= |pred| && r <= |target|
  {
    if |pred| == 0 || |target| == 0 then 0
    else (if pred[0] == target[0] then 1 else 0) + MatchCount(pred[1..], target[1..])
  }

  /** Running totals: matched positions and reference tokens. */
  datatype Tally = Tally(correct: nat, total: nat)

  /** One example's contribution: matches of the eos-stripped prediction
      against the reference, and the full reference length. */
  function ScoreExample(pred: seq<int>, tgt: seq<int>, eos: int): (r: Tally)
    ensures r.correct <= r.total == |Reference(tgt)|
  {
    Tally(MatchCount(StripEos(pred, eos), Reference(tgt)), |Reference(tgt)|)
  }

  /** `correct / total`, or 0.0 when no reference token was seen. */
  function Accuracy(t: Tally): (r: real)
    requires t.correct <= t.total
    ensures 0.0 <= r <= 1.0
    ensures t.total == 0 ==> r == 0.0
    ensures t.total > 0 ==> r * (t.total as real) == t.correct as real
  {
    if t.total > 0 then (t.correct as real) / (t.total as real) else 0.0
  }

  /** The decode budget for one example, `len(tgt_ids) + 2`: room for every
      reference id (the reference already ends in `<eos>`) and two more, so a
      prediction is never cut off before it could match the whole reference. */
  function Budget(e: Example): (r: int)
    ensures |e.tgt| > 0 ==> r == |Reference(e.tgt)| + 3
    ensures |e.tgt| == 0 ==> r == 2
    ensures r > |Reference(e.tgt)|
  {
    |e.tgt| + 2
  }

  /** The totals over the first examples of the evaluation set. */
  function TallyAll(next: NextId, data: seq<Example>, bos: int, eos: int): (r: Tally)
    ensures r.correct <= r.total
  {
    if |data| == 0 then Tally(0, 0)
    else
      var t := TallyAll(next, data[..|data| - 1], bos, eos);
      var e := data[|data| - 1];
      var s := ScoreExample(DecodeIds(next, e.src, bos, eos, Budget(e)), e.tgt, eos);
      Tally(t.correct + s.correct, t.total + s.total)
  }

  /** The total is the number of reference tokens: target lengths minus one each. */
  lemma {:induction false} TallyTotal(next: NextId, data: seq<Example>, bos: int, eos: int)
    requires forall i :: 0 <= i < |data| ==> |data[i].tgt| > 0
    ensures TallyAll(next, data, bos, eos).total == TotalLength(Targets(data)) - |data|
    decreases |data|
  {
    if |data| > 0 {
      var n := |data| - 1;
      assert Targets(data)[..n] == Targets(data[..n]);
      TallyTotal(next, data[..n], bos, eos);
      TargetsLong(data[..n]);
    }
  }

  lemma {:induction false} TargetsLong(data: seq<Example>)
    requires forall i :: 0 <= i < |data| ==> |data[i].tgt| > 0
    ensures TotalLength(Targets(data)) >= |data|
    decreases |data|
  {
    if |data| > 0 {
      var n := |data| - 1;
      assert Targets(data)[..n] == Targets(data[..n]);
      TargetsLong(data[..n]);
    }
  }

  /** `compute_accuracy`: decode every example with budget `len(tgt) + 2`,
      score it, and divide the totals. An empty evaluation set touches no
      vocabulary entry and gives 0.0. */
  method ComputeAccuracy(next: NextId, tv: Vocab, data: seq<Example>) returns (r: Result<real>)
    ensures |data| == 0 ==> r == Ok(0.0)
    ensures r.Err? <==> |data| > 0 && (BosToken !in Keys(tv) || EosToken !in Keys(tv))
    ensures r.Err? ==> r.error == KeyError
    ensures r.Ok? && |data| > 0 ==>
      r.value == Accuracy(TallyAll(next, data, Get(tv, BosToken).value, Get(tv, EosToken).value))
    ensures r.Ok? ==> 0.0 <= r.value <= 1.0
  {
    if |data| == 0 {
      return Ok(0.0);
    }
    if BosToken !in Keys(tv) || EosToken !in Keys(tv) {
      var first := GreedyDecode(next, data[0].src, tv, Budget(data[0]));
      assert first.Err?;
      return Err(KeyError);
    }
    var bos := Get(tv, BosToken).value;
    var eos := Get(tv, EosToken).value;
    var tally := TallyLoop(next, data, bos, eos);
    r := Ok(Accuracy(tally));
  }

  /** The counting loop of `compute_accuracy` over every example. */
  method TallyLoop(next: NextId, data: seq<Example>, bos: int, eos: int) returns (tally: Tally)
    ensures tally == TallyAll(next, data, bos, eos)
  {
    var correct: nat := 0;
    var total: nat := 0;
    var i := 0;
    while i < |data|
      invariant 0 <= i <= |data|
      invariant Tally(correct, total) == TallyAll(next, data[..i], bos, eos)
    {
      var c, t := ScoreOne(next, data[i], bos, eos);
      TallySnoc(next, data, bos, eos, i);
      correct := correct + c;
      total := total + t;
      i := i + 1;
    }
    assert data[..i] == data;
    tally := Tally(correct, total);
  }

  /** The loop body of `compute_accuracy` for one example. */
  method ScoreOne(next: NextId, e: Example, bos: int, eos: int) returns (correct: nat, total: nat)
    ensures Tally(correct, total) == ScoreExample(DecodeIds(next, e.src, bos, eos, Budget(e)), e.tgt, eos)
  {
    var pred := Decode(next, e.src, bos, eos, Budget(e));
    pred := StripEos(pred, eos);
    var target := Reference(e.tgt);
    correct := MatchCount(pred, target);
    total := |target|;
  }

  /** The totals over one more example add that example's score. */
  lemma TallySnoc(next: NextId, data: seq<Example>, bos: int, eos: int, i: nat)
    requires i < |data|
    ensures var t := TallyAll(next, data[..i], bos, eos);
      var e := data[i];
      var s := ScoreExample(DecodeIds(next, e.src, bos, eos, Budget(e)), e.tgt, eos);
      TallyAll(next, data[..i + 1], bos, eos) == Tally(t.correct + s.correct, t.total + s.total)
  {
    assert data[..i + 1][..i] == data[..i];
  }

  /** A target built as `[bos] + ids + [eos]` comes back to `ids` after the
      scorer drops `bos` and strips `eos`. */
  lemma ReferenceRoundTrip(bos: int, ids: seq<int>, eos: int)
    ensures StripEos(Reference([bos] + ids + [eos]), eos) == ids
  {
    assert Reference([bos] + ids + [eos]) == ids + [eos];
  }

  lemma {:induction false} MatchCountSelf(s: seq<int>)
    ensures MatchCount(s, s) == |s|
    decreases |s|
  {
    if |s| > 0 {
      MatchCountSelf(s[1..]);
    }
  }

  /** A prediction that reproduces the target tokens and then `eos` scores
      `n` of `n + 1`: the reference keeps its `eos`, the prediction does not. */
  lemma PerfectPredictionScore(bos: int, ids: seq<int>, eos: int)
    ensures ScoreExample(ids + [eos], [bos] + ids + [eos], eos) == Tally(|ids|, |ids| + 1)
  {
    assert Reference([bos] + ids + [eos]) == ids + [eos];
    assert (ids + [eos])[..|ids|] == ids;
    MatchCountPrefix(ids, ids + [eos]);
    MatchCountSelf(ids);
  }

  /** Only the overlap is compared: a longer side's extra ids change nothing. */
  lemma {:induction false} MatchCountPrefix(p: seq<int>, t: seq<int>)
    requires |p| <= |t|
    ensures MatchCount(p, t) == MatchCount(p, t[..|p|])
    decreases |p|
  {
    if |p| > 0 {
      assert t[..|p|][1..] == t[1..][..|p| - 1];
      MatchCountPrefix(p[1..], t[1..]);
    }
  }

  /** A prediction longer than the reference gains nothing from its extra ids. */
  lemma {:induction false} MatchCountIgnoresOverflow(p: seq<int>, extra: seq<int>, t: seq<int>)
    requires |p| >= |t|
    ensures MatchCount(p + extra, t) == MatchCount(p, t)
    decreases |t|
  {
    if |t| > 0 {
      assert (p + extra)[1..] == p[1..] + extra;
      MatchCountIgnoresOverflow(p[1..], extra, t[1..]);
    }
  }

  /** Prediction `[5, 6, 7]` against reference `[5, 6, 8, 9]`: 2 matches out
      of 4 reference tokens. */
  lemma AsymmetricTruncation()
    ensures ScoreExample([5, 6, 7], [2, 5, 6, 8, 9], 3) == Tally(2, 4)
    ensures Accuracy(Tally(2, 4)) == 0.5
  {
    assert Reference([2, 5, 6, 8, 9]) == [5, 6, 8, 9];
    assert MatchCount([7], [8, 9]) == 0;
    assert MatchCount([6, 7], [6, 8, 9]) == 1;
  }
}

=== FILE: seq2seq_train.dfy ===
/** The index logic of one seq2seq training or validation step
    (src/seq2seq/train.py): teacher forcing splits each padded target row into
    an input shifted right and an output shifted left, padding masks mark the
    pad ids, and the loss ignores positions whose expected id is the pad id.
    `train` and `evaluate` build their inputs with the same `PrepareBatch`. */
module Seq2SeqTrain {
  import opened Results
  import opened PySeq
  import opened Dict
  import opened Corpus
  import opened Seq2SeqData

  /** All rows have the same length: a tensor's shape. */
  predicate Rectangular(rows: seq<seq<int>>) {
    forall i, j :: 0 <= i < |rows| && 0 <= j < |rows| ==> |rows[i]| == |rows[j]|
  }

  /** `rows.size(1)`. */
  function Width(rows: seq<seq<int>>): (r: nat)
    ensures Rectangular(rows) ==> forall i :: 0 <= i < |rows| ==> |rows[i]| == r
  {
    if |rows| == 0 then 0 else |rows[0]|
  }

  /** `row == 0` elementwise. */
  function PadMask(row: seq<int>): (r: seq<bool>)
    ensures |r| == |row|
    ensures forall k :: 0 <= k < |row| ==> (r[k] <==> row[k] == PadId)
  {
    seq(|row|, k requires 0 <= k < |row| => row[k] == PadId)
  }

  /** What one step hands to the model and the loss. */
  datatype StepInputs = StepInputs(
    src: seq<seq<int>>,
    tgtInp: seq<seq<int>>,
    tgtOut: seq<seq<int>>,
    causalLen: nat,
    srcPadMask: seq<seq<bool>>,
    tgtPadMask: seq<seq<bool>>)

  /** `tgt[:, :-1]`, `tgt[:, 1:]`, the causal mask's size and the two padding
      masks. */
  function PrepareBatch(b: Batch): (r: StepInputs)
    ensures r.src == b.src && |r.tgtInp| == |r.tgtOut| == |r.tgtPadMask| == |b.tgt|
    ensures |r.srcPadMask| == |b.src|
  {
    var inp := seq(|b.tgt|, i requires 0 <= i < |b.tgt| => Slice(b.tgt[i], 0, -1));
    StepInputs(
      b.src,
      inp,
      seq(|b.tgt|, i requires 0 <= i < |b.tgt| => Slice(b.tgt[i], 1, |b.tgt[i]|)),
      Width(inp),
      seq(|b.src|, i requires 0 <= i < |b.src| => PadMask(b.src[i])),
      seq(|inp|, i requires 0 <= i < |inp| => PadMask(inp[i])))
  }

  /** Teacher forcing: for a target row of length `L >= 1`, input and output
      both have length `L - 1`; the output at `k` is the row at `k + 1`, which
      is the input one position later. */
  lemma ShiftByOne(b: Batch, i: nat)
    requires i < |b.tgt| && |b.tgt[i]| >= 1
    ensures var s := PrepareBatch(b);
      && |s.tgtInp[i]| == |s.tgtOut[i]| == |b.tgt[i]| - 1
      && (forall k :: 0 <= k < |b.tgt[i]| - 1 ==> s.tgtInp[i][k] == b.tgt[i][k] && s.tgtOut[i][k] == b.tgt[i][k + 1])
      && (forall k :: 0 <= k < |b.tgt[i]| - 2 ==> s.tgtOut[i][k] == s.tgtInp[i][k + 1])
  {
    var row := b.tgt[i];
    assert ClampIndex(-1, |row|) == |row| - 1;
  }

  /** The causal mask is built for the width of the shifted input. */
  lemma CausalLength(b: Batch)
    requires |b.tgt| > 0 && Rectangular(b.tgt) && Width(b.tgt) >= 1
    ensures PrepareBatch(b).causalLen == Width(b.tgt) - 1
    ensures Rectangular(PrepareBatch(b).tgtInp) && Rectangular(PrepareBatch(b).tgtOut)
  {
    ShiftByOne(b, 0);
    forall i | 0 <= i < |b.tgt|
      ensures |PrepareBatch(b).tgtInp[i]| == |PrepareBatch(b).tgtOut[i]| == Width(b.tgt) - 1
    {
      ShiftByOne(b, i);
    }
  }

  /** Positions of row `i` whose expected id is not `ignore`; only these feed
      the loss (`CrossEntropyLoss(ignore_index=...)`). */
  predicate Contributes(s: StepInputs, ignore: int, i: nat, k: nat)
    requires i < |s.tgtOut| && k < |s.tgtOut[i]|
  {
    s.tgtOut[i][k] != ignore
  }

  /** How many positions of a row feed the loss. */
  function LossCount(row: seq<int>, ignore: int): (r: nat)
    ensures r <= |row|
  {
    |row| - Count(row, ignore)
  }

  /** The count is the number of positions whose expected id is not ignored. */
  lemma {:induction false} LossCountPositions(row: seq<int>, ignore: int)
    ensures LossCount(row, ignore) == |set k | 0 <= k < |row| && row[k] != ignore|
    decreases |row|
  {
    if |row| > 0 {
      var n := |row| - 1;
      var init := row[..n];
      LossCountPositions(init, ignore);
      var before := set k | 0 <= k < |init| && init[k] != ignore;
      var after := set k | 0 <= k < |row| && row[k] != ignore;
      if row[n] != ignore {
        assert after == before + {n};
      } else {
        assert after == before;
      }
    }
  }

  /** A row of nothing but pad ids feeds nothing to the loss. */
  lemma AllPadAddsNothing(row: seq<int>)
    requires forall k :: 0 <= k < |row| ==> row[k] == PadId
    ensures LossCount(row, PadId) == 0
  {
    AllEqualCount(row, PadId);
  }

  lemma {:induction false} AllEqualCount(row: seq<int>, x: int)
    requires forall k :: 0 <= k < |row| ==> row[k] == x
    ensures Count(row, x) == |row|
    decreases |row|
  {
    if |row| > 0 {
      AllEqualCount(row[..|row| - 1], x);
    }
  }

  /** The ignored index `train` takes from the vocabulary is the pad id 0. */
  lemma IgnoreIndexIsPad(srcLines: seq<string>, tgtLines: seq<string>, minFreq: int)
    requires Run(srcLines, tgtLines, minFreq).Ok?
    ensures Get(Run(srcLines, tgtLines, minFreq).value.tgtVocab, PadToken) == Some(PadId)
  {
    var d := Run(srcLines, tgtLines, minFreq).value;
    RunVocabs(srcLines, tgtLines, minFreq);
    assert d.tgtVocab[0] == d.tgtVocab[..4][0];
    GetEntry(d.tgtVocab, 0);
  }

  /** For a collated example whose target `[bos] + ids + [eos]` holds no pad
      id, the loss sees exactly its next-token targets: position `k` of the
      output row feeds the loss iff `k < len(target) - 1`, and there the
      expected id is `target[k + 1]`. The padding mask of the input row is set
      exactly on the padded tail. */
  lemma CollatedLossPositions(batch: seq<Example>, i: nat)
    requires i < |batch| && |batch[i].tgt| >= 1
    requires forall k :: 0 <= k < |batch[i].tgt| ==> batch[i].tgt[k] != PadId
    ensures Collate(batch).Ok?
    ensures var s := PrepareBatch(Collate(batch).value);
      var t := batch[i].tgt;
      && |s.tgtOut[i]| == MaxLen(Targets(batch)) - 1
      && (forall k :: 0 <= k < |s.tgtOut[i]| ==> (Contributes(s, PadId, i, k) <==> k < |t| - 1))
      && (forall k :: 0 <= k < |t| - 1 ==> s.tgtOut[i][k] == t[k + 1])
      && (forall k :: 0 <= k < |s.tgtInp[i]| ==> (s.tgtPadMask[i][k] <==> k >= |t|))
  {
    var b := Collate(batch).value;
    CollateRecovers(batch, i);
    ShiftByOne(b, i);
    var s := PrepareBatch(b);
    var t := batch[i].tgt;
    assert b.tgt[i][..|t|] == t;
    forall k | 0 <= k < |t|
      ensures b.tgt[i][k] == t[k]
    {
      assert b.tgt[i][..|t|][k] == b.tgt[i][k];
    }
  }

  /** A collated target `[bos] + ids + [eos]` without pad ids feeds exactly
      `len(tgt) - 1` positions to the loss: one per expected id, none for the
      padding added to reach the batch's width. */
  lemma CollatedLossCount(batch: seq<Example>, i: nat)
    requires i < |batch| && |batch[i].tgt| >= 1
    requires forall k :: 0 <= k < |batch[i].tgt| ==> batch[i].tgt[k] != PadId
    ensures Collate(batch).Ok?
    ensures var s := PrepareBatch(Collate(batch).value);
      i < |s.tgtOut| && LossCount(s.tgtOut[i], PadId) == |batch[i].tgt| - 1
  {
    CollatedLossPositions(batch, i);
    var s := PrepareBatch(Collate(batch).value);
    var row := s.tgtOut[i];
    var n := |batch[i].tgt| - 1;
    assert forall k :: 0 <= k < |row| ==> (row[k] != PadId <==> k < n) by {
      forall k | 0 <= k < |row|
        ensures row[k] != PadId <==> k < n
      {
        assert Contributes(s, PadId, i, k) <==> k < n;
      }
    }
    var body, padding := row[..n], row[n..];
    assert row == body + padding;
    CountAppend(body, padding, PadId);
    assert PadId !in body by {
      forall k | 0 <= k < |body|
        ensures body[k] != PadId
      {
        assert body[k] == row[k];
      }
    }
    AllEqualCount(padding, PadId);
  }

  /** The batches of an epoch together hold every example once, so weighting
      each batch's loss by its size and dividing by the dataset size averages
      over examples. */
  lemma BatchSizesSum<T>(xs: seq<T>, size: nat)
    requires size > 0
    ensures TotalLength(Chunks(xs, size)) == |xs|
  {
    ChunksPartition(xs, size);
    FlattenLength(Chunks(xs, size));
  }
}
